=== FILE: README.md ===
# task-tracker core in Dafny

A verified model of the core of the task tracker, a Java task manager that
keeps tasks, epics and the stories each epic owns. The model covers four
parts of it:

- **The in-memory task manager** (`InMemoryTaskManager`). Its state is:
  - a task repository and an epic repository, id-keyed maps filled from one
    shared id counter;
  - an access history, where re-adding an id moves it to the end;
  - a priority index, kept in comparator order: start time ascending with
    unscheduled items last, then id.

  Every find, add, update and delete, the bulk deletes, `createRepository`,
  `size`, `getPrioritizedTasks` and the interval-overlap check are modelled.
- **The story entity** (`Story`): its builder, the `createStory` factories,
  `setStory` and the other setters, and identity-by-id `equals`/`hashCode`.
- **Saving and reloading through a key-value store** (`HTTPTaskManager`).
  The constructor resets the keys, `save` writes conditionally, and
  `load`/`loadStorage`/`loadHistory` re-add every stored item. Reloading maps
  each old id to its new item, rewrites each story's epic id and replays the
  history through that map.
- **Query-string splitting** (`Web.getQueryParameters`), with URL decoding
  passed in as an uninterpreted function.

Layout:

- `items.dfy` (`Items`): the item, epic and failure datatypes, and `Result`.
- `history.dfy` (`History`): the access history as a sequence.
- `priority_index.dfy` (`PriorityIndex`): the comparator, the sorted index
  with insert and remove, `intersected`, and the scan `checkIntersection`
  performs.
- `manager_spec.dfy` (`ManagerSpec`): the manager as a state machine over
  values. Each operation is a function from the old state to its outcome and
  new state. The module also defines the invariants.
- `manager_properties.dfy` (`ManagerProperties`): the properties of those
  transitions, such as invariant preservation, the size bookkeeping and
  "failures change nothing".
- `in_memory.dfy` (`InMemory`): the manager as a class. Its fields are
  updated in place, and each method is proved to take the step the matching
  `ManagerSpec` function describes while keeping the invariant.
- `story.dfy` (`Stories`): `Story` and its `Builder` as classes.
- `persistence.dfy` and `persistence_properties.dfy` (`Persistence`,
  `PersistenceProperties`): the store, `save`, the reload replay, and what a
  reload rebuilds.
- `reloadable.dfy` (`ReloadableStates`): the states a reload gives back. In
  them the index holds every task and story as stored, and no two entries
  trip the overlap check. The module proves these states are kept by every
  find, add and bulk delete, `deleteTask`, `deleteStory`, `updateEpic`, and the
  intended `updateTask`, `updateStory` and `deleteEpic`. It also proves that
  `updateTask` as written leaves them.
- `http_manager.dfy` (`HttpManager`): the key-value server, its client and
  the HTTP-backed manager as classes whose methods are proved against
  `Persistence`.
- `web.dfy` (`Web`): the query-string parser.

Times are integers on one clock and an item's end is its start plus its
duration. The manager's state invariant (`ManagerSpec.Invariant`) says:

- each repository is keyed by its items' ids and holds only issued ids;
- no id belongs to two items and no story belongs to two epics;
- the index is sorted and holds no strictly overlapping pair;
- the history holds no id twice.

Two further predicates are proved where the source keeps them and shown
broken where it does not: `HistoryLive` (every history entry is a live item)
and `IndexLive` (every index entry is the current key of a live task or
story).

## Model

| member | source | states |
|---|---|---|
| History.DropIds | src/main/java/managers/InMemoryTaskManager.java:75-80 | Dropping a set of ids keeps exactly the entries whose id is not in the set, never lengthens the history, and keeps ids unique. |
| History.DropIdsKeepsOrder | src/main/java/managers/InMemoryTaskManager.java:75-80 | The surviving entries are a subsequence of the history: their relative order is unchanged. |
| History.DropIdsConcat | src/main/java/managers/InMemoryTaskManager.java:75-80 | Dropping ids works entry by entry: the survivors of two histories joined are the survivors of each, joined. |
| History.AddMovesToEnd | src/test/java/managers/HttpTaskManagerTest.java:54-73 | Adding an item keeps history ids unique and makes the item the last entry. Every other entry stays except the old entry with the same id. |
| History.AddKeepsOrder | src/test/java/managers/HttpTaskManagerTest.java:54-73 | The entries before the added item are exactly the old entries with another id, in their old relative order. |
| History.RemoveDropsId | src/main/java/managers/InMemoryTaskManager.java:65-72 | Removing an id drops exactly the entries with that id, keeps the others in their relative order and keeps ids unique. Removing an absent id changes nothing. |
| History.RemoveTwice | src/main/java/managers/InMemoryTaskManager.java:116-118 | Removing the same id a second time, as deleteEpic does, changes nothing more. |
| History.AddAllDistinct | src/main/java/managers/HTTPTaskManager.java:92-97 | Replaying accesses to distinct ids into an empty history records exactly those accesses, in order. |
| History.AccessOrderExample | src/test/java/managers/HttpTaskManagerTest.java:54-73 | Accessing ids 1, 2, 3 and then 3, 2 again leaves the history 1, 3, 2. |
| History.RemoveExample | src/main/java/managers/InMemoryTaskManager.java:177 | Removing id 2 from the history 2, 1, 3 leaves 1, 3 in order. |
| PriorityIndex.BeforeIsStrictTotalOrder | src/main/java/managers/InMemoryTaskManager.java:29-32 | The comparator is irreflexive, asymmetric and transitive, and total on distinct (start, id) keys. |
| PriorityIndex.SortedMeansStartThenId | src/main/java/managers/InMemoryTaskManager.java:29-32 | In the index an unscheduled item is followed only by unscheduled items with larger ids. Scheduled items come in start order, with ties broken by ascending id. |
| PriorityIndex.Insert | src/main/java/managers/InMemoryTaskManager.java:218-224 | TreeSet.add keeps the index sorted. A new key adds exactly that item; a key already present leaves the index unchanged. |
| PriorityIndex.RemoveKey | src/main/java/managers/InMemoryTaskManager.java:176 | TreeSet.remove drops exactly the entries with the item's key and keeps the index sorted. |
| PriorityIndex.DropKeys | src/main/java/managers/InMemoryTaskManager.java:183-186 | Removing a set of keys keeps exactly the entries whose key is not in the set, in sorted order. |
| PriorityIndex.DropKeysTwice | src/main/java/managers/InMemoryTaskManager.java:124-131 | Removing key sets one after the other is removing their union. |
| PriorityIndex.IntersectedIsStrictOverlap | src/main/java/managers/InMemoryTaskManager.java:245-250 | With both ends known, intersected holds exactly when one start lies strictly inside the other's open interval. |
| PriorityIndex.TouchingNeverIntersects | src/main/java/managers/InMemoryTaskManager.java:245-250 | Equal starts never intersect, and neither do intervals that only touch at an endpoint. |
| PriorityIndex.IntersectedSymmetric | src/main/java/managers/InMemoryTaskManager.java:245-250 | Whenever intersected completes, swapping the two intervals gives the same answer. |
| PriorityIndex.NeverHitsItself | src/main/java/managers/InMemoryTaskManager.java:235-236 | An item neither conflicts with itself nor stops the scan on itself. |
| PriorityIndex.Conflict | src/main/java/managers/InMemoryTaskManager.java:226-243 | The scan's outcome is "none" on an empty index or an unscheduled candidate. Otherwise it stops at the first entry, in index order, that has a start and intersects the candidate (or whose missing end intersected needs), and every earlier entry passes. |
| PriorityIndex.FirstConflictUnique | src/main/java/managers/InMemoryTaskManager.java:226-243 | Any outcome meeting that first-conflict description is the scan's outcome. |
| PriorityIndex.ClearMeansMisses | src/main/java/managers/InMemoryTaskManager.java:226-243 | The scan finds nothing exactly when every entry passes without a conflict. |
| PriorityIndex.ConflictIgnoresId | src/main/java/managers/InMemoryTaskManager.java:226-243 | The scan depends only on the candidate's start and duration, not on its id or other fields. |
| PriorityIndex.InsertKeepsNoOverlap | src/main/java/managers/InMemoryTaskManager.java:47-54 | A candidate that passes the scan can join a non-overlapping sorted index without creating an overlapping pair. |
| PriorityIndex.DropKeysKeepsNoOverlap | src/main/java/managers/InMemoryTaskManager.java:181-188 | Removing entries never creates an overlap. |
| PriorityIndex.RekeyKeepsNoOverlap | src/main/java/managers/InMemoryTaskManager.java:56-63 | Re-keying one item whose new interval clears every other entry keeps the index sorted and non-overlapping. |
| PriorityIndex.Others | src/main/java/managers/InMemoryTaskManager.java:58 | The index without an item's own entries holds exactly the entries with other ids. |
| ManagerSpec.Listing | src/main/java/models/repositories/tasks/ITasksRepository.java:8 | findAll lists only stored values with issued ids. |
| ManagerSpec.StoryOwner | src/main/java/managers/InMemoryTaskManager.java:148 | The owner found holds the story; there is no owner exactly when no epic holds it. |
| ManagerSpec.AllItems | src/main/java/managers/HTTPTaskManager.java:42 | The storage map holds exactly the ids of tasks, epics and stories, each mapped to that item. |
| ManagerSpec.ConflictFailure | src/main/java/managers/InMemoryTaskManager.java:49-50 | There is no failure exactly when the scan is clear, and any failure names the candidate and an index entry. An interval conflict is reported only for two items that `intersected` finds overlapping and that both have an end time; a clash where the candidate has no end time gives `MissingEndTime`, the null dereference in the exception's message, which formats both end times (`src/main/java/exceptions/ManagerIntersectionTaskIntervalsException.java:11-14`). |
| ManagerProperties.FailuresChangeNothing | src/main/java/managers/InMemoryTaskManager.java:39-179 | Every failing find, add, update and delete (not found, interval conflict, missing epic) leaves the whole state unchanged. |
| ManagerProperties.ConflictDecidesFirst | src/main/java/managers/InMemoryTaskManager.java:47-170 | addTask fails exactly on a conflict. On a conflict, adding and updating tasks and stories, and updating epics, fail with that conflict before existence is checked. addEpic never fails. |
| ManagerProperties.FindRecordsAccess | src/main/java/managers/InMemoryTaskManager.java:39-45 | A find returns the stored item, or NotFound with the kind and id. On success the item becomes the last history entry. |
| ManagerProperties.FindTaskKeepsInvariant | src/main/java/managers/InMemoryTaskManager.java:39-45 | findTask keeps the invariant and the liveness of history. |
| ManagerProperties.FindEpicKeepsInvariant | src/main/java/managers/InMemoryTaskManager.java:88-94 | findEpic keeps the invariant and the liveness of history. |
| ManagerProperties.FindStoryKeepsInvariant | src/main/java/managers/InMemoryTaskManager.java:146-152 | findStory keeps the invariant and the liveness of history. |
| ManagerProperties.AddStoresUnderNextId | src/test/java/web/servers/HttpTaskServerTest.java:47-49 | A successful add stores the item under the next counter id and advances the counter. Tasks and stories join the index; epics leave it unchanged. |
| ManagerProperties.NextIdFree | src/test/java/web/servers/HttpTaskServerTest.java:149-150 | The next id is free in every repository, the index and the live history. |
| ManagerProperties.AddTaskKeepsInvariant | src/main/java/managers/InMemoryTaskManager.java:47-54 | addTask keeps the invariant, including no overlap in the index. |
| ManagerProperties.AddTaskKeepsLive | src/main/java/managers/InMemoryTaskManager.java:47-54 | addTask keeps history and index live. |
| ManagerProperties.AddTaskSize | src/main/java/managers/InMemoryTaskManager.java:204-211 | A successful addTask raises size by one; a failing one leaves it. |
| ManagerProperties.AddEpicKeepsInvariant | src/main/java/managers/InMemoryTaskManager.java:96-99 | addEpic keeps the invariant without touching the index. |
| ManagerProperties.AddEpicKeepsLive | src/main/java/managers/InMemoryTaskManager.java:96-99 | addEpic keeps history and index live. |
| ManagerProperties.AddEpicSize | src/main/java/managers/InMemoryTaskManager.java:204-211 | addEpic raises size by one. |
| ManagerProperties.AddStoryKeepsOwners | src/main/java/managers/InMemoryTaskManager.java:154-161 | After a successful addStory the new story belongs to the epic its epic id names, and every other story keeps its owner. |
| ManagerProperties.AddStoryKeepsInvariant | src/main/java/managers/InMemoryTaskManager.java:154-161 | addStory keeps the invariant. |
| ManagerProperties.AddStoryKeepsLive | src/main/java/managers/InMemoryTaskManager.java:154-161 | addStory keeps history and index live. |
| ManagerProperties.AddStorySize | src/main/java/managers/InMemoryTaskManager.java:204-211 | A successful addStory raises size by one; a failing one leaves it. |
| ManagerProperties.UpdateTaskKeepsInvariant | src/main/java/managers/InMemoryTaskManager.java:56-63 | updateTask keeps the invariant and the size. |
| ManagerProperties.UpdateTaskKeepsLive | src/main/java/managers/InMemoryTaskManager.java:56-63 | updateTask keeps history live, and keeps the index live if the start time does not change. |
| ManagerProperties.UpdateTaskMovedStartLeavesStale | src/main/java/managers/InMemoryTaskManager.java:56-63 | For a successful updateTask of a task with an index entry, the index stays live exactly when the start time does not change: the index is not re-keyed, so a moved task leaves a stale entry. |
| ManagerProperties.UpdateEpicKeepsInvariant | src/main/java/managers/InMemoryTaskManager.java:101-108 | updateEpic keeps the invariant. |
| ManagerProperties.UpdateEpicSize | src/main/java/managers/InMemoryTaskManager.java:101-108 | updateEpic keeps the size, because the stories stay with the epic. |
| ManagerProperties.UpdateEpicKeepsLive | src/main/java/managers/InMemoryTaskManager.java:101-108 | updateEpic changes no story's owner and keeps history and index live. |
| ManagerProperties.UpdateStoryKeepsInvariant | src/main/java/managers/InMemoryTaskManager.java:163-170 | updateStory keeps the invariant. |
| ManagerProperties.UpdateStorySize | src/main/java/managers/InMemoryTaskManager.java:163-170 | updateStory keeps the size. |
| ManagerProperties.UpdateStoryKeepsLive | src/main/java/managers/InMemoryTaskManager.java:163-170 | updateStory keeps history live, and keeps the index live if the start time does not change. |
| ManagerProperties.UpdateStoryMovedStartLeavesStale | src/main/java/managers/InMemoryTaskManager.java:163-170 | For a successful updateStory of a story with an index entry, the index stays live exactly when the start time does not change. |
| ManagerProperties.UpdateConflictsWithItself | src/main/java/managers/InMemoryTaskManager.java:58 | A task over [10, 20) moved to start at 15 is rejected by updateTask as written, in conflict with its own entry. The intended update accepts it. |
| ManagerProperties.UpdateTaskExcludingSelfKeepsInvariant | src/main/java/managers/InMemoryTaskManager.java:56-63 | The intended update keeps the invariant. On success the new interval clears every other entry and the task is replaced under its id. |
| ManagerProperties.UpdateTaskExcludingSelfKeepsLive | src/main/java/managers/InMemoryTaskManager.java:56-63 | The intended update keeps the index live whatever the new start time. |
| ManagerProperties.UpdateStoryConflictsWithItself | src/main/java/managers/InMemoryTaskManager.java:164 | Story 2 of epic 1 over [10, 20), moved to start at 15, is rejected by updateStory as written, in conflict with its own entry. The intended update accepts it. |
| ManagerProperties.UpdateStoryExcludingSelfKeepsInvariant | src/main/java/managers/InMemoryTaskManager.java:163-170 | The intended story update keeps the invariant. On success the new interval clears every other entry, and the story is replaced in the epic that owns it, carrying that epic's id. |
| ManagerProperties.UpdateStoryExcludingSelfKeepsHistoryLive | src/main/java/managers/InMemoryTaskManager.java:163-170 | The intended story update keeps history live. |
| ManagerProperties.UpdateStoryExcludingSelfKeepsLive | src/main/java/managers/InMemoryTaskManager.java:163-170 | The intended story update keeps the index live whatever the new start time. |
| ManagerProperties.DeleteTaskKeepsInvariant | src/main/java/managers/InMemoryTaskManager.java:65-72 | deleteTask keeps the invariant and lowers size by one exactly when it succeeds. |
| ManagerProperties.DeleteTaskKeepsLive | src/main/java/managers/InMemoryTaskManager.java:65-72 | After a successful deleteTask the id is gone from history, and history and index stay live. |
| ManagerProperties.DeleteStoryKeepsInvariant | src/main/java/managers/InMemoryTaskManager.java:172-179 | deleteStory keeps the invariant. |
| ManagerProperties.DeleteStorySize | src/main/java/managers/InMemoryTaskManager.java:172-179 | deleteStory lowers size by one exactly when it succeeds. |
| ManagerProperties.DeleteStoryKeepsHistoryLive | src/main/java/managers/InMemoryTaskManager.java:172-179 | After a successful deleteStory the id is gone from history, and history stays live. |
| ManagerProperties.DeleteStoryKeepsIndexLive | src/main/java/managers/InMemoryTaskManager.java:172-179 | deleteStory keeps the index live. |
| ManagerProperties.DeleteEpicKeepsInvariant | src/main/java/managers/InMemoryTaskManager.java:110-120 | deleteEpic, as written and as intended, keeps the invariant. |
| ManagerProperties.DeleteEpicSize | src/main/java/managers/InMemoryTaskManager.java:110-120 | A successful deleteEpic lowers size by one plus the epic's story count, and both versions agree on size. |
| ManagerProperties.DeleteEpicKeepsIndexLive | src/main/java/managers/InMemoryTaskManager.java:110-120 | deleteEpic keeps the index live. Both versions leave the same repositories and index. |
| ManagerProperties.DeleteEpicLeavesStoryInHistory | src/main/java/managers/InMemoryTaskManager.java:116 | Take epic 1 with story 2, and the story in history. deleteEpic as written leaves the dead story in history; the intended version empties it. |
| ManagerProperties.DeleteEpicScrubbingStoriesKeepsHistoryLive | src/main/java/managers/InMemoryTaskManager.java:110-120 | The intended deleteEpic keeps history live, and removes the epic's id and every one of its story ids from history. |
| ManagerProperties.DeleteAllTasksKeepsInvariant | src/main/java/managers/InMemoryTaskManager.java:74-81 | deleteAllTasks keeps the invariant and lowers size by the task count. |
| ManagerProperties.DeleteAllTasksKeepsLive | src/main/java/managers/InMemoryTaskManager.java:74-81 | After deleteAllTasks no history entry has a task id, and history and index stay live. |
| ManagerProperties.DeleteAllEpicsKeepsInvariant | src/main/java/managers/InMemoryTaskManager.java:122-132 | deleteAllEpics keeps the invariant and leaves the task count as size. |
| ManagerProperties.DeleteAllEpicsKeepsLive | src/main/java/managers/InMemoryTaskManager.java:122-132 | After deleteAllEpics no history entry has an epic or story id, and history and index stay live. |
| ManagerProperties.DeleteAllStoriesKeepsInvariant | src/main/java/managers/InMemoryTaskManager.java:181-188 | deleteAllStories keeps the invariant. |
| ManagerProperties.DeleteAllStoriesSize | src/main/java/managers/InMemoryTaskManager.java:181-188 | For a stored epic, deleteAllStories lowers size by its story count. |
| ManagerProperties.DeleteAllStoriesKeepsLive | src/main/java/managers/InMemoryTaskManager.java:181-188 | After deleteAllStories on a stored epic none of its story ids is in history, and history stays live. |
| ManagerProperties.DeleteAllStoriesKeepsIndexLive | src/main/java/managers/InMemoryTaskManager.java:181-188 | deleteAllStories on a stored epic keeps the index live. |
| ManagerProperties.AddEpicsAddsEach | src/main/java/managers/InMemoryTaskManager.java:193-195 | Adding epics one by one keeps the invariant and issues one id and stores one epic per item. Tasks, history and index are untouched. |
| ManagerProperties.AddTasksAddsEach | src/main/java/managers/InMemoryTaskManager.java:196-198 | Adding tasks one by one keeps the invariant and leaves epics and history alone. When all succeed, one id is issued and one task stored per item. |
| ManagerProperties.CreateRepositoryRebuilds | src/main/java/managers/InMemoryTaskManager.java:190-202 | An unknown repository kind fails and changes nothing. Otherwise the chosen repository is rebuilt from the items alone and the other one is kept. |
| ManagerProperties.ListingInIdOrder | src/main/java/managers/InMemoryTaskManager.java:35-37 | findAll lists in ascending id order and contains every stored item with an issued id. |
| ManagerProperties.ListingHoldsAll | src/main/java/managers/InMemoryTaskManager.java:35-37 | When all ids are issued, findAll lists as many items as the repository holds. |
| ManagerProperties.StoryCountReplace | src/main/java/managers/InMemoryTaskManager.java:204-211 | The story count changes by the difference in story counts when one epic is replaced. |
| ManagerProperties.StoryCountRemove | src/main/java/managers/InMemoryTaskManager.java:204-211 | Removing an epic lowers the story count by its stories. |
| ManagerProperties.OwnedUpToMembers | src/main/java/managers/InMemoryTaskManager.java:204-211 | The story ids owned by epics 1..n are exactly those some epic in 1..n holds. |
| ManagerProperties.StoryCountIsOwned | src/main/java/managers/InMemoryTaskManager.java:204-211 | When no story has two owners, counting the stories epic by epic counts each story id once. |
| ManagerProperties.SizeCountsItems | src/main/java/managers/InMemoryTaskManager.java:204-211 | Under the invariant, the story count over the issued ids is the number of story ids, and size is the number of items the manager holds. |
| InMemory.TaskCounter.constructor | src/test/java/web/servers/HttpTaskServerTest.java:45 | A new counter has issued nothing. |
| InMemory.TaskCounter.Next | src/test/java/web/servers/HttpTaskServerTest.java:47-49 | Each id issued is one more than the last. |
| InMemory.TaskCounter.Reset | src/test/java/web/servers/HttpTaskServerTest.java:45 | After a reset the next id is 1 again. |
| InMemory.CheckIntersection | src/main/java/managers/InMemoryTaskManager.java:226-243 | The loop's outcome is the scan's outcome. A reported conflict is an overlap that `intersected` reports with that entry, and "none" means every entry passes. |
| InMemory.ListInOrder | src/main/java/managers/InMemoryTaskManager.java:35-37 | The loop lists the repository in id order. |
| InMemory.Forget | src/main/java/managers/InMemoryTaskManager.java:74-81 | The loop over the tasks removes exactly their ids from history and their keys from the index. |
| InMemory.ForgetStoriesOf | src/main/java/managers/InMemoryTaskManager.java:114-117 | deleteEpic's loop removes the stories' keys from the index but only the epic's id from history, and leaves history alone when there are no stories. |
| InMemory.ForgetEpics | src/main/java/managers/InMemoryTaskManager.java:124-130 | The nested loop removes every story id and epic id from history and every story key from the index. |
| InMemory.InMemoryTaskManager.constructor | src/main/java/managers/InMemoryTaskManager.java:25-33 | A new manager is empty over the given counter and satisfies the invariant. |
| InMemory.InMemoryTaskManager.CheckOverlap | src/main/java/managers/InMemoryTaskManager.java:49-50 | The failure raised is the one the scan of the current index leads to. |
| InMemory.InMemoryTaskManager.FindAllTasks | src/main/java/managers/InMemoryTaskManager.java:35-37 | The tasks in id order. |
| InMemory.InMemoryTaskManager.FindTask | src/main/java/managers/InMemoryTaskManager.java:39-45 | Takes the findTask step and keeps the invariant. |
| InMemory.InMemoryTaskManager.AddTask | src/main/java/managers/InMemoryTaskManager.java:47-54 | Takes the addTask step and keeps the invariant. |
| InMemory.InMemoryTaskManager.UpdateTask | src/main/java/managers/InMemoryTaskManager.java:56-63 | Takes the as-written updateTask step and keeps the invariant. |
| InMemory.InMemoryTaskManager.UpdateTaskExcludingSelf | src/main/java/managers/InMemoryTaskManager.java:56-63 | Takes the intended updateTask step, keeping the invariant and index liveness. |
| InMemory.InMemoryTaskManager.DeleteTask | src/main/java/managers/InMemoryTaskManager.java:65-72 | Takes the deleteTask step and keeps the invariant. |
| InMemory.InMemoryTaskManager.DeleteAllTasks | src/main/java/managers/InMemoryTaskManager.java:74-81 | Takes the deleteAllTasks step and keeps the invariant. |
| InMemory.InMemoryTaskManager.FindAllEpics | src/main/java/managers/InMemoryTaskManager.java:83-86 | The epics in id order. |
| InMemory.InMemoryTaskManager.FindEpic | src/main/java/managers/InMemoryTaskManager.java:88-94 | Takes the findEpic step and keeps the invariant. |
| InMemory.InMemoryTaskManager.AddEpic | src/main/java/managers/InMemoryTaskManager.java:96-99 | Takes the addEpic step and keeps the invariant. |
| InMemory.InMemoryTaskManager.UpdateEpic | src/main/java/managers/InMemoryTaskManager.java:101-108 | Takes the updateEpic step and keeps the invariant. |
| InMemory.InMemoryTaskManager.DeleteEpic | src/main/java/managers/InMemoryTaskManager.java:110-120 | Takes the as-written deleteEpic step and keeps the invariant. |
| InMemory.InMemoryTaskManager.DeleteEpicScrubbingStories | src/main/java/managers/InMemoryTaskManager.java:110-120 | Takes the intended deleteEpic step and keeps the invariant. |
| InMemory.InMemoryTaskManager.DeleteAllEpics | src/main/java/managers/InMemoryTaskManager.java:122-132 | Takes the deleteAllEpics step and keeps the invariant. |
| InMemory.InMemoryTaskManager.FindAllStoriesOf | src/main/java/managers/InMemoryTaskManager.java:134-137 | The epic's stories, or a missing-epic failure exactly when there is no such epic. |
| InMemory.InMemoryTaskManager.FindAllStories | src/main/java/managers/InMemoryTaskManager.java:139-145 | The stories of each epic in turn, epics in id order. |
| InMemory.InMemoryTaskManager.OwnerOf | src/main/java/managers/InMemoryTaskManager.java:148 | The epic that owns the story, if any. |
| InMemory.InMemoryTaskManager.FindStory | src/main/java/managers/InMemoryTaskManager.java:146-152 | Takes the findStory step and keeps the invariant. |
| InMemory.InMemoryTaskManager.AddStory | src/main/java/managers/InMemoryTaskManager.java:154-161 | Takes the addStory step and keeps the invariant. |
| InMemory.InMemoryTaskManager.UpdateStory | src/main/java/managers/InMemoryTaskManager.java:163-170 | Takes the updateStory step and keeps the invariant. |
| InMemory.InMemoryTaskManager.UpdateStoryExcludingSelf | src/main/java/managers/InMemoryTaskManager.java:163-170 | Takes the intended updateStory step and keeps the invariant and a live index. |
| InMemory.InMemoryTaskManager.DeleteStory | src/main/java/managers/InMemoryTaskManager.java:172-179 | Takes the deleteStory step and keeps the invariant. |
| InMemory.InMemoryTaskManager.DeleteAllStories | src/main/java/managers/InMemoryTaskManager.java:181-188 | Takes the deleteAllStories step and keeps the invariant. |
| InMemory.InMemoryTaskManager.CreateRepository | src/main/java/managers/InMemoryTaskManager.java:190-202 | Takes the createRepository step and keeps the invariant. |
| InMemory.InMemoryTaskManager.AddEachEpic | src/main/java/managers/InMemoryTaskManager.java:195 | The epic loop adds each epic in order, keeping the invariant. |
| InMemory.InMemoryTaskManager.AddEachTask | src/main/java/managers/InMemoryTaskManager.java:198 | The task loop adds each task in order, keeping the invariant, and stops at the first failure. |
| InMemory.InMemoryTaskManager.Size | src/main/java/managers/InMemoryTaskManager.java:204-211 | On a valid manager, the loop's sum is tasks plus epics plus the stories of the epics with issued ids. By SizeCountsItems that is every item held. |
| InMemory.InMemoryTaskManager.GetPrioritizedTasks | src/main/java/managers/InMemoryTaskManager.java:213-215 | A copy of the index, sorted in comparator order and free of overlapping pairs. |
| Stories.Builder.constructor | src/main/java/models/tasks/Story.java:22-31 | A builder holds the given id, name and epic id, and nothing else yet. |
| Stories.Builder.Description | src/main/java/models/tasks/Story.java:33-36 | Sets the description only and returns the same builder. |
| Stories.Builder.StateTask | src/main/java/models/tasks/Story.java:38-41 | Sets the state only and returns the same builder. |
| Stories.Builder.Duration | src/main/java/models/tasks/Story.java:43-46 | Sets the duration only and returns the same builder. |
| Stories.Builder.StartTime | src/main/java/models/tasks/Story.java:48-51 | Sets the start time only and returns the same builder. |
| Stories.Builder.Build | src/main/java/models/tasks/Story.java:53-55 | A new story of kind STORY carrying every field of the builder. |
| Stories.NewBuilder | src/main/java/models/tasks/Story.java:22-31 | A null name is rejected; otherwise a builder with the id, name and epic id and no optional field. |
| Stories.NewStoryBuilder | src/main/java/models/tasks/Story.java:58-60 | builder(name, epicId) rejects a null name and otherwise starts with id 0. |
| Stories.Story.constructor | src/main/java/models/tasks/Story.java:62-67 | A story takes every field from the builder and has kind STORY. |
| Stories.Story.SetStory | src/main/java/models/tasks/Story.java:112-121 | With null, nothing changes. Otherwise name, description, epic id, duration and start are copied, and id and state stay. The same object is returned either way. |
| Stories.Story.SetEpicId | src/main/java/models/tasks/Story.java:131-133 | Only the epic id changes. |
| Stories.Story.SetName | src/main/java/models/tasks/Story.java:139-141 | Only the name changes. |
| Stories.Story.SetDescription | src/main/java/models/tasks/Story.java:147-149 | Only the description changes. |
| Stories.Story.SetStateTask | src/main/java/models/tasks/Story.java:155-157 | Only the state changes. |
| Stories.EqualsIsSameId | src/main/java/models/tasks/Story.java:159-165 | Two stories are equal exactly when the other is not null and has the same id. |
| Stories.EqualsIsEquivalence | src/main/java/models/tasks/Story.java:159-170 | equals is reflexive, symmetric and transitive, and equal stories have equal hash codes. |
| Stories.HashDependsOnIdOnly | src/main/java/models/tasks/Story.java:167-170 | The hash code is Objects.hash of the id alone, so stories with the same id hash alike. |
| Stories.HashExamples | src/main/java/models/tasks/Story.java:167-170 | Objects.hash of ids 0, 1 and -1, and of a wide id, in 32-bit arithmetic. |
| Stories.CreateStory | src/main/java/models/tasks/Story.java:69-71 | createStory(name, epicId) rejects a null name. Otherwise it gives a story with id 0, that name and epic id, and no optional field. |
| Stories.CreateDescribedStory | src/main/java/models/tasks/Story.java:73-75 | createStory(name, description, epicId) rejects a null name and otherwise gives id 0 and those fields. |
| Stories.CopyStory | src/main/java/models/tasks/Story.java:77-84 | createStory(id, story) gives a new story with the given id and every other field of the source story, with kind STORY. |
| Stories.CreateStoryWithId | src/main/java/models/tasks/Story.java:86-88 | createStory(id, name, epicId) gives those fields and no optional one. |
| Stories.CreateStoryWithDescription | src/main/java/models/tasks/Story.java:90-92 | createStory(id, name, description, epicId) gives those fields. |
| Stories.CreateStoryWithState | src/main/java/models/tasks/Story.java:94-99 | The factory with a state gives those fields. |
| Stories.CreateStoryWithSchedule | src/main/java/models/tasks/Story.java:101-109 | The factory with every field gives exactly those fields. |
| Persistence.PositionOf | src/main/java/managers/HTTPTaskManager.java:75-88 | The first position of the id in the stored list, or the list's length when it is absent. |
| PersistenceProperties.ResetReadsEmpty | src/main/java/managers/HTTPTaskManager.java:29-37 | After construction the storage, tasks, stories and history keys read as empty lists and epics holds "[]". Keys other than the five are untouched. |
| PersistenceProperties.KeysDistinct | src/main/java/managers/HTTPTaskManager.java:22-26 | The five key names are pairwise distinct. |
| PersistenceProperties.SaveWritesStorage | src/main/java/managers/HTTPTaskManager.java:42 | save always writes every item in id order under the storage key, and touches no other key. |
| PersistenceProperties.SaveWritesTasks | src/main/java/managers/HTTPTaskManager.java:43-45 | save writes the tasks only when there are some, and otherwise the key keeps its old value. |
| PersistenceProperties.SaveWritesEpics | src/main/java/managers/HTTPTaskManager.java:46-49 | save writes the epics and their stories only when there are epics, and otherwise both keys keep their old values. |
| PersistenceProperties.SaveWritesHistory | src/main/java/managers/HTTPTaskManager.java:50-52 | save writes the history ids only when history is not empty, and otherwise the key keeps a possibly stale value. |
| PersistenceProperties.SaveWritesWhatIsNotEmpty | src/main/java/managers/HTTPTaskManager.java:40-53 | Everything save writes and leaves, together. |
| PersistenceProperties.LoadAsWrittenLosesEverything | src/main/java/managers/HTTPTaskManager.java:55-63 | load as written always yields an empty manager and leaves the keys reset. |
| PersistenceProperties.SaveThenLoadAsWrittenIsEmpty | src/main/java/managers/HTTPTaskManager.java:55-63 | Even right after saving a non-empty manager, load as written gives an empty one. |
| PersistenceProperties.EmptyStoreLoadsEmpty | src/main/java/managers/HTTPTaskManager.java:73-74 | Null storage and history lists add no items and no history. |
| PersistenceProperties.PositionOfDistinct | src/main/java/managers/HTTPTaskManager.java:75-88 | With distinct stored ids, each item's old id leads back to its own position. |
| PersistenceProperties.ReplayRebuilds | src/main/java/managers/HTTPTaskManager.java:75-88 | A stored list with distinct ids, each story after its epic, and no conflicting intervals replays without failure. The replay keeps the invariant and rebuilds every item renumbered in list order. |
| PersistenceProperties.RebuiltHoldsOnlyRenumbered | src/main/java/managers/HTTPTaskManager.java:75-88 | After that replay the repositories hold only the renumbered stored items, with each story's epic id rewritten to the new id of its epic. |
| PersistenceProperties.ReplayOneKeepsInvariant | src/main/java/managers/HTTPTaskManager.java:78-86 | Re-adding one stored item keeps the manager's invariant. |
| PersistenceProperties.ReplayHistoryAddsAll | src/main/java/managers/HTTPTaskManager.java:92-97 | With every id mapped, replaying history adds the mapped items one after the other, in stored order. |
| PersistenceProperties.UnmappedHistoryIdFails | src/main/java/managers/HTTPTaskManager.java:95 | An unmapped history id makes the replay fail. |
| PersistenceProperties.StorageListFacts | src/main/java/managers/HTTPTaskManager.java:42 | The saved storage list of a well-formed manager has distinct ids, each story after its epic, one entry per item, and each item at its own position. |
| PersistenceProperties.ReloadRestores | src/main/java/managers/HTTPTaskManager.java:65-97 | Take a store holding a manager's storage list and history ids, where the stored intervals re-add without conflict and every story names its owner (ReloadableStates.ReloadableRestores shows which states meet this). Reloading it restores every item and nothing else, renumbered in list order after the counter. Story epic ids point to the new epics, and the history comes back entry by entry in its old order. |
| PersistenceProperties.SaveThenReloadRestores | src/main/java/managers/HTTPTaskManager.java:40-63 | save followed by load reading first restores the manager that way, and leaves the keys reset. With an empty history this needs the history key to read empty already, since save does not overwrite it. |
| ReloadableStates.ReloadableIsCompatible | src/main/java/managers/HTTPTaskManager.java:74-88 | When the index holds every task and story as stored and no two entries trip the overlap check, the saved list re-adds without an interval conflict. |
| ReloadableStates.ReloadableRestores | src/main/java/managers/HTTPTaskManager.java:40-63 | Every reloadable state comes back from save followed by load reading first, with every item renumbered in place and the history in its old order. |
| ReloadableStates.FreshIsReloadable | src/main/java/managers/HTTPTaskManager.java:29-37 | A newly constructed manager is reloadable. |
| ReloadableStates.AddTaskKeepsReloadable | src/main/java/managers/InMemoryTaskManager.java:47-54 | addTask keeps a manager reloadable: the new task enters the index and passes every entry both ways. |
| ReloadableStates.AddEpicKeepsReloadable | src/main/java/managers/InMemoryTaskManager.java:96-99 | addEpic keeps a manager reloadable. |
| ReloadableStates.AddStoryKeepsReloadable | src/main/java/managers/InMemoryTaskManager.java:154-161 | addStory keeps a manager reloadable: the story enters the index and names the epic it joins. |
| ReloadableStates.UpdateTaskExcludingSelfKeepsReloadable | src/main/java/managers/InMemoryTaskManager.java:56-63 | The intended updateTask, which moves the task's index entry, keeps a manager reloadable for any new interval that passes the other entries. |
| ReloadableStates.UpdateStoryExcludingSelfKeepsReloadable | src/main/java/managers/InMemoryTaskManager.java:163-170 | The intended updateStory, which moves the story's index entry and keeps it under its owner, keeps a manager reloadable. |
| ReloadableStates.UpdateEpicKeepsReloadable | src/main/java/managers/InMemoryTaskManager.java:101-108 | updateEpic keeps a manager reloadable. |
| ReloadableStates.FindTaskKeepsReloadable | src/main/java/managers/InMemoryTaskManager.java:40-45 | findTask keeps a manager reloadable. |
| ReloadableStates.FindEpicKeepsReloadable | src/main/java/managers/InMemoryTaskManager.java:89-94 | findEpic keeps a manager reloadable. |
| ReloadableStates.FindStoryKeepsReloadable | src/main/java/managers/InMemoryTaskManager.java:147-152 | findStory keeps a manager reloadable. |
| ReloadableStates.DeleteTaskKeepsReloadable | src/main/java/managers/InMemoryTaskManager.java:65-72 | deleteTask keeps a manager reloadable: every other task and story keeps its index entry. |
| ReloadableStates.DeleteStoryKeepsReloadable | src/main/java/managers/InMemoryTaskManager.java:172-179 | deleteStory keeps a manager reloadable. |
| ReloadableStates.DeleteEpicScrubbingStoriesKeepsReloadable | src/main/java/managers/InMemoryTaskManager.java:110-120 | The intended deleteEpic keeps a manager reloadable: only the epic's own stories leave the index. |
| ReloadableStates.DeleteAllTasksKeepsReloadable | src/main/java/managers/InMemoryTaskManager.java:74-81 | deleteAllTasks keeps a manager reloadable. |
| ReloadableStates.DeleteAllEpicsKeepsReloadable | src/main/java/managers/InMemoryTaskManager.java:122-132 | deleteAllEpics keeps a manager reloadable. |
| ReloadableStates.DeleteAllStoriesKeepsReloadable | src/main/java/managers/InMemoryTaskManager.java:181-188 | deleteAllStories of a stored epic keeps a manager reloadable. |
| ReloadableStates.UpdateThenAddState | src/main/java/managers/InMemoryTaskManager.java:56-63 | Task 1 over [0, 10) moved to [40, 50) by updateTask as written leaves the index at [0, 10), so a task over [45, 55) is then added. |
| ReloadableStates.OverlappingReplayFails | src/main/java/managers/HTTPTaskManager.java:74-88 | Re-adding a task over [40, 50) and then one over [45, 55) ends in an interval conflict. |
| ReloadableStates.UpdateThenAddBreaksReload | src/main/java/managers/InMemoryTaskManager.java:56-63 | updateTask as written takes a reloadable manager out of the reloadable states. After the add the manager still meets the invariant, but what save writes does not reload. |
| HttpManager.KvServer.constructor | src/main/java/web/servers/KVServer.java:21 | A new server holds no data. |
| HttpManager.KvClient.constructor | src/main/java/web/clients/KVTaskClient.java:15-19 | A client talks to the given server. |
| HttpManager.KvClient.Put | src/main/java/web/clients/KVTaskClient.java:35-48 | The key now holds the snapshot and every other key is as it was. |
| HttpManager.KvClient.Load | src/main/java/web/clients/KVTaskClient.java:50-64 | What the key holds, or nothing. |
| HttpManager.HttpTaskManager.constructor | src/main/java/managers/HTTPTaskManager.java:29-37 | A new empty manager over the shared counter, and the five keys reset. |
| HttpManager.HttpTaskManager.StorageItems | src/main/java/managers/HTTPTaskManager.java:42 | The loop lists every item in id order. |
| HttpManager.HttpTaskManager.Save | src/main/java/managers/HTTPTaskManager.java:40-53 | The store afterwards is the one save writes. |
| HttpManager.LoadStorage | src/main/java/managers/HTTPTaskManager.java:65-90 | The loop re-adds the stored items in list order. It succeeds exactly when the replay does, and then returns its old-id map and reaches its state. |
| HttpManager.LoadHistory | src/main/java/managers/HTTPTaskManager.java:92-97 | The loop replays the stored history ids through the map, succeeding exactly when the replay does. |
| HttpManager.Reload | src/main/java/managers/HTTPTaskManager.java:58-62 | loadStorage then loadHistory, the restore from the two snapshots. |
| HttpManager.Load | src/main/java/managers/HTTPTaskManager.java:55-63 | load as written: a fresh manager over the same server and counter, filled from the keys after its constructor reset them. |
| HttpManager.LoadReadingFirst | src/main/java/managers/HTTPTaskManager.java:55-63 | load as intended: the keys are read before the reset, so the manager is rebuilt from the saved snapshots. |
| Web.TrimStartDrops | src/main/java/utils/Web.java:15 | Trimming the start keeps a suffix, drops only characters at or below a space, and stops at one that is not. |
| Web.TrimEndDrops | src/main/java/utils/Web.java:15 | Trimming the end keeps a prefix, drops only characters at or below a space, and stops at one that is not. |
| Web.TrimKeepsMiddle | src/main/java/utils/Web.java:15 | trim is a contiguous slice of the query with only trimmable characters cut from either end. |
| Web.TrimLeavesNoEnds | src/main/java/utils/Web.java:15 | A trimmed query is empty, or starts and ends with a character above a space. |
| Web.SplitOnJoin | src/main/java/utils/Web.java:15-16 | Splitting on a separator gives pieces without it that join back to the input. |
| Web.DropTrailingEmpty | src/main/java/utils/Web.java:15-16 | Pattern.split drops exactly the trailing empty pieces. |
| Web.SegmentsJoin | src/main/java/utils/Web.java:15-16 | A query not ending in '&' splits into exactly the '&'-pieces, which join back to the query. |
| Web.SplitFirst | src/main/java/utils/Web.java:17 | A segment splits at its first '=' only: the key holds no '=', and key, '=' and value make up the segment. There is no value exactly when the segment has no '='. |
| Web.SplitFirstAtFirst | src/main/java/utils/Web.java:17 | A key without '=' followed by '=' and any value, even one containing '=', splits back into that key and value. |
| Web.QueryParameters | src/main/java/utils/Web.java:12-20 | One pair per segment, in segment order. A pair's value is null exactly when its segment has no '='. Then the key is the decoded segment; otherwise the segment is a key without '=', then '=', then a value, and the pair holds both decoded. |
| Web.NullOrBlankIsEmpty | src/main/java/utils/Web.java:13-14 | A null or blank query gives no pairs, both as written and as intended. |
| Web.PairsRoundTrip | src/main/java/utils/Web.java:12-20 | With identity decoding, writing the pairs back out and joining with '&' gives the trimmed query. |
| Web.EntriesFailOnMissingValue | src/main/java/utils/Web.java:18 | Building entries fails exactly when some segment has no '='. Otherwise every entry is the decoded pair of its segment. |
| Web.AsWrittenFailsOnMissingValue | src/main/java/utils/Web.java:12-20 | getQueryParameters as written fails exactly when some segment of the query has no '='. |
| Web.QueryExample | src/main/java/utils/Web.java:12-20 | "k=v=w&x" gives ("k", "v=w") and ("x", null). |
| Web.QueryExampleAsWritten | src/main/java/utils/Web.java:18 | As written, "k=v=w&x" fails on the segment "x". |

## Left out

- The repositories, `AbstractTask` and `InMemoryHistoryManager` are not part of this model. They are modelled as id-keyed maps and a sequence, from how the manager calls them.
- Repository iteration order is taken to be ascending id, which is creation order. The source of `findAll` is not shown.
- Epic-derived fields (start, end and state computed from the stories) are not modelled. An epic's interval is whatever its header carries.
- `AbstractTask`'s defaults for a null state or description are not modelled: an item's state is always one of the three values.
- `LocalDateTime` and `Duration` are integers on one clock, with the end at start plus duration.
- The exceptions are failure values: `NotFound(kind, id)`, `IntervalConflict(candidate, existing)` and `UnsupportedRepository`. The null dereferences the source runs into have their own variants: a missing end time in `intersected` or in the conflict exception's message (`src/main/java/exceptions/ManagerIntersectionTaskIntervalsException.java:11-14`), a missing epic in `addStory` and `findAllStories(epicId)`, an unmapped id during reload, and a null map value in `Map.entry`.
- `createRepository` takes its repository class as a three-way token (epics, tasks, other), because class objects are not modelled.
- JSON encoding (Gson), HTTP, the network, KV-server registration and the API key are not modelled. A stored JSON text is the snapshot value it encodes, and a key never saved reads as null.
- `HTTPTaskManager` extends `FileBackedTaskManager` (`src/main/java/managers/HTTPTaskManager.java:20`), which is not part of this model. The tests expect a change to reach the server without an explicit save (`src/test/java/web/servers/KVServerTest.java:101-112`), so the superclass evidently saves after each change. Here `Save` is a separate call and the operations do not invoke it.
- `CombinedTasksRepository` (used at `HTTPTaskManager.java:60`) is not part of this model. The storage list is taken to be every item in id order, and the assignment at `:60` is not modelled.
- Aliasing is not modelled. The manager stores item values, so the object `loadStorage` puts in its map at `:78` is a copy of what the manager stored.
- A history id with no entry in the reload map makes the source add null to history, and a story whose epic id is unmapped dereferences null. Both are modelled as the failure `UnmappedId`.
- Stories.CopyStory: takes a non-null story; the null argument the Java factory would dereference is not modelled.
- Stories.Story.Equals: compares only against stories or null, not against objects of other classes.
- URL decoding (`URLDecoder` and its `IllegalArgumentException`) is not modelled. The decoder is a function parameter.
- URI parsing is not modelled: the query is given as an optional string.
- Concurrency is not modelled; the manager is used sequentially.
- ManagerSpec.AddEpic, ManagerSpec.UpdateEpic, ManagerSpec.CreateRepository, Persistence.ReplayOne, InMemory.InMemoryTaskManager.AddEpic and InMemory.InMemoryTaskManager.UpdateEpic: each takes only the epic's header and ignores the stories an `Epic` argument carries. Add stores the epic with no stories, and update keeps the stories already stored. `EpicsRepository` is not part of this model, so what `add` and `update` do with those stories is not known. UpdateEpicSize and UpdateEpicKeepsLive rest on this choice.
- ManagerSpec.UpdateStoryExcludingSelf: the updated story stays in the epic that owns it and takes that epic's id. `EpicsRepository.updateStory` is not part of this model, so moving a story to another epic through an update is not modelled.
- PersistenceProperties.ReloadRestores and PersistenceProperties.SaveThenReloadRestores: proved for states whose stored intervals re-add without conflict and whose stories name their owners. ReloadableStates shows that every state a new manager reaches meets this, for any sequence of finds, adds, bulk deletes, `deleteTask`, `deleteStory`, `updateEpic`, and the intended `updateTask`, `updateStory` and `deleteEpic`. Not covered: updateTask and updateStory as written, which leave a stale index entry (and updateStory stores the argument's epic id under the old owner); `createRepository`, which drops stories without touching the index; and deleteEpic as written, which leaves story ids in history.
- The manager works on the `Item` view of a story. `Stories.Story` models the class and its setters, and no lemma relates the two.

## Findings

| source | as written | input that shows it | evidently intended | confidence | as-written member | corrected member |
|---|---|---|---|---|---|---|
| src/main/java/managers/InMemoryTaskManager.java:116 | The loop over the epic's stories removes the epic's id from history, not the story's. | Epic 1 with story 2, and story 2 in history; deleteEpic(1) leaves the dead story 2 in history. | Remove each story id from history, so history holds only live items. | not executed | ManagerProperties.DeleteEpicLeavesStoryInHistory | ManagerProperties.DeleteEpicScrubbingStoriesKeepsHistoryLive |
| src/main/java/managers/HTTPTaskManager.java:57 | load constructs the new manager over the same store first, and its constructor resets all five keys before storage and history are read. | Save a manager with one task, then load: the loaded manager is empty. | Read the storage and history keys before constructing the new manager. | not executed | PersistenceProperties.SaveThenLoadAsWrittenIsEmpty | PersistenceProperties.SaveThenReloadRestores |
| src/main/java/utils/Web.java:18 | Map.entry is given the null value of a segment without '=' and throws. | The query "k=v=w&x" fails on "x". | A segment without '=' gives a null value. | not executed | Web.QueryExampleAsWritten | Web.QueryExample |
| src/main/java/managers/InMemoryTaskManager.java:58 | updateTask checks the new interval against the whole index, including the task's own entry. | Task 1 over [10, 20) moved to start at 15 is rejected, in conflict with itself. | Check against the other entries and move the task's index entry. | not executed | ManagerProperties.UpdateConflictsWithItself | ManagerProperties.UpdateTaskExcludingSelfKeepsInvariant |
| src/main/java/managers/InMemoryTaskManager.java:60 | updateTask replaces the task in the repository but leaves its old entry in the priority index. | Task 1 over [0, 10) moved to [40, 50), then a task over [45, 55) added: both are accepted, and reloading what save writes stops with an interval conflict. | Move the task's index entry to the new interval. | not executed; holds if `TasksRepository.update` stores the argument rather than changing the stored object, which is not part of this model | ReloadableStates.UpdateThenAddBreaksReload | ReloadableStates.UpdateTaskExcludingSelfKeepsReloadable |
| src/main/java/managers/InMemoryTaskManager.java:164-166 | updateStory checks the new interval against the whole index, including the story's own entry, and replaces the story without moving that entry. | Story 2 of epic 1 over [10, 20) moved to start at 15 is rejected, in conflict with itself. | Check against the other entries and move the story's index entry. | not executed | ManagerProperties.UpdateStoryConflictsWithItself | ManagerProperties.UpdateStoryExcludingSelfKeepsInvariant |

=== FILE: history.dfy ===
/** The access history as the manager uses it: a sequence of items, oldest
    access first. Adding an item moves it to the end (an earlier entry with
    the same id is dropped), and removing by id drops that entry if present. */
module History {
  import opened Items

  function Ids(h: seq<Item>): (r: seq<int>)
    ensures |r| == |h| && forall i :: 0 <= i < |h| ==> r[i] == h[i].id
  {
    seq(|h|, i requires 0 <= i < |h| => h[i].id)
  }

  predicate NoDuplicateIds(h: seq<Item>) {
    forall i, j :: 0 <= i < j < |h| ==> h[i].id != h[j].id
  }

  /** `r` is made of entries of `h`, taken in the order they have in `h`. */
  predicate SubsequenceOf(r: seq<Item>, h: seq<Item>)
    decreases |h|
  {
    r == [] || (h != [] && ((r[0] == h[0] && SubsequenceOf(r[1..], h[1..])) || SubsequenceOf(r, h[1..])))
  }

  /** The entries whose id is not in `ids`, in their original order. */
  function DropIds(h: seq<Item>, ids: set<int>): (r: seq<Item>)
    ensures forall x :: x in r <==> x in h && x.id !in ids
    ensures NoDuplicateIds(h) ==> NoDuplicateIds(r)
    ensures |r| <= |h|
    decreases |h|
  {
    if h == [] then []
    else
      var t := DropIds(h[1..], ids);
      if h[0].id in ids then t
      else
        assert NoDuplicateIds(h) ==> forall y :: y in t ==> y.id != h[0].id by {
          if NoDuplicateIds(h) {
            forall y | y in t ensures y.id != h[0].id {
              var i :| 0 <= i < |h[1..]| && h[1..][i] == y;
              assert h[i + 1] == y;
            }
          }
        }
        [h[0]] + t
  }

  /** remove(id) */
  function Remove(h: seq<Item>, id: int): seq<Item> {
    DropIds(h, {id})
  }

  /** add(item): the item becomes the most recent entry. */
  function Add(h: seq<Item>, x: Item): seq<Item> {
    Remove(h, x.id) + [x]
  }

  /** The items added one after the other. */
  function AddAll(h: seq<Item>, xs: seq<Item>): seq<Item>
    decreases |xs|
  {
    if xs == [] then h else Add(AddAll(h, xs[..|xs| - 1]), xs[|xs| - 1])
  }

  /** The entries that survive keep their order. */
  lemma {:induction false} DropIdsKeepsOrder(h: seq<Item>, ids: set<int>)
    ensures SubsequenceOf(DropIds(h, ids), h)
    decreases |h|
  {
    if h != [] {
      DropIdsKeepsOrder(h[1..], ids);
      var t := DropIds(h[1..], ids);
      if h[0].id !in ids {
        assert ([h[0]] + t)[1..] == t;
      }
    }
  }

  /** Dropping ids works entry by entry: the survivors of a concatenation
      are the survivors of each part, in order. */
  lemma {:induction false} DropIdsConcat(a: seq<Item>, b: seq<Item>, ids: set<int>)
    ensures DropIds(a + b, ids) == DropIds(a, ids) + DropIds(b, ids)
    decreases |a|
  {
    if a == [] {
      assert a + b == b;
    } else {
      var ab := a + b;
      var rest := a[1..] + b;
      assert ab[1..] == rest;
      DropIdsConcat(a[1..], b, ids);
      var t := DropIds(rest, ids);
      var u := DropIds(a[1..], ids);
      assert t == u + DropIds(b, ids);
      if a[0].id in ids {
      } else {
        assert [a[0]] + t == ([a[0]] + u) + DropIds(b, ids);
      }
    }
  }
  /** Adding keeps ids unique, makes `x` the last entry, and keeps every other
      entry except the one that had `x`'s id. */
  lemma AddMovesToEnd(h: seq<Item>, x: Item)
    requires NoDuplicateIds(h)
    ensures NoDuplicateIds(Add(h, x))
    ensures Add(h, x)[|Add(h, x)| - 1] == x
    ensures forall y :: y in Add(h, x) <==> y == x || (y in h && y.id != x.id)
  {
    var r := Remove(h, x.id);
    assert forall y :: y in r ==> y.id != x.id;
  }

  /** The entries before the added item are exactly the old entries with
      another id, in their old relative order. */
  lemma AddKeepsOrder(h: seq<Item>, x: Item)
    ensures |Add(h, x)| > 0 && Add(h, x)[|Add(h, x)| - 1] == x
    ensures SubsequenceOf(Add(h, x)[..|Add(h, x)| - 1], h)
    ensures forall y :: y in Add(h, x)[..|Add(h, x)| - 1] <==> y in h && y.id != x.id
  {
    assert Add(h, x)[..|Add(h, x)| - 1] == Remove(h, x.id);
    DropIdsKeepsOrder(h, {x.id});
  }

  /** Removing keeps ids unique and drops exactly the entries with that id;
      the others keep their order. Removing an absent id changes nothing. */
  lemma RemoveDropsId(h: seq<Item>, id: int)
    requires NoDuplicateIds(h)
    ensures NoDuplicateIds(Remove(h, id))
    ensures forall y :: y in Remove(h, id) <==> y in h && y.id != id
    ensures SubsequenceOf(Remove(h, id), h)
    ensures (forall y :: y in h ==> y.id != id) ==> Remove(h, id) == h
  {
    DropIdsKeepsOrder(h, {id});
    if forall y :: y in h ==> y.id != id {
      DropIdsNothing(h, {id});
    }
  }

  /** Dropping ids that do not occur changes nothing. */
  lemma {:induction false} DropIdsNothing(h: seq<Item>, ids: set<int>)
    requires forall y :: y in h ==> y.id !in ids
    ensures DropIds(h, ids) == h
    decreases |h|
  {
    if h != [] {
      assert h[0] in h && h[0].id !in ids;
      assert forall y :: y in h[1..] ==> y in h;
      DropIdsNothing(h[1..], ids);
      assert DropIds(h, ids) == [h[0]] + DropIds(h[1..], ids);
      assert [h[0]] + h[1..] == h;
    }
  }

  /** Dropping id sets one after the other drops their union; in particular
      removing the same id twice is removing it once. */
  lemma {:induction false} DropIdsTwice(h: seq<Item>, a: set<int>, b: set<int>)
    ensures DropIds(DropIds(h, a), b) == DropIds(h, a + b)
    decreases |h|
  {
    if h != [] {
      DropIdsTwice(h[1..], a, b);
      if h[0].id !in a {
        assert DropIds(h, a) == [h[0]] + DropIds(h[1..], a);
        assert ([h[0]] + DropIds(h[1..], a))[1..] == DropIds(h[1..], a);
      }
    }
  }

  /** Removing an id a second time changes nothing. */
  lemma RemoveTwice(h: seq<Item>, id: int)
    ensures Remove(Remove(h, id), id) == Remove(h, id)
  {
    DropIdsTwice(h, {id}, {id});
    assert {id} + {id} == {id};
  }

  /** Adding an item whose id is not recorded appends it. */
  lemma AddNew(h: seq<Item>, x: Item)
    requires forall y :: y in h ==> y.id != x.id
    ensures Add(h, x) == h + [x]
  {
    DropIdsNothing(h, {x.id});
  }

  /** Replaying accesses to distinct ids into an empty history records
      exactly those accesses, in order. */
  lemma {:induction false} AddAllDistinct(xs: seq<Item>)
    requires NoDuplicateIds(xs)
    ensures AddAll([], xs) == xs
    decreases |xs|
  {
    if xs != [] {
      var init := xs[..|xs| - 1];
      var last := xs[|xs| - 1];
      assert NoDuplicateIds(init);
      AddAllDistinct(init);
      assert forall y :: y in init ==> y.id != last.id;
      AddNew(init, last);
      assert init + [last] == xs;
    }
  }

  /** Replaying accesses front to back: the first access, then the rest. */
  lemma {:induction false} AddAllCons(h: seq<Item>, x: Item, xs: seq<Item>)
    ensures AddAll(h, [x] + xs) == AddAll(Add(h, x), xs)
    decreases |xs|
  {
    if xs != [] {
      var init := xs[..|xs| - 1];
      AddAllCons(h, x, init);
      assert ([x] + xs)[..|[x] + xs| - 1] == [x] + init;
    }
  }

  /** Replaying one more access is adding it after the others. */
  lemma AddAllSnoc(h: seq<Item>, xs: seq<Item>, x: Item)
    ensures AddAll(h, xs + [x]) == Add(AddAll(h, xs), x)
  {
    assert (xs + [x])[..|xs|] == xs;
  }

  /** Re-accessing the most recent of three recorded items changes nothing. */
  lemma ReaccessLast(a: Item, b: Item, c: Item)
    requires a.id != c.id && b.id != c.id
    ensures Add([a, b, c], c) == [a, b, c]
  {
    assert [a, b, c][1..] == [b, c];
    assert [b, c][1..] == [c];
    assert DropIds([c], {c.id}) == [];
    assert DropIds([b, c], {c.id}) == [b];
  }

  /** Re-accessing the middle one of three recorded items moves it last. */
  lemma ReaccessMiddle(a: Item, b: Item, c: Item)
    requires a.id != b.id && c.id != b.id
    ensures Add([a, b, c], b) == [a, c, b]
  {
    assert [a, b, c][1..] == [b, c];
    DropIdsNothing([c], {b.id});
    assert DropIds([b, c], {b.id}) == [c];
  }

  /** The accesses 1, 2, 3 and then 3 again record 1, 2, 3. */
  lemma AccessOrderPrefix(xs: seq<Item>)
    requires |xs| == 4 && xs[0].id == 1 && xs[1].id == 2 && xs[2].id == 3 && xs[3] == xs[2]
    ensures AddAll([], xs) == [xs[0], xs[1], xs[2]]
  {
    var three := xs[..3];
    calc {
      AddAll([], xs);
      { assert xs == three + [xs[3]]; }
      AddAll([], three + [xs[3]]);
      { AddAllSnoc([], three, xs[3]); }
      Add(AddAll([], three), xs[3]);
      { assert three == [xs[0], xs[1], xs[2]]; AddAllDistinct(three); }
      Add([xs[0], xs[1], xs[2]], xs[2]);
      { ReaccessLast(xs[0], xs[1], xs[2]); }
      [xs[0], xs[1], xs[2]];
    }
  }

  /** The accesses 1, 2, 3 and then 3, 2 again record 1, 3, 2. */
  lemma AccessOrderExample(xs: seq<Item>)
    requires |xs| == 5 && xs[0].id == 1 && xs[1].id == 2 && xs[2].id == 3
    requires xs[3] == xs[2] && xs[4] == xs[1]
    ensures AddAll([], xs) == [xs[0], xs[2], xs[1]]
  {
    var four := xs[..4];
    calc {
      AddAll([], xs);
      { assert xs == four + [xs[4]]; }
      AddAll([], four + [xs[4]]);
      { AddAllSnoc([], four, xs[4]); }
      Add(AddAll([], four), xs[4]);
      { AccessOrderPrefix(four); }
      Add([xs[0], xs[1], xs[2]], xs[1]);
      { ReaccessMiddle(xs[0], xs[1], xs[2]); }
      [xs[0], xs[2], xs[1]];
    }
  }

  /** Removing 2 from the recorded 2, 1, 3 leaves 1, 3. */
  lemma RemoveExample(a: Item, b: Item, c: Item)
    requires a.id == 1 && b.id == 2 && c.id == 3
    ensures Remove([b, a, c], 2) == [a, c]
  {
    assert [b, a, c][1..] == [a, c];
    DropIdsNothing([a, c], {2});
  }
}

=== FILE: http_manager.dfy ===
/** The HTTP-backed manager: an in-memory manager that writes its state to a
    key-value server through a client, and reloads a new manager from what the
    server holds. In this model `Save` is a separate call; the superclass's
    save after each change is outside the model. The server keeps one map,
    shared by every client; a JSON text is modelled by the snapshot it encodes. */
module HttpManager {
  import opened Items
  import opened ManagerSpec
  import opened Persistence
  import opened InMemory
  import History
  import PersistenceProperties

  /** The key-value server's data, shared by every client that registers. */
  class KvServer {
    var data: Store

    constructor ()
      ensures data == map[]
    {
      data := map[];
    }
  }

  /** A client of the server. */
  class KvClient {
    const server: KvServer

    constructor (server: KvServer)
      ensures this.server == server
    {
      this.server := server;
    }

    /** put: the key now holds the snapshot; every other key is as it was. */
    method Put(key: string, value: Snapshot)
      modifies server
      ensures server.data == old(server.data)[key := value]
    {
      server.data := server.data[key := value];
    }

    /** load: what the key holds, nothing for a key never saved. */
    method Load(key: string) returns (r: Option<Snapshot>)
      ensures r == Lookup(server.data, key)
    {
      if key in server.data {
        r := Some(server.data[key]);
      } else {
        r := None;
      }
    }
  }

  class HttpTaskManager {
    const client: KvClient
    const manager: InMemoryTaskManager

    ghost predicate Valid()
      reads this, manager, manager.counter
    {
      manager.Valid()
    }

    /** A new manager over the shared counter; construction writes "[]"
        under each of the five keys. */
    constructor (client: KvClient, counter: TaskCounter)
      modifies client.server
      ensures this.client == client && fresh(manager) && manager.counter == counter
      ensures client.server.data == Reset(old(client.server.data))
      ensures manager.Model() == Fresh(counter.last) && Valid()
    {
      this.client := client;
      manager := new InMemoryTaskManager(counter);
      new;
      client.Put(StorageKey, EmptyArray);
      client.Put(TasksKey, EmptyArray);
      client.Put(EpicsKey, EmptyArray);
      client.Put(StoriesKey, EmptyArray);
      client.Put(HistoryKey, EmptyArray);
    }

    /** Every item of the manager in id order: the list written under the
        storage key. */
    method StorageItems() returns (ts: seq<Item>)
      requires Valid()
      ensures ts == StorageList(manager.Model())
    {
      ts := [];
      var i := 1;
      while i <= manager.counter.last
        invariant 1 <= i <= manager.counter.last + 1
        invariant ts == Listing(AllItems(manager.Model()), i - 1)
      {
        var owner := manager.OwnerOf(i);
        PersistenceProperties.StorageListStep(manager.Model(), i);
        if i in manager.epics {
          ts := ts + [manager.epics[i].header];
        } else if i in manager.tasks {
          ts := ts + [manager.tasks[i]];
        } else if owner.Some? {
          ts := ts + [manager.epics[owner.value].stories[i]];
        }
        i := i + 1;
      }
    }

    /** save(): the storage list always, and each other key only when its
        collection is not empty. */
    method Save()
      requires Valid()
      modifies client.server
      ensures client.server.data == SaveTo(old(client.server.data), manager.Model())
    {
      var ts := StorageItems();
      client.Put(StorageKey, ItemArray(ts));
      if manager.tasks != map[] {
        var all := manager.FindAllTasks();
        client.Put(TasksKey, ItemArray(all));
      }
      if manager.epics != map[] {
        var es := manager.FindAllEpics();
        client.Put(EpicsKey, EpicArray(es));
        var ss := manager.FindAllStories();
        client.Put(StoriesKey, ItemArray(ss));
      }
      if manager.history != [] {
        client.Put(HistoryKey, IdArray(History.Ids(manager.history)));
      }
    }
  }

  /** loadStorage: the stored items, in list order, are re-added to `into`;
      the map from old ids is built as they go. */
  method LoadStorage(into: HttpTaskManager, snap: Option<Snapshot>) returns (r: Result<map<int, Item>>)
    requires into.Valid()
    modifies into.manager, into.manager.counter
    ensures into.Valid()
    ensures r.Ok? <==> ReplayStored(snap, old(into.manager.Model())).Ok?
    ensures r.Ok? ==> r.value == ReplayStored(snap, old(into.manager.Model())).value.remap
    ensures r.Ok? ==> into.manager.Model() == ReplayStored(snap, old(into.manager.Model())).value.state
  {
    var ts :- ParseItems(snap, StorageKey);
    ghost var start := into.manager.Model();
    var remap: map<int, Item> := map[];
    var i := 0;
    assert ts[0..] == ts;
    while i < |ts|
      invariant 0 <= i <= |ts|
      invariant into.Valid()
      invariant ReplayStorage(Replay(start, map[]), ts) == ReplayStorage(Replay(into.manager.Model(), remap), ts[i..])
    {
      var t := ts[i];
      ghost var before := Replay(into.manager.Model(), remap);
      assert ts[i..][0] == t && ts[i..][1..] == ts[i + 1..];
      remap := remap[t.id := t];
      if t.kind == EPIC {
        var x := into.manager.AddEpic(t);
        remap := remap[t.id := x.value];
      } else if t.kind == STORY {
        if t.epicId !in remap {
          return Err(UnmappedId(t.epicId));
        }
        var x := into.manager.AddStory(t.(epicId := remap[t.epicId].id));
        if x.Err? {
          return Err(x.error);
        }
        remap := remap[t.id := x.value];
      } else {
        var x := into.manager.AddTask(t);
        if x.Err? {
          return Err(x.error);
        }
        remap := remap[t.id := x.value];
      }
      assert ReplayOne(before, t) == Ok(Replay(into.manager.Model(), remap));
      i := i + 1;
    }
    r := Ok(remap);
  }

  /** loadHistory: each stored id, in order, is sent through the map and
      the item it leads to is recorded in the history of `into`. */
  method LoadHistory(into: HttpTaskManager, remap: map<int, Item>, snap: Option<Snapshot>) returns (r: Result<()>)
    requires into.Valid()
    modifies into.manager
    ensures into.Valid()
    ensures r.Ok? <==> ReplayStoredHistory(snap, Replay(old(into.manager.Model()), remap)).Ok?
    ensures r.Ok? ==> into.manager.Model() == ReplayStoredHistory(snap, Replay(old(into.manager.Model()), remap)).value
  {
    var ids :- ParseIds(snap, HistoryKey);
    ghost var start := into.manager.Model();
    var i := 0;
    assert ids[0..] == ids;
    while i < |ids|
      invariant 0 <= i <= |ids|
      invariant into.Valid() && into.manager.counter.last == start.lastId
      invariant ReplayHistory(start, remap, ids) == ReplayHistory(into.manager.Model(), remap, ids[i..])
    {
      var id := ids[i];
      assert ids[i..][0] == id && ids[i..][1..] == ids[i + 1..];
      if id !in remap {
        return Err(UnmappedId(id));
      }
      History.AddMovesToEnd(into.manager.history, remap[id]);
      PersistenceProperties.InvariantWithHistory(into.manager.Model(), History.Add(into.manager.history, remap[id]));
      into.manager.history := History.Add(into.manager.history, remap[id]);
      i := i + 1;
    }
    r := Ok(());
  }

  /** loadStorage and then loadHistory, from the two loaded snapshots. */
  method Reload(into: HttpTaskManager, storage: Option<Snapshot>, history: Option<Snapshot>) returns (r: Result<()>)
    requires into.Valid()
    modifies into.manager, into.manager.counter
    ensures into.Valid()
    ensures r.Ok? <==> Restore(storage, history, old(into.manager.Model())).Ok?
    ensures r.Ok? ==> into.manager.Model() == Restore(storage, history, old(into.manager.Model())).value
  {
    var remap :- LoadStorage(into, storage);
    r := LoadHistory(into, remap, history);
  }

  /** load() as written: the new manager is constructed over the same
      server first, which resets the five keys, and then the storage and
      history keys are read and replayed into it. */
  method Load(from: HttpTaskManager) returns (r: Result<HttpTaskManager>)
    requires from.Valid()
    modifies from.client.server, from.manager.counter
    ensures from.client.server.data == Reset(old(from.client.server.data))
    ensures var want := LoadAsWritten(old(from.client.server.data), old(from.manager.counter.last)).result;
      (r.Ok? <==> want.Ok?) &&
      (r.Ok? ==> fresh(r.value) && fresh(r.value.manager) && r.value.Valid() && r.value.manager.Model() == want.value)
  {
    var client := new KvClient(from.client.server);
    var tm := new HttpTaskManager(client, from.manager.counter);
    var storage := from.client.Load(StorageKey);
    var history := from.client.Load(HistoryKey);
    var done := Reload(tm, storage, history);
    r := match done case Ok(_) => Ok(tm) case Err(f) => Err(f);
  }

  /** load() as evidently intended: the storage and history keys are read
      before the new manager's constructor resets them. */
  method LoadReadingFirst(from: HttpTaskManager) returns (r: Result<HttpTaskManager>)
    requires from.Valid()
    modifies from.client.server, from.manager.counter
    ensures from.client.server.data == Reset(old(from.client.server.data))
    ensures var want := Persistence.LoadReadingFirst(old(from.client.server.data), old(from.manager.counter.last)).result;
      (r.Ok? <==> want.Ok?) &&
      (r.Ok? ==> fresh(r.value) && fresh(r.value.manager) && r.value.Valid() && r.value.manager.Model() == want.value)
  {
    var storage := from.client.Load(StorageKey);
    var history := from.client.Load(HistoryKey);
    var client := new KvClient(from.client.server);
    var tm := new HttpTaskManager(client, from.manager.counter);
    var done := Reload(tm, storage, history);
    r := match done case Ok(_) => Ok(tm) case Err(f) => Err(f);
  }
}

=== FILE: in_memory.dfy ===
/** The in-memory task manager as the object the source builds: repositories,
    history and priority index are fields that the operations update in place,
    and ids come from a counter object shared by every repository. Each method
    is proved against the state machine of ManagerSpec: the outcome and the
    new state are the ones the matching function computes from the old
    state, and the state invariant is kept. */
module InMemory {
  import opened Items
  import opened PriorityIndex
  import History
  import opened ManagerSpec
  import opened ManagerProperties

  /** The shared id counter of the repositories: the last id it issued. */
  class TaskCounter {
    var last: nat

    constructor ()
      ensures last == 0
    {
      last := 0;
    }

    /** The next id: one more than the last one issued. */
    method Next() returns (id: nat)
      modifies this
      ensures id == old(last) + 1 && last == id
    {
      last := last + 1;
      id := last;
    }

    /** Ids start again from 1. */
    method Reset()
      modifies this
      ensures last == 0
    {
      last := 0;
    }
  }

  /** checkIntersection over a given index: the entries are visited in
      comparator order and the first one with a start time that intersects
      the candidate stops the scan; a missing end time that `intersected`
      needs stops it too. */
  method CheckIntersection(entries: seq<Item>, c: Item) returns (r: Scan)
    ensures r == Conflict(entries, c)
    ensures r.Clash? ==> r.at < |entries| && Hits(c, entries[r.at])
    ensures r.Clear? <==> forall y :: y in entries ==> Misses(c, y)
  {
    ClearMeansMisses(entries, c);
    if |entries| > 0 && c.start.Some? {
      var endC := End(c);
      var i := 0;
      while i < |entries|
        invariant 0 <= i <= |entries|
        invariant forall j :: 0 <= j < i ==> Misses(c, entries[j])
      {
        var e := entries[i];
        if e.start.Some? {
          match Intersected(c.start.value, endC, e.start.value, End(e))
          case None =>
            r := NullEnd(i);
            FirstConflictUnique(entries, c, r);
            return;
          case Some(hit) =>
            if hit {
              r := Clash(i);
              FirstConflictUnique(entries, c, r);
              return;
            }
        }
        i := i + 1;
      }
    }
    r := Clear;
    FirstConflictUnique(entries, c, r);
  }

  /** A repository's findAll: the values with ids 1..n in id order. */
  method ListInOrder<T>(items: map<int, T>, n: nat) returns (r: seq<T>)
    ensures r == Listing(items, n)
  {
    r := [];
    var i := 1;
    while i <= n
      invariant 1 <= i <= n + 1
      invariant r == Listing(items, i - 1)
    {
      if i in items {
        r := r + [items[i]];
      }
      i := i + 1;
    }
  }

  /** Moving one member from the rest to the part done keeps the two a
      partition of the whole. */
  lemma MoveOne(done: set<int>, rest: set<int>, k: int)
    requires done !! rest && k in rest
    ensures (done + {k}) + (rest - {k}) == done + rest && (done + {k}) !! (rest - {k})
  {
  }

  /** A member of a non-empty set: the witness for the loops below, which
      take the members of a set one at a time in no particular order. */
  lemma Member<T>(s: set<T>) returns (k: T)
    requires s != {}
    ensures k in s
  {
    if forall j :: j !in s {
      assert false;
    }
    k :| k in s;
  }

  /** The index keys of the items stored under the keys in `done`. */
  function KeysIn(items: map<int, Item>, done: set<int>): set<(Option<int>, int)> {
    set k | k in items && k in done :: Key(items[k])
  }

  /** The ids carried by the items stored under the keys in `done`. */
  function IdsIn(items: map<int, Item>, done: set<int>): set<int> {
    set k | k in items && k in done :: items[k].id
  }

  /** With every key taken, the ranges are the whole collection; with none,
      they are empty. */
  lemma RangesAtEnds(items: map<int, Item>)
    ensures IdsIn(items, items.Keys) == IdsOf(items) && KeysIn(items, items.Keys) == KeysOf(items)
    ensures IdsIn(items, {}) == {} && KeysIn(items, {}) == {}
  {
  }

  /** Forgetting one more item drops its id from history and its key from
      the index, on top of what was dropped before. */
  lemma ForgetOneMore(h: seq<Item>, ix: seq<Item>, items: map<int, Item>, done: set<int>, k: int)
    requires k in items
    ensures History.Remove(History.DropIds(h, IdsIn(items, done)), items[k].id) == History.DropIds(h, IdsIn(items, done + {k}))
    ensures RemoveKey(DropKeys(ix, KeysIn(items, done)), items[k]) == DropKeys(ix, KeysIn(items, done + {k}))
  {
    History.DropIdsTwice(h, IdsIn(items, done), {items[k].id});
    DropKeysTwice(ix, KeysIn(items, done), {Key(items[k])});
    RangesOneMore(items, done, k);
  }

  lemma RangesOneMore(items: map<int, Item>, done: set<int>, k: int)
    requires k in items
    ensures IdsIn(items, done + {k}) == IdsIn(items, done) + {items[k].id}
    ensures KeysIn(items, done + {k}) == KeysIn(items, done) + {Key(items[k])}
  {
  }

  /** The epics whose ids are in `ids`. */
  function Within(epics: map<int, Epic>, ids: set<int>): map<int, Epic> {
    map e | e in epics && e in ids :: epics[e]
  }

  /** No epic taken, nothing to drop; every epic taken, all of them. */
  lemma WithinAtEnds(epics: map<int, Epic>)
    ensures StoryIds(Within(epics, {})) == {} && AllStoryKeys(Within(epics, {})) == {}
    ensures Within(epics, epics.Keys) == epics
  {
    assert Within(epics, {}) == map[];
  }


  /** Taking one more epic into the range adds its stories to the story ids
      and keys of the range. */
  lemma WithinOneMore(epics: map<int, Epic>, ids: set<int>, e: int)
    requires e in epics
    ensures StoryIds(Within(epics, ids + {e})) == StoryIds(Within(epics, ids)) + epics[e].stories.Keys
    ensures AllStoryKeys(Within(epics, ids + {e})) == AllStoryKeys(Within(epics, ids)) + KeysOf(epics[e].stories)
  {
    var a, b := Within(epics, ids + {e}), Within(epics, ids);
    assert a == b[e := epics[e]];
    forall id | id in epics[e].stories
      ensures id in StoryIds(a) && Key(epics[e].stories[id]) in AllStoryKeys(a)
    {
      assert a[e].stories[id] == epics[e].stories[id];
    }
    forall id | id in StoryIds(a)
      ensures id in StoryIds(b) + epics[e].stories.Keys
    {
      var f :| f in a && id in a[f].stories;
      if f != e {
        assert f in b && b[f] == a[f];
      }
    }
    forall k | k in AllStoryKeys(a)
      ensures k in AllStoryKeys(b) + KeysOf(epics[e].stories)
    {
      var f, id :| f in a && id in a[f].stories && k == Key(a[f].stories[id]);
      if f != e {
        assert f in b && b[f] == a[f];
      }
    }
    forall id | id in StoryIds(b)
      ensures id in StoryIds(a)
    {
      var f :| f in b && id in b[f].stories;
      assert f in a && a[f] == b[f];
    }
    forall k | k in AllStoryKeys(b)
      ensures k in AllStoryKeys(a)
    {
      var f, id :| f in b && id in b[f].stories && k == Key(b[f].stories[id]);
      assert f in a && a[f] == b[f];
    }
  }

  /** The loop of the bulk deletes: for each item, the id it carries leaves
      the history and its key leaves the index. The items are taken in any
      order, which the outcome does not depend on. */
  method Forget(h: seq<Item>, ix: seq<Item>, items: map<int, Item>) returns (h': seq<Item>, ix': seq<Item>)
    ensures h' == History.DropIds(h, IdsOf(items))
    ensures ix' == DropKeys(ix, KeysOf(items))
  {
    History.DropIdsNothing(h, {});
    DropKeysNothing(ix, {});
    RangesAtEnds(items);
    h', ix' := h, ix;
    var rest := items.Keys;
    ghost var done: set<int> := {};
    while rest != {}
      invariant done + rest == items.Keys && done !! rest
      invariant h' == History.DropIds(h, IdsIn(items, done))
      invariant ix' == DropKeys(ix, KeysIn(items, done))
      decreases |rest|
    {
      ghost var w := Member(rest);
      var k :| k in rest;
      MoveOne(done, rest, k);
      ForgetOneMore(h, ix, items, done, k);
      h' := History.Remove(h', items[k].id);
      ix' := RemoveKey(ix', items[k]);
      rest := rest - {k};
      done := done + {k};
    }
  }

  /** The loop of deleteEpic as written: once per story, the story's key
      leaves the index and the epic's own id `id` leaves the history. */
  method ForgetStoriesOf(h: seq<Item>, ix: seq<Item>, id: int, stories: map<int, Item>)
    returns (h': seq<Item>, ix': seq<Item>)
    ensures ix' == DropKeys(ix, KeysOf(stories))
    ensures stories == map[] ==> h' == h
    ensures stories != map[] ==> h' == History.Remove(h, id)
  {
    History.RemoveTwice(h, id);
    DropKeysNothing(ix, {});
    RangesAtEnds(stories);
    h', ix' := h, ix;
    var rest := stories.Keys;
    ghost var done: set<int> := {};
    while rest != {}
      invariant done + rest == stories.Keys && done !! rest
      invariant done == {} ==> h' == h
      invariant done != {} ==> h' == History.Remove(h, id)
      invariant ix' == DropKeys(ix, KeysIn(stories, done))
      decreases |rest|
    {
      ghost var w := Member(rest);
      var k :| k in rest;
      MoveOne(done, rest, k);
      DropKeysTwice(ix, KeysIn(stories, done), {Key(stories[k])});
      RangesOneMore(stories, done, k);
      ix' := RemoveKey(ix', stories[k]);
      h' := History.Remove(h', id);
      rest := rest - {k};
      done := done + {k};
    }
    assert stories == map[] <==> stories.Keys == {};
  }

  /** The loop of deleteAllEpics: for each epic, its stories are forgotten
      and then the epic's id leaves the history. In a repository every item
      is stored under its own id. */
  method ForgetEpics(h: seq<Item>, ix: seq<Item>, epics: map<int, Epic>) returns (h': seq<Item>, ix': seq<Item>)
    requires forall e :: e in epics ==> epics[e].header.id == e
    requires forall e, k :: e in epics && k in epics[e].stories ==> epics[e].stories[k].id == k
    ensures h' == History.DropIds(h, StoryIds(epics) + epics.Keys)
    ensures ix' == DropKeys(ix, AllStoryKeys(epics))
  {
    History.DropIdsNothing(h, {});
    DropKeysNothing(ix, {});
    WithinAtEnds(epics);
    h', ix' := h, ix;
    var rest := epics.Keys;
    ghost var done: set<int> := {};
    while rest != {}
      invariant done + rest == epics.Keys && done !! rest
      invariant h' == History.DropIds(h, StoryIds(Within(epics, done)) + done)
      invariant ix' == DropKeys(ix, AllStoryKeys(Within(epics, done)))
      decreases |rest|
    {
      ghost var w := Member(rest);
      var e :| e in rest;
      MoveOne(done, rest, e);
      ForgetEpicOneMore(h, ix, epics, done, e);
      h', ix' := Forget(h', ix', epics[e].stories);
      h' := History.Remove(h', epics[e].header.id);
      rest := rest - {e};
      done := done + {e};
    }
  }

  /** One more epic forgotten: its story ids and its own id leave history,
      its story keys leave the index. */
  lemma ForgetEpicOneMore(h: seq<Item>, ix: seq<Item>, epics: map<int, Epic>, done: set<int>, e: int)
    requires e in epics
    requires forall k :: k in epics[e].stories ==> epics[e].stories[k].id == k
    ensures History.Remove(History.DropIds(History.DropIds(h, StoryIds(Within(epics, done)) + done), IdsOf(epics[e].stories)), e)
      == History.DropIds(h, StoryIds(Within(epics, done + {e})) + (done + {e}))
    ensures DropKeys(DropKeys(ix, AllStoryKeys(Within(epics, done))), KeysOf(epics[e].stories))
      == DropKeys(ix, AllStoryKeys(Within(epics, done + {e})))
  {
    var a := StoryIds(Within(epics, done)) + done;
    WithinOneMore(epics, done, e);
    IdsAreKeys(epics[e].stories);
    History.DropIdsTwice(h, a, epics[e].stories.Keys);
    History.DropIdsTwice(h, a + epics[e].stories.Keys, {e});
    DropKeysTwice(ix, AllStoryKeys(Within(epics, done)), KeysOf(epics[e].stories));
    assert StoryIds(Within(epics, done + {e})) + (done + {e}) == a + epics[e].stories.Keys + {e};
  }

  class InMemoryTaskManager {
    var tasks: map<int, Item>
    var epics: map<int, Epic>
    var history: seq<Item>
    var index: seq<Item>
    const counter: TaskCounter

    /** The state of the manager as a value. */
    ghost function Model(): ManagerState
      reads this, counter
    {
      ManagerState(tasks, epics, history, index, counter.last)
    }

    ghost predicate Valid()
      reads this, counter
    {
      Invariant(Model())
    }

    /** Empty repositories, history and index over the shared counter. */
    constructor (counter: TaskCounter)
      ensures this.counter == counter
      ensures Model() == Fresh(counter.last) && Valid()
    {
      tasks, epics, history, index := map[], map[], [], [];
      this.counter := counter;
    }

    /** checkIntersection against the manager's own index, turned into the
        failure the caller raises. */
    method CheckOverlap(c: Item) returns (f: Option<Failure>)
      ensures f == ConflictFailure(index, c)
    {
      var scan := CheckIntersection(index, c);
      match scan
      case Clear => f := None;
      case Clash(k) =>
        if End(c).Some? && End(index[k]).Some? {
          f := Some(IntervalConflict(c, index[k]));
        } else {
          f := Some(MissingEndTime(c, index[k]));
        }
      case NullEnd(k) => f := Some(MissingEndTime(c, index[k]));
    }

    // -------------------------------------------------------------------
    // Tasks

    method FindAllTasks() returns (r: seq<Item>)
      ensures r == Listing(tasks, counter.last)
    {
      r := ListInOrder(tasks, counter.last);
    }

    method FindTask(id: int) returns (r: Result<Item>)
      requires Valid()
      modifies this
      ensures Step(r, Model()) == ManagerSpec.FindTask(old(Model()), id)
      ensures Valid()
    {
      ghost var m0 := Model();
      FindTaskKeepsInvariant(m0, id);
      if id !in tasks {
        return Err(NotFound(TASK, id));
      }
      var t := tasks[id];
      history := History.Add(history, t);
      r := Ok(t);
    }

    method AddTask(t: Item) returns (r: Result<Item>)
      requires Valid() && t.kind == TASK
      modifies this, counter
      ensures Step(r, Model()) == ManagerSpec.AddTask(old(Model()), t)
      ensures Valid()
    {
      ghost var m0 := Model();
      AddTaskKeepsInvariant(m0, t);
      var f := CheckOverlap(t);
      if f.Some? {
        return Err(f.value);
      }
      var id := counter.Next();
      var x := t.(id := id);
      tasks := tasks[id := x];
      index := Insert(index, x);
      r := Ok(x);
    }

    /** updateTask as written: the scan includes the task's own entry, and
        the index entry is left as it was. */
    method UpdateTask(id: int, t: Item) returns (r: Result<Item>)
      requires Valid() && t.kind == TASK
      modifies this
      ensures Step(r, Model()) == ManagerSpec.UpdateTask(old(Model()), id, t)
      ensures Valid()
    {
      ghost var m0 := Model();
      UpdateTaskKeepsInvariant(m0, id, t);
      var f := CheckOverlap(t);
      if f.Some? {
        return Err(f.value);
      }
      if id !in tasks {
        return Err(NotFound(TASK, id));
      }
      var x := t.(id := id);
      tasks := tasks[id := x];
      r := Ok(x);
    }

    /** updateTask as evidently intended: the task's own entry is left out of
        the scan and its index entry moves to the new interval. */
    method UpdateTaskExcludingSelf(id: int, t: Item) returns (r: Result<Item>)
      requires Valid() && IndexLive(Model()) && t.kind == TASK
      modifies this
      ensures Step(r, Model()) == ManagerSpec.UpdateTaskExcludingSelf(old(Model()), id, t)
      ensures Valid() && IndexLive(Model())
    {
      ghost var m0 := Model();
      UpdateTaskExcludingSelfKeepsInvariant(m0, id, t);
      UpdateTaskExcludingSelfKeepsLive(m0, id, t);
      var scan := CheckIntersection(Others(index, id), t);
      if !scan.Clear? {
        r := Err(ConflictFailure(Others(index, id), t).value);
        return;
      }
      if id !in tasks {
        return Err(NotFound(TASK, id));
      }
      var x := t.(id := id);
      index := Insert(RemoveKey(index, tasks[id]), x);
      tasks := tasks[id := x];
      r := Ok(x);
    }

    method DeleteTask(id: int) returns (r: Result<Item>)
      requires Valid()
      modifies this
      ensures Step(r, Model()) == ManagerSpec.DeleteTask(old(Model()), id)
      ensures Valid()
    {
      ghost var m0 := Model();
      DeleteTaskKeepsInvariant(m0, id);
      if id !in tasks {
        return Err(NotFound(TASK, id));
      }
      var x := tasks[id];
      tasks := tasks - {id};
      history := History.Remove(history, id);
      index := RemoveKey(index, x);
      r := Ok(x);
    }

    method DeleteAllTasks()
      requires Valid()
      modifies this
      ensures Model() == ManagerSpec.DeleteAllTasks(old(Model()))
      ensures Valid()
    {
      DeleteAllTasksKeepsInvariant(Model());
      IdsAreKeys(tasks);
      history, index := Forget(history, index, tasks);
      tasks := map[];
    }

    // -------------------------------------------------------------------
    // Epics

    method FindAllEpics() returns (r: seq<Epic>)
      ensures r == Listing(epics, counter.last)
    {
      r := ListInOrder(epics, counter.last);
    }

    method FindEpic(id: int) returns (r: Result<Epic>)
      requires Valid()
      modifies this
      ensures Step(r, Model()) == ManagerSpec.FindEpic(old(Model()), id)
      ensures Valid()
    {
      ghost var m0 := Model();
      FindEpicKeepsInvariant(m0, id);
      if id !in epics {
        return Err(NotFound(EPIC, id));
      }
      var ep := epics[id];
      history := History.Add(history, ep.header);
      r := Ok(ep);
    }

    method AddEpic(e: Item) returns (r: Result<Item>)
      requires Valid() && e.kind == EPIC
      modifies this, counter
      ensures Step(r, Model()) == ManagerSpec.AddEpic(old(Model()), e)
      ensures Valid()
    {
      ghost var m0 := Model();
      AddEpicKeepsInvariant(m0, e);
      var id := counter.Next();
      var x := e.(id := id);
      epics := epics[id := Epic(x, map[])];
      r := Ok(x);
    }

    method UpdateEpic(id: int, e: Item) returns (r: Result<Item>)
      requires Valid() && e.kind == EPIC
      modifies this
      ensures Step(r, Model()) == ManagerSpec.UpdateEpic(old(Model()), id, e)
      ensures Valid()
    {
      ghost var m0 := Model();
      UpdateEpicKeepsInvariant(m0, id, e);
      var f := CheckOverlap(e);
      if f.Some? {
        return Err(f.value);
      }
      if id !in epics {
        return Err(NotFound(EPIC, id));
      }
      var x := e.(id := id);
      epics := epics[id := Epic(x, epics[id].stories)];
      r := Ok(x);
    }

    /** deleteEpic as written: the loop above, then the epic's id leaves
        history once more. */
    method DeleteEpic(id: int) returns (r: Result<Epic>)
      requires Valid()
      modifies this
      ensures Step(r, Model()) == ManagerSpec.DeleteEpic(old(Model()), id)
      ensures Valid()
    {
      ghost var m0 := Model();
      DeleteEpicKeepsInvariant(m0, id);
      if id !in epics {
        return Err(NotFound(EPIC, id));
      }
      var ep := epics[id];
      epics := epics - {id};
      history, index := ForgetStoriesOf(history, index, id, ep.stories);
      History.RemoveTwice(m0.history, id);
      history := History.Remove(history, id);
      r := Ok(ep);
    }

    /** deleteEpic as evidently intended: each story's id leaves history with
        its key, then the epic's id. */
    method DeleteEpicScrubbingStories(id: int) returns (r: Result<Epic>)
      requires Valid()
      modifies this
      ensures Step(r, Model()) == ManagerSpec.DeleteEpicScrubbingStories(old(Model()), id)
      ensures Valid()
    {
      ghost var m0 := Model();
      DeleteEpicKeepsInvariant(m0, id);
      if id !in epics {
        return Err(NotFound(EPIC, id));
      }
      var ep := epics[id];
      epics := epics - {id};
      IdsAreKeys(ep.stories);
      history, index := Forget(history, index, ep.stories);
      History.DropIdsTwice(m0.history, ep.stories.Keys, {id});
      history := History.Remove(history, id);
      r := Ok(ep);
    }

    method DeleteAllEpics()
      requires Valid()
      modifies this
      ensures Model() == ManagerSpec.DeleteAllEpics(old(Model()))
      ensures Valid()
    {
      DeleteAllEpicsKeepsInvariant(Model());
      var h, ix := ForgetEpics(history, index, epics);
      history, index, epics := h, ix, map[];
    }

    // -------------------------------------------------------------------
    // Stories

    /** findAllStories(epicId). */
    method FindAllStoriesOf(epicId: int) returns (r: Result<map<int, Item>>)
      ensures r.Ok? <==> epicId in epics
      ensures r.Ok? ==> r.value == epics[epicId].stories
      ensures r.Err? ==> r.error == MissingEpic(epicId)
    {
      if epicId !in epics {
        return Err(MissingEpic(epicId));
      }
      r := Ok(epics[epicId].stories);
    }

    /** findAllStories(): the stories of each epic in turn. */
    method FindAllStories() returns (r: seq<Item>)
      ensures r == AllStories(epics, counter.last, counter.last)
    {
      r := [];
      var i := 1;
      while i <= counter.last
        invariant 1 <= i <= counter.last + 1
        invariant r == AllStories(epics, i - 1, counter.last)
      {
        if i in epics {
          var stories := ListInOrder(epics[i].stories, counter.last);
          r := r + stories;
        }
        i := i + 1;
      }
    }

    /** The epic holding story `id`, the one StoryOwner names. */
    method OwnerOf(id: int) returns (r: Option<int>)
      requires Valid()
      ensures r == StoryOwner(epics, id)
    {
      if exists e :: e in epics && id in epics[e].stories {
        var e :| e in epics && id in epics[e].stories;
        OwnerUnique(epics, e, id);
        r := Some(e);
      } else {
        r := None;
      }
    }

    method FindStory(id: int) returns (r: Result<Item>)
      requires Valid()
      modifies this
      ensures Step(r, Model()) == ManagerSpec.FindStory(old(Model()), id)
      ensures Valid()
    {
      ghost var m0 := Model();
      FindStoryKeepsInvariant(m0, id);
      var owner := OwnerOf(id);
      if owner.None? {
        return Err(NotFound(STORY, id));
      }
      var s := epics[owner.value].stories[id];
      history := History.Add(history, s);
      r := Ok(s);
    }

    method AddStory(s: Item) returns (r: Result<Item>)
      requires Valid() && s.kind == STORY
      modifies this, counter
      ensures Step(r, Model()) == ManagerSpec.AddStory(old(Model()), s)
      ensures Valid()
    {
      ghost var m0 := Model();
      AddStoryKeepsInvariant(m0, s);
      var f := CheckOverlap(s);
      if f.Some? {
        return Err(f.value);
      }
      if s.epicId !in epics {
        return Err(MissingEpic(s.epicId));
      }
      var id := counter.Next();
      var x := s.(id := id);
      epics := PutStory(epics, s.epicId, x);
      index := Insert(index, x);
      r := Ok(x);
    }

    method UpdateStory(id: int, s: Item) returns (r: Result<Item>)
      requires Valid() && s.kind == STORY
      modifies this
      ensures Step(r, Model()) == ManagerSpec.UpdateStory(old(Model()), id, s)
      ensures Valid()
    {
      ghost var m0 := Model();
      UpdateStoryKeepsInvariant(m0, id, s);
      var f := CheckOverlap(s);
      if f.Some? {
        return Err(f.value);
      }
      var owner := OwnerOf(id);
      if owner.None? {
        return Err(NotFound(STORY, id));
      }
      var x := s.(id := id);
      epics := PutStory(epics, owner.value, x);
      r := Ok(x);
    }

    /** updateStory as evidently intended: the story's own entry is left out
        of the scan, its index entry moves to the new interval, and it keeps
        the id of the epic that owns it. */
    method UpdateStoryExcludingSelf(id: int, s: Item) returns (r: Result<Item>)
      requires Valid() && IndexLive(Model()) && s.kind == STORY
      modifies this
      ensures Step(r, Model()) == ManagerSpec.UpdateStoryExcludingSelf(old(Model()), id, s)
      ensures Valid() && IndexLive(Model())
    {
      ghost var m0 := Model();
      UpdateStoryExcludingSelfKeepsInvariant(m0, id, s);
      UpdateStoryExcludingSelfKeepsLive(m0, id, s);
      var scan := CheckIntersection(Others(index, id), s);
      if !scan.Clear? {
        r := Err(ConflictFailure(Others(index, id), s).value);
        return;
      }
      var owner := OwnerOf(id);
      if owner.None? {
        return Err(NotFound(STORY, id));
      }
      var x := s.(id := id, epicId := owner.value);
      index := Insert(RemoveKey(index, epics[owner.value].stories[id]), x);
      epics := PutStory(epics, owner.value, x);
      r := Ok(x);
    }

    method DeleteStory(id: int) returns (r: Result<Item>)
      requires Valid()
      modifies this
      ensures Step(r, Model()) == ManagerSpec.DeleteStory(old(Model()), id)
      ensures Valid()
    {
      ghost var m0 := Model();
      DeleteStoryKeepsInvariant(m0, id);
      var owner := OwnerOf(id);
      if owner.None? {
        return Err(NotFound(STORY, id));
      }
      var x := epics[owner.value].stories[id];
      epics := DropStory(epics, owner.value, id);
      index := RemoveKey(index, x);
      history := History.Remove(history, id);
      r := Ok(x);
    }

    method DeleteAllStories(ep: Epic)
      requires Valid()
      modifies this
      ensures Model() == ManagerSpec.DeleteAllStories(old(Model()), ep)
      ensures Valid()
    {
      DeleteAllStoriesKeepsInvariant(Model(), ep);
      history, index := Forget(history, index, ep.stories);
      var id := ep.header.id;
      if id in epics {
        epics := epics[id := epics[id].(stories := map[])];
      }
    }

    // -------------------------------------------------------------------
    // Bulk loading, size and priority order

    /** createRepository: the chosen repository is replaced by an empty one
        and each item goes through the manager's add operation in order. */
    method CreateRepository(items: seq<Item>, kind: RepositoryKind) returns (r: Result<()>)
      requires Valid()
      requires kind == EpicsRepository ==> forall x :: x in items ==> x.kind == EPIC
      requires kind == TasksRepository ==> forall x :: x in items ==> x.kind == TASK
      modifies this, counter
      ensures Step(r, Model()) == ManagerSpec.CreateRepository(old(Model()), items, kind)
      ensures Valid()
    {
      ghost var m0 := Model();
      CreateRepositoryRebuilds(m0, items, kind);
      match kind
      case OtherRepository(name) =>
        return Err(UnsupportedRepository(name));
      case EpicsRepository =>
        epics := map[];
        AddEachEpic(items);
        r := Ok(());
      case TasksRepository =>
        tasks := map[];
        r := AddEachTask(items);
    }

    /** The epic loop of createRepository: addEpic for each item in order. */
    method AddEachEpic(items: seq<Item>)
      requires Valid() && forall x :: x in items ==> x.kind == EPIC
      modifies this, counter
      ensures Model() == AddEpics(old(Model()), items) && Valid()
    {
      ghost var m0 := Model();
      var i := 0;
      while i < |items|
        invariant 0 <= i <= |items| && Valid()
        invariant AddEpics(Model(), items[i..]) == AddEpics(m0, items)
      {
        assert items[i..][0] == items[i] && items[i..][1..] == items[i + 1..];
        var _ := AddEpic(items[i]);
        i := i + 1;
      }
      assert items[i..] == [];
    }

    /** The task loop of createRepository: addTask for each item in order,
        stopping at the first failure. */
    method AddEachTask(items: seq<Item>) returns (r: Result<()>)
      requires Valid() && forall x :: x in items ==> x.kind == TASK
      modifies this, counter
      ensures Step(r, Model()) == AddTasks(old(Model()), items) && Valid()
    {
      ghost var m0 := Model();
      var i := 0;
      while i < |items|
        invariant 0 <= i <= |items| && Valid()
        invariant AddTasks(Model(), items[i..]) == AddTasks(m0, items)
      {
        assert items[i..][0] == items[i] && items[i..][1..] == items[i + 1..];
        var added := AddTask(items[i]);
        if added.Err? {
          return Err(added.error);
        }
        i := i + 1;
      }
      assert items[i..] == [];
      r := Ok(());
    }

    /** size(): epics, plus the stories of each epic, plus tasks. */
    method Size() returns (r: nat)
      requires Valid()
      ensures r == ManagerSpec.Size(Model())
    {
      var stories := 0;
      var i := 1;
      while i <= counter.last
        invariant 1 <= i <= counter.last + 1
        invariant stories == StoryCountUpTo(epics, i - 1)
      {
        if i in epics {
          stories := stories + |epics[i].stories|;
        }
        i := i + 1;
      }
      r := |epics| + stories + |tasks|;
    }

    /** getPrioritizedTasks(): a copy of the index, in comparator order and
        free of overlapping pairs. */
    method GetPrioritizedTasks() returns (r: seq<Item>)
      requires Valid()
      ensures r == index && Sorted(r) && NoOverlap(r)
    {
      r := index;
    }
  }
}

=== FILE: items.dfy ===
/** The entity model shared by every part of the task tracker: the three item
    kinds, their common shape, and the failures the manager raises.
    Points in time and durations are integers on one clock, so an item's end
    is its start plus its duration. */
module Items {

  datatype Option<+T> = None | Some(value: T)

  datatype Kind = TASK | EPIC | STORY

  datatype State = NEW | IN_PROGRESS | DONE

  /** One work item as the manager stores it. `description`, `duration` and
      `start` are nullable in the source and are options here. `epicId` is
      the owning epic of a story; tasks and epics carry 0 there. */
  datatype Item = Item(
    id: int,
    kind: Kind,
    name: string,
    description: Option<string>,
    state: State,
    duration: Option<int>,
    start: Option<int>,
    epicId: int)

  /** The end time: start plus duration when both are present, otherwise none. */
  function End(x: Item): (r: Option<int>)
    ensures r.Some? <==> x.start.Some? && x.duration.Some?
    ensures r.Some? ==> r.value - x.start.value == x.duration.value
  {
    if x.start.Some? && x.duration.Some? then Some(x.start.value + x.duration.value) else None
  }

  /** An epic together with the stories it owns, keyed by story id. */
  datatype Epic = Epic(header: Item, stories: map<int, Item>)

  /** The failures of the core. The last four stand for the null
      dereferences the source runs into at those points. */
  datatype Failure =
    | NotFound(kind: Kind, id: int)
    | IntervalConflict(candidate: Item, existing: Item)
    | UnsupportedRepository(name: string)
    | NullName
    | MissingEndTime(candidate: Item, existing: Item)
    | MissingEpic(epicId: int)
    | UnmappedId(oldId: int)
    | MalformedSnapshot(key: string)
    | NullQueryValue(segment: string)

  datatype Result<+T> = Ok(value: T) | Err(error: Failure) {
    predicate IsFailure() { Err? }
    function PropagateFailure<U>(): Result<U>
      requires Err?
    {
      Err(error)
    }
    function Extract(): T
      requires Ok?
    {
      value
    }
  }
}

=== FILE: manager_properties.dfy ===
/** What the manager's operations guarantee: failures are raised before any
    change, every operation keeps the state invariant (in particular no two
    index entries overlap), lookups and adds keep history and index live,
    and size moves by exactly what was added or removed. */
module ManagerProperties {
  import opened Items
  import opened PriorityIndex
  import History
  import opened ManagerSpec

  // ---------------------------------------------------------------------
  // Validate, then commit

  /** Every failing operation leaves the whole state as it was. */
  lemma FailuresChangeNothing(m: ManagerState, id: int, x: Item)
    ensures FindTask(m, id).result.Err? ==> FindTask(m, id).state == m
    ensures FindEpic(m, id).result.Err? ==> FindEpic(m, id).state == m
    ensures FindStory(m, id).result.Err? ==> FindStory(m, id).state == m
    ensures x.kind == TASK && AddTask(m, x).result.Err? ==> AddTask(m, x).state == m
    ensures x.kind == STORY && AddStory(m, x).result.Err? ==> AddStory(m, x).state == m
    ensures x.kind == TASK && UpdateTask(m, id, x).result.Err? ==> UpdateTask(m, id, x).state == m
    ensures x.kind == EPIC && UpdateEpic(m, id, x).result.Err? ==> UpdateEpic(m, id, x).state == m
    ensures x.kind == STORY && UpdateStory(m, id, x).result.Err? ==> UpdateStory(m, id, x).state == m
    ensures DeleteTask(m, id).result.Err? ==> DeleteTask(m, id).state == m
    ensures DeleteEpic(m, id).result.Err? ==> DeleteEpic(m, id).state == m
    ensures DeleteStory(m, id).result.Err? ==> DeleteStory(m, id).state == m
  {
  }

  /** The overlap check decides first: an add or update of a task or story
      fails with the conflict the scan found exactly when the scan finds one,
      whether or not the id exists, and addEpic never fails. */
  lemma ConflictDecidesFirst(m: ManagerState, id: int, x: Item)
    ensures x.kind == TASK ==> (AddTask(m, x).result.Err? <==> Conflict(m.index, x) != Clear)
    ensures x.kind == TASK && Conflict(m.index, x) != Clear ==>
      AddTask(m, x).result == Err(ConflictFailure(m.index, x).value)
      && UpdateTask(m, id, x).result == Err(ConflictFailure(m.index, x).value)
    ensures x.kind == STORY && Conflict(m.index, x) != Clear ==>
      AddStory(m, x).result == Err(ConflictFailure(m.index, x).value)
      && UpdateStory(m, id, x).result == Err(ConflictFailure(m.index, x).value)
    ensures x.kind == EPIC && Conflict(m.index, x) != Clear ==>
      UpdateEpic(m, id, x).result == Err(ConflictFailure(m.index, x).value)
    ensures x.kind == EPIC ==> AddEpic(m, x).result.Ok?
  {
  }

  // ---------------------------------------------------------------------
  // Lookups

  /** A successful lookup returns the stored item, makes it the most recent
      history entry and changes nothing else; a missing id fails with its
      kind and id. */
  lemma FindRecordsAccess(m: ManagerState, id: int)
    ensures FindTask(m, id).result == (if id in m.tasks then Ok(m.tasks[id]) else Err(NotFound(TASK, id)))
    ensures FindEpic(m, id).result == (if id in m.epics then Ok(m.epics[id]) else Err(NotFound(EPIC, id)))
    ensures FindStory(m, id).result.Err? <==> StoryOwner(m.epics, id).None?
    ensures FindStory(m, id).result.Err? ==> FindStory(m, id).result.error == NotFound(STORY, id)
    ensures FindTask(m, id).result.Ok? ==>
      FindTask(m, id).state == m.(history := History.Add(m.history, m.tasks[id]))
    ensures FindEpic(m, id).result.Ok? ==>
      FindEpic(m, id).state == m.(history := History.Add(m.history, m.epics[id].header))
    ensures FindStory(m, id).result.Ok? ==>
      var e := StoryOwner(m.epics, id).value;
      FindStory(m, id).result.value == m.epics[e].stories[id]
      && FindStory(m, id).state == m.(history := History.Add(m.history, m.epics[e].stories[id]))
  {
  }

  /** When no story belongs to two epics, the owner is the one epic that
      holds the story. */
  lemma OwnerUnique(epics: map<int, Epic>, e: int, id: int)
    requires UniqueOwners(epics)
    requires e in epics && id in epics[e].stories
    ensures StoryOwner(epics, id) == Some(e)
  {
  }

  /** Replacing one epic moves ownership only for the stories it gains or loses. */
  lemma OwnersAfterEpicChange(epics: map<int, Epic>, e: int, ep: Epic)
    requires e in epics && UniqueOwners(epics) && UniqueOwners(epics[e := ep])
    ensures forall sid :: sid !in ep.stories && sid !in epics[e].stories ==>
      StoryOwner(epics[e := ep], sid) == StoryOwner(epics, sid)
    ensures forall sid :: sid in ep.stories ==> StoryOwner(epics[e := ep], sid) == Some(e)
    ensures forall sid :: sid in epics[e].stories && sid !in ep.stories ==> StoryOwner(epics[e := ep], sid).None?
  {
    var after := epics[e := ep];
    forall sid | sid !in ep.stories && sid !in epics[e].stories
      ensures StoryOwner(after, sid) == StoryOwner(epics, sid)
    {
      match StoryOwner(epics, sid)
      case Some(o) => OwnerUnique(after, o, sid);
      case None =>
    }
    forall sid | sid in ep.stories ensures StoryOwner(after, sid) == Some(e) {
      OwnerUnique(after, e, sid);
    }
    forall sid | sid in epics[e].stories && sid !in ep.stories ensures StoryOwner(after, sid).None? {
      if StoryOwner(after, sid).Some? {
        OwnerUnique(epics, e, sid);
        OwnerUnique(epics, StoryOwner(after, sid).value, sid);
      }
    }
  }

  /** Removing one epic ends the ownership of its stories only. */
  lemma OwnersAfterEpicRemoval(epics: map<int, Epic>, e: int)
    requires e in epics && UniqueOwners(epics)
    ensures forall sid :: sid !in epics[e].stories ==> StoryOwner(epics - {e}, sid) == StoryOwner(epics, sid)
    ensures forall sid :: sid in epics[e].stories ==> StoryOwner(epics - {e}, sid).None?
  {
    var after := epics - {e};
    forall sid | sid !in epics[e].stories ensures StoryOwner(after, sid) == StoryOwner(epics, sid) {
      match StoryOwner(epics, sid)
      case Some(o) => OwnerUnique(after, o, sid);
      case None =>
    }
  }

  /** A new epic with no stories changes no owner. */
  lemma OwnersAfterEpicAdded(epics: map<int, Epic>, e: int, ep: Epic)
    requires e !in epics && ep.stories == map[] && UniqueOwners(epics)
    ensures forall sid :: StoryOwner(epics[e := ep], sid) == StoryOwner(epics, sid)
  {
    var after := epics[e := ep];
    forall sid ensures StoryOwner(after, sid) == StoryOwner(epics, sid) {
      match StoryOwner(epics, sid)
      case Some(o) => OwnerUnique(after, o, sid);
      case None =>
    }
  }

  /** Lookups keep the invariant and keep history live: the entry they add is
      a live item. */
  lemma FindTaskKeepsInvariant(m: ManagerState, id: int)
    requires Invariant(m)
    ensures Invariant(FindTask(m, id).state)
    ensures HistoryLive(m) ==> HistoryLive(FindTask(m, id).state)
  {
    if id in m.tasks {
      History.AddMovesToEnd(m.history, m.tasks[id]);
    }
  }

  lemma FindEpicKeepsInvariant(m: ManagerState, id: int)
    requires Invariant(m)
    ensures Invariant(FindEpic(m, id).state)
    ensures HistoryLive(m) ==> HistoryLive(FindEpic(m, id).state)
  {
    if id in m.epics {
      History.AddMovesToEnd(m.history, m.epics[id].header);
    }
  }

  lemma FindStoryKeepsInvariant(m: ManagerState, id: int)
    requires Invariant(m)
    ensures Invariant(FindStory(m, id).state)
    ensures HistoryLive(m) ==> HistoryLive(FindStory(m, id).state)
  {
    match StoryOwner(m.epics, id)
    case Some(e) =>
      History.AddMovesToEnd(m.history, m.epics[e].stories[id]);
    case None =>
  }

  // ---------------------------------------------------------------------
  // Adds

  /** A successful add stores the payload under the next id the counter
      issues; tasks and stories also enter the index. */
  lemma AddStoresUnderNextId(m: ManagerState, x: Item)
    requires Invariant(m)
    ensures x.kind == TASK && AddTask(m, x).result.Ok? ==>
      var r := AddTask(m, x);
      r.result.value == x.(id := m.lastId + 1) && r.state.lastId == m.lastId + 1
      && r.state.tasks == m.tasks[m.lastId + 1 := r.result.value]
      && r.result.value in r.state.index && |r.state.index| == |m.index| + 1
    ensures x.kind == EPIC ==>
      var r := AddEpic(m, x);
      r.result.value == x.(id := m.lastId + 1) && r.state.lastId == m.lastId + 1
      && r.state.epics == m.epics[m.lastId + 1 := Epic(r.result.value, map[])]
      && r.state.index == m.index
    ensures x.kind == STORY && AddStory(m, x).result.Ok? ==>
      var r := AddStory(m, x);
      r.result.value == x.(id := m.lastId + 1) && r.state.lastId == m.lastId + 1
      && x.epicId in m.epics && r.state.epics.Keys == m.epics.Keys
      && r.state.epics[x.epicId].stories == m.epics[x.epicId].stories[m.lastId + 1 := r.result.value]
      && r.result.value in r.state.index && |r.state.index| == |m.index| + 1
  {
    var y := x.(id := m.lastId + 1);
    NextIdFree(m);
    assert !HasKey(m.index, y);
  }

  /** The id after the last one issued is free in every repository. */
  lemma NextIdFree(m: ManagerState)
    requires Invariant(m)
    ensures m.lastId + 1 !in m.tasks && m.lastId + 1 !in m.epics
    ensures StoryOwner(m.epics, m.lastId + 1).None?
    ensures forall y :: y in m.index ==> y.id != m.lastId + 1
    ensures forall y :: y in m.history ==> IsLive(m, y.id) ==> y.id != m.lastId + 1
  {
  }

  /** Inserting an entry with the next id that passed the check keeps the
      index well formed. */
  lemma InsertFreshKeepsIndex(m: ManagerState, x: Item, y: Item)
    requires IndexWellFormed(m)
    requires y == x.(id := m.lastId + 1) && Conflict(m.index, x) == Clear
    ensures IndexWellFormed(m.(index := Insert(m.index, y), lastId := m.lastId + 1))
  {
    ConflictIgnoresId(m.index, x, y);
    InsertKeepsNoOverlap(m.index, y);
  }

  lemma AddTaskKeepsInvariant(m: ManagerState, x: Item)
    requires Invariant(m) && x.kind == TASK
    ensures Invariant(AddTask(m, x).state)
  {
    var r := AddTask(m, x);
    if r.result.Ok? {
      NextIdFree(m);
      InsertFreshKeepsIndex(m, x, r.result.value);
    }
  }

  lemma AddTaskKeepsLive(m: ManagerState, x: Item)
    requires Invariant(m) && x.kind == TASK
    ensures HistoryLive(m) ==> HistoryLive(AddTask(m, x).state)
    ensures IndexLive(m) ==> IndexLive(AddTask(m, x).state)
  {
    NextIdFree(m);
  }

  lemma AddTaskSize(m: ManagerState, x: Item)
    requires Invariant(m) && x.kind == TASK
    ensures Size(AddTask(m, x).state) == Size(m) + (if AddTask(m, x).result.Ok? then 1 else 0)
  {
    NextIdFree(m);
  }

  lemma AddEpicKeepsInvariant(m: ManagerState, x: Item)
    requires Invariant(m) && x.kind == EPIC
    ensures Invariant(AddEpic(m, x).state)
  {
    NextIdFree(m);
  }

  lemma AddEpicKeepsLive(m: ManagerState, x: Item)
    requires Invariant(m) && x.kind == EPIC
    ensures HistoryLive(m) ==> HistoryLive(AddEpic(m, x).state)
    ensures IndexLive(m) ==> IndexLive(AddEpic(m, x).state)
  {
    NextIdFree(m);
    OwnersAfterEpicAdded(m.epics, m.lastId + 1, Epic(x.(id := m.lastId + 1), map[]));
  }

  lemma AddEpicSize(m: ManagerState, x: Item)
    requires Invariant(m) && x.kind == EPIC
    ensures Size(AddEpic(m, x).state) == Size(m) + 1
  {
    var r := AddEpic(m, x);
    var k := m.lastId + 1;
    NextIdFree(m);
    StoryCountBeyond(m.epics, k, r.state.epics[k], m.lastId);
  }

  /** Adding a story changes no other story's owner. */
  lemma AddStoryKeepsOwners(m: ManagerState, x: Item)
    requires Invariant(m) && x.kind == STORY && AddStory(m, x).result.Ok?
    ensures IdsDisjoint(AddStory(m, x).state)
    ensures StoryOwner(AddStory(m, x).state.epics, m.lastId + 1) == Some(x.epicId)
    ensures forall id :: id != m.lastId + 1 ==> StoryOwner(AddStory(m, x).state.epics, id) == StoryOwner(m.epics, id)
  {
    var r := AddStory(m, x);
    NextIdFree(m);
    assert IdsDisjoint(r.state);
    OwnersAfterEpicChange(m.epics, x.epicId, r.state.epics[x.epicId]);
  }

  lemma AddStoryKeepsInvariant(m: ManagerState, x: Item)
    requires Invariant(m) && x.kind == STORY
    ensures Invariant(AddStory(m, x).state)
  {
    var r := AddStory(m, x);
    if r.result.Ok? {
      var y := r.result.value;
      NextIdFree(m);
      InsertFreshKeepsIndex(m, x, y);
      var m1 := m.(index := Insert(m.index, y), lastId := y.id);
      assert Invariant(m1);
      PutFreshStoryKeepsInvariant(m1, x.epicId, y);
    }
  }

  /** Storing a story under the id just issued keeps the invariant. */
  lemma PutFreshStoryKeepsInvariant(m: ManagerState, e: int, y: Item)
    requires Invariant(m) && e in m.epics && y.kind == STORY && y.id == m.lastId
    requires y.id !in m.tasks && y.id !in m.epics && StoryOwner(m.epics, y.id).None?
    ensures Invariant(m.(epics := PutStory(m.epics, e, y)))
  {
    var n := m.(epics := PutStory(m.epics, e, y));
    PutFreshStoryKeepsOwners(m.epics, e, y);
    assert ReposWellFormed(n);
  }

  /** A story under an id no epic holds gets one owner: `e`. */
  lemma PutFreshStoryKeepsOwners(epics: map<int, Epic>, e: int, y: Item)
    requires e in epics && UniqueOwners(epics)
    requires forall f :: f in epics ==> y.id !in epics[f].stories
    ensures UniqueOwners(PutStory(epics, e, y))
    ensures forall f, id :: f in epics && id in PutStory(epics, e, y)[f].stories ==>
      id == y.id || id in epics[f].stories
  {
  }

  lemma AddStoryKeepsLive(m: ManagerState, x: Item)
    requires Invariant(m) && x.kind == STORY
    ensures HistoryLive(m) ==> HistoryLive(AddStory(m, x).state)
    ensures IndexLive(m) ==> IndexLive(AddStory(m, x).state)
  {
    var r := AddStory(m, x);
    if r.result.Ok? {
      var y := r.result.value;
      NextIdFree(m);
      AddStoryKeepsOwners(m, x);
      if HistoryLive(m) {
        forall z | z in r.state.history ensures IsLive(r.state, z.id) {
          assert IsLive(m, z.id);
        }
      }
      if IndexLive(m) {
        forall z | z in r.state.index
          ensures Scheduled(r.state, z.id).Some? && Key(Scheduled(r.state, z.id).value) == Key(z)
        {
          if z != y {
            assert z in m.index;
          }
        }
      }
    }
  }

  lemma AddStorySize(m: ManagerState, x: Item)
    requires Invariant(m) && x.kind == STORY
    ensures Size(AddStory(m, x).state) == Size(m) + (if AddStory(m, x).result.Ok? then 1 else 0)
  {
    var r := AddStory(m, x);
    if r.result.Ok? {
      NextIdFree(m);
      StoryCountReplace(m.epics, x.epicId, r.state.epics[x.epicId], m.lastId);
    }
  }

  // ---------------------------------------------------------------------
  // Changing one story in place

  /** Storing a story value under an id the epic already holds keeps the invariant. */
  lemma PutStoryKeepsInvariant(m: ManagerState, e: int, x: Item)
    requires Invariant(m) && e in m.epics && x.id in m.epics[e].stories && x.kind == STORY
    ensures Invariant(m.(epics := PutStory(m.epics, e, x)))
  {
  }

  /** Taking a story out of its epic, history and index keeps the invariant. */
  lemma DropStoryKeepsInvariant(m: ManagerState, e: int, id: int)
    requires Invariant(m) && e in m.epics && id in m.epics[e].stories
    ensures Invariant(m.(epics := DropStory(m.epics, e, id),
                         history := History.Remove(m.history, id),
                         index := RemoveKey(m.index, m.epics[e].stories[id])))
  {
    History.RemoveDropsId(m.history, id);
    DropKeysKeepsNoOverlap(m.index, {Key(m.epics[e].stories[id])});
  }

  // ---------------------------------------------------------------------
  // Updates

  /** Replacing a task keeps the invariant and the size; history stays live,
      and so does the index as long as the start time does not move. */
  lemma UpdateTaskKeepsInvariant(m: ManagerState, id: int, x: Item)
    requires Invariant(m) && x.kind == TASK
    ensures Invariant(UpdateTask(m, id, x).state)
    ensures Size(UpdateTask(m, id, x).state) == Size(m)
  {
  }

  lemma UpdateTaskKeepsLive(m: ManagerState, id: int, x: Item)
    requires Invariant(m) && x.kind == TASK
    ensures HistoryLive(m) ==> HistoryLive(UpdateTask(m, id, x).state)
    ensures IndexLive(m) && (id in m.tasks ==> x.start == m.tasks[id].start) ==>
      IndexLive(UpdateTask(m, id, x).state)
  {
  }

  lemma UpdateEpicKeepsInvariant(m: ManagerState, id: int, x: Item)
    requires Invariant(m) && x.kind == EPIC
    ensures Invariant(UpdateEpic(m, id, x).state)
  {
  }

  lemma UpdateEpicSize(m: ManagerState, id: int, x: Item)
    requires Invariant(m) && x.kind == EPIC
    ensures Size(UpdateEpic(m, id, x).state) == Size(m)
  {
    var r := UpdateEpic(m, id, x);
    if r.result.Ok? {
      StoryCountReplace(m.epics, id, r.state.epics[id], m.lastId);
    }
  }

  /** Replacing an epic's header changes no story's owner. */
  lemma UpdateEpicKeepsLive(m: ManagerState, id: int, x: Item)
    requires IdsDisjoint(m) && x.kind == EPIC
    ensures forall sid :: StoryOwner(UpdateEpic(m, id, x).state.epics, sid) == StoryOwner(m.epics, sid)
    ensures HistoryLive(m) ==> HistoryLive(UpdateEpic(m, id, x).state)
    ensures IndexLive(m) ==> IndexLive(UpdateEpic(m, id, x).state)
  {
    var r := UpdateEpic(m, id, x);
    if r.result.Ok? {
      assert IdsDisjoint(r.state);
      OwnersAfterEpicChange(m.epics, id, r.state.epics[id]);
    }
  }

  lemma UpdateStoryKeepsInvariant(m: ManagerState, id: int, x: Item)
    requires Invariant(m) && x.kind == STORY
    ensures Invariant(UpdateStory(m, id, x).state)
  {
    var r := UpdateStory(m, id, x);
    if r.result.Ok? {
      PutStoryKeepsInvariant(m, StoryOwner(m.epics, id).value, x.(id := id));
    }
  }

  lemma UpdateStorySize(m: ManagerState, id: int, x: Item)
    requires Invariant(m) && x.kind == STORY
    ensures Size(UpdateStory(m, id, x).state) == Size(m)
  {
    var r := UpdateStory(m, id, x);
    if r.result.Ok? {
      var e := StoryOwner(m.epics, id).value;
      StoryCountReplace(m.epics, e, r.state.epics[e], m.lastId);
    }
  }

  lemma UpdateStoryKeepsLive(m: ManagerState, id: int, x: Item)
    requires IdsDisjoint(m) && x.kind == STORY
    ensures HistoryLive(m) ==> HistoryLive(UpdateStory(m, id, x).state)
    ensures IndexLive(m) && (StoryOwner(m.epics, id).Some? ==>
              x.start == m.epics[StoryOwner(m.epics, id).value].stories[id].start) ==>
      IndexLive(UpdateStory(m, id, x).state)
  {
    var r := UpdateStory(m, id, x);
    if r.result.Ok? {
      var e := StoryOwner(m.epics, id).value;
      var n := r.state;
      assert UniqueOwners(n.epics);
      OwnersAfterEpicChange(m.epics, e, n.epics[e]);
      if IndexLive(m) && x.start == m.epics[e].stories[id].start {
        forall z | z in n.index
          ensures Scheduled(n, z.id).Some? && Key(Scheduled(n, z.id).value) == Key(z)
        {
          assert z in m.index;
          if z.id == id {
            assert Scheduled(n, id) == Some(x.(id := id));
          } else {
            assert Scheduled(n, z.id) == Scheduled(m, z.id);
          }
        }
      }
    }
  }

  /** The converse: the index is not re-keyed, so once a task with an index
      entry is moved to another start, that entry is stale. */
  lemma UpdateTaskMovedStartLeavesStale(m: ManagerState, id: int, x: Item)
    requires Invariant(m) && IndexLive(m) && x.kind == TASK
    requires UpdateTask(m, id, x).result.Ok?
    requires exists z :: z in m.index && z.id == id
    ensures IndexLive(UpdateTask(m, id, x).state) <==> x.start == m.tasks[id].start
  {
    var n := UpdateTask(m, id, x).state;
    var z :| z in m.index && z.id == id;
    assert Scheduled(m, id) == Some(m.tasks[id]);
    assert Scheduled(n, id) == Some(x.(id := id));
    assert z in n.index;
    UpdateTaskKeepsLive(m, id, x);
  }

  /** The same for updateStory: a story with an index entry moved to another
      start leaves that entry stale. */
  lemma UpdateStoryMovedStartLeavesStale(m: ManagerState, id: int, x: Item)
    requires IdsDisjoint(m) && IndexLive(m) && x.kind == STORY
    requires UpdateStory(m, id, x).result.Ok?
    requires exists z :: z in m.index && z.id == id
    ensures StoryOwner(m.epics, id).Some?
    ensures IndexLive(UpdateStory(m, id, x).state) <==>
      x.start == m.epics[StoryOwner(m.epics, id).value].stories[id].start
  {
    var n := UpdateStory(m, id, x).state;
    var e := StoryOwner(m.epics, id).value;
    var z :| z in m.index && z.id == id;
    assert id !in m.tasks;
    assert Scheduled(m, id) == Some(m.epics[e].stories[id]);
    assert UniqueOwners(n.epics);
    OwnersAfterEpicChange(m.epics, e, n.epics[e]);
    assert id in n.epics[e].stories && n.epics[e].stories[id] == x.(id := id);
    assert Scheduled(n, id) == Some(x.(id := id));
    assert z in n.index;
    UpdateStoryKeepsLive(m, id, x);
  }

  /** updateTask as written rejects moving a task by less than its length:
      the scan meets the task's own entry. Task 1 runs over [10, 20); moving
      it to start at 15 fails with a conflict against itself, while the
      intended update succeeds. */
  lemma UpdateConflictsWithItself()
    ensures var t := Item(1, TASK, "Task", None, NEW, Some(10), Some(10), 0);
            var moved := t.(start := Some(15));
            var m := ManagerState(map[1 := t], map[], [], [t], 1);
            && Invariant(m) && IndexLive(m)
            && UpdateTask(m, 1, moved).result == Err(IntervalConflict(moved, t))
            && UpdateTaskExcludingSelf(m, 1, moved).result == Ok(moved)
  {
    var t := Item(1, TASK, "Task", None, NEW, Some(10), Some(10), 0);
    var moved := t.(start := Some(15));
    assert [t][1..] == [];
    assert Others([t], 1) == [];
  }

  /** The intended update keeps the invariant; when it succeeds the new
      interval clears every other task and story and the task is replaced. */
  lemma UpdateTaskExcludingSelfKeepsInvariant(m: ManagerState, id: int, x: Item)
    requires Invariant(m) && IndexLive(m) && x.kind == TASK
    ensures Invariant(UpdateTaskExcludingSelf(m, id, x).state)
    ensures UpdateTaskExcludingSelf(m, id, x).result.Ok? ==>
      Conflict(Others(m.index, id), x) == Clear
      && UpdateTaskExcludingSelf(m, id, x).state.tasks == m.tasks[id := x.(id := id)]
  {
    var r := UpdateTaskExcludingSelf(m, id, x);
    if r.result.Ok? {
      var y := x.(id := id);
      ConflictIgnoresId(Others(m.index, id), x, y);
      RekeyKeepsNoOverlap(m.index, m.tasks[id], y);
    }
  }

  /** Unlike the update as written, the intended one keeps the index live
      whatever the new interval. */
  lemma UpdateTaskExcludingSelfKeepsLive(m: ManagerState, id: int, x: Item)
    requires Invariant(m) && IndexLive(m) && x.kind == TASK
    ensures IndexLive(UpdateTaskExcludingSelf(m, id, x).state)
  {
    var r := UpdateTaskExcludingSelf(m, id, x);
    if r.result.Ok? {
      var y := x.(id := id);
      var n := r.state;
      assert n == m.(tasks := m.tasks[id := y], index := Insert(RemoveKey(m.index, m.tasks[id]), y));
      ConflictIgnoresId(Others(m.index, id), x, y);
      RekeyKeepsNoOverlap(m.index, m.tasks[id], y);
      assert n.epics == m.epics;
      forall z | z in n.index
        ensures Scheduled(n, z.id).Some? && Key(Scheduled(n, z.id).value) == Key(z)
      {
        if z.id == id {
          assert z == y && Scheduled(n, id) == Some(y);
        } else {
          assert z in m.index && Scheduled(n, z.id) == Scheduled(m, z.id);
        }
      }
    }
  }

  /** updateStory as written has the same defect: story 2 of epic 1 runs over
      [10, 20); moving it to start at 15 fails with a conflict against its own
      entry, while the intended update succeeds. */
  lemma UpdateStoryConflictsWithItself()
    ensures var h := Item(1, EPIC, "Epic", None, NEW, None, None, 0);
            var s := Item(2, STORY, "Story", None, NEW, Some(10), Some(10), 1);
            var moved := s.(start := Some(15));
            var m := ManagerState(map[], map[1 := Epic(h, map[2 := s])], [], [s], 2);
            && Invariant(m) && IndexLive(m)
            && UpdateStory(m, 2, moved).result == Err(IntervalConflict(moved, s))
            && UpdateStoryExcludingSelf(m, 2, moved).result == Ok(moved)
  {
    var h := Item(1, EPIC, "Epic", None, NEW, None, None, 0);
    var s := Item(2, STORY, "Story", None, NEW, Some(10), Some(10), 1);
    var m := ManagerState(map[], map[1 := Epic(h, map[2 := s])], [], [s], 2);
    assert [s][1..] == [];
    assert Others([s], 2) == [];
    assert 2 in m.epics[1].stories;
    var o := StoryOwner(m.epics, 2);
    assert o.Some? && o.value in m.epics;
  }

  /** The stored story of a live story id, and what the index says about it. */
  lemma StoryEntryKey(m: ManagerState, id: int)
    requires IdsDisjoint(m) && IndexLive(m) && StoryOwner(m.epics, id).Some?
    ensures var e := StoryOwner(m.epics, id).value;
      forall z :: z in m.index && z.id == id ==> Key(z) == Key(m.epics[e].stories[id])
  {
    var e := StoryOwner(m.epics, id).value;
    assert id !in m.tasks;
    assert Scheduled(m, id) == Some(m.epics[e].stories[id]);
  }

  /** The intended story update keeps the invariant; when it succeeds the new
      interval clears every other task and story, and the story is replaced
      in the epic that owns it. */
  lemma UpdateStoryExcludingSelfKeepsInvariant(m: ManagerState, id: int, x: Item)
    requires Invariant(m) && IndexLive(m) && x.kind == STORY
    ensures Invariant(UpdateStoryExcludingSelf(m, id, x).state)
    ensures UpdateStoryExcludingSelf(m, id, x).result.Ok? ==>
      && Conflict(Others(m.index, id), x) == Clear
      && StoryOwner(m.epics, id).Some?
      && var e := StoryOwner(m.epics, id).value;
         UpdateStoryExcludingSelf(m, id, x).state.epics == PutStory(m.epics, e, x.(id := id, epicId := e))
  {
    var r := UpdateStoryExcludingSelf(m, id, x);
    if r.result.Ok? {
      var e := StoryOwner(m.epics, id).value;
      var y := x.(id := id, epicId := e);
      var before := m.epics[e].stories[id];
      StoryEntryKey(m, id);
      ConflictIgnoresId(Others(m.index, id), x, y);
      RekeyKeepsNoOverlap(m.index, before, y);
      PutStoryKeepsInvariant(m, e, y);
      var m1 := m.(epics := PutStory(m.epics, e, y));
      assert r.state == m1.(index := Insert(RemoveKey(m.index, before), y));
    }
  }

  /** The intended story update keeps history live: no item is removed. */
  lemma UpdateStoryExcludingSelfKeepsHistoryLive(m: ManagerState, id: int, x: Item)
    requires Invariant(m) && HistoryLive(m) && x.kind == STORY
    ensures HistoryLive(UpdateStoryExcludingSelf(m, id, x).state)
  {
    var r := UpdateStoryExcludingSelf(m, id, x);
    if r.result.Ok? {
      var e := StoryOwner(m.epics, id).value;
      var n := r.state;
      assert n.tasks == m.tasks && n.history == m.history;
      assert UniqueOwners(n.epics);
      OwnersAfterEpicChange(m.epics, e, n.epics[e]);
      forall z | z in n.history ensures IsLive(n, z.id) {
        assert IsLive(m, z.id);
      }
    }
  }

  /** Unlike the story update as written, the intended one keeps the index
      live whatever the new interval. */
  lemma UpdateStoryExcludingSelfKeepsLive(m: ManagerState, id: int, x: Item)
    requires Invariant(m) && IndexLive(m) && x.kind == STORY
    ensures IndexLive(UpdateStoryExcludingSelf(m, id, x).state)
  {
    var r := UpdateStoryExcludingSelf(m, id, x);
    if r.result.Ok? {
      var e := StoryOwner(m.epics, id).value;
      var y := x.(id := id, epicId := e);
      var before := m.epics[e].stories[id];
      var idx := Insert(RemoveKey(m.index, before), y);
      var n := r.state;
      assert n == m.(epics := PutStory(m.epics, e, y), index := idx);
      StoryEntryKey(m, id);
      RekeyFacts(m.index, before, x, y);
      ScheduledAfterPut(m, e, y, idx);
      forall z | z in n.index
        ensures Scheduled(n, z.id).Some? && Key(Scheduled(n, z.id).value) == Key(z)
      {
        if z.id != id {
          assert z in m.index;
        }
      }
    }
  }

  /** Replacing a stored story changes what is scheduled under its id only. */
  lemma ScheduledAfterPut(m: ManagerState, e: int, y: Item, idx: seq<Item>)
    requires IdsDisjoint(m) && e in m.epics && y.id in m.epics[e].stories
    ensures var n := m.(epics := PutStory(m.epics, e, y), index := idx);
      && Scheduled(n, y.id) == Some(y)
      && forall k :: k != y.id ==> Scheduled(n, k) == Scheduled(m, k)
  {
    var n := m.(epics := PutStory(m.epics, e, y), index := idx);
    assert UniqueOwners(n.epics);
    OwnersAfterEpicChange(m.epics, e, n.epics[e]);
    assert y.id !in n.tasks;
  }

  /** What re-keying the index entry of `y`'s id gives, once `x`, which
      differs from `y` at most in id and epic id, clears the other entries. */
  lemma RekeyFacts(s: seq<Item>, before: Item, x: Item, y: Item)
    requires Sorted(s) && NoOverlap(s)
    requires forall z :: z in s && z.id == y.id ==> Key(z) == Key(before)
    requires before.id == y.id && y.start == x.start && y.duration == x.duration
    requires Conflict(Others(s, y.id), x) == Clear
    ensures forall z :: z in Insert(RemoveKey(s, before), y) <==> z == y || (z in s && z.id != y.id)
  {
    ConflictIgnoresId(Others(s, y.id), x, y);
    RekeyKeepsNoOverlap(s, before, y);
  }

  // ---------------------------------------------------------------------
  // Deletes

  lemma DeleteTaskKeepsInvariant(m: ManagerState, id: int)
    requires Invariant(m)
    ensures Invariant(DeleteTask(m, id).state)
    ensures Size(DeleteTask(m, id).state) == Size(m) - (if DeleteTask(m, id).result.Ok? then 1 else 0)
  {
    if id in m.tasks {
      History.RemoveDropsId(m.history, id);
      DropKeysKeepsNoOverlap(m.index, {Key(m.tasks[id])});
    }
  }

  /** A deleted task leaves history and the index, and both stay live. */
  lemma DeleteTaskKeepsLive(m: ManagerState, id: int)
    requires Invariant(m)
    ensures DeleteTask(m, id).result.Ok? ==> forall z :: z in DeleteTask(m, id).state.history ==> z.id != id
    ensures HistoryLive(m) ==> HistoryLive(DeleteTask(m, id).state)
    ensures IndexLive(m) ==> IndexLive(DeleteTask(m, id).state)
  {
    if id in m.tasks {
      var r := DeleteTask(m, id);
      History.RemoveDropsId(m.history, id);
      if IndexLive(m) {
        forall z | z in r.state.index
          ensures Scheduled(r.state, z.id).Some? && Key(Scheduled(r.state, z.id).value) == Key(z)
        {
          assert z in m.index && Key(z) != Key(m.tasks[id]);
        }
      }
    }
  }

  lemma DeleteStoryKeepsInvariant(m: ManagerState, id: int)
    requires Invariant(m)
    ensures Invariant(DeleteStory(m, id).state)
  {
    match StoryOwner(m.epics, id)
    case Some(e) => DropStoryKeepsInvariant(m, e, id);
    case None =>
  }

  lemma DeleteStorySize(m: ManagerState, id: int)
    requires Invariant(m)
    ensures Size(DeleteStory(m, id).state) == Size(m) - (if DeleteStory(m, id).result.Ok? then 1 else 0)
  {
    var r := DeleteStory(m, id);
    if r.result.Ok? {
      var e := StoryOwner(m.epics, id).value;
      StoryCountReplace(m.epics, e, r.state.epics[e], m.lastId);
    }
  }

  /** A deleted story leaves history and the index, and both stay live. */
  lemma DeleteStoryKeepsHistoryLive(m: ManagerState, id: int)
    requires IdsDisjoint(m)
    ensures DeleteStory(m, id).result.Ok? ==> forall z :: z in DeleteStory(m, id).state.history ==> z.id != id
    ensures HistoryLive(m) ==> HistoryLive(DeleteStory(m, id).state)
  {
    var r := DeleteStory(m, id);
    if r.result.Ok? {
      var e := StoryOwner(m.epics, id).value;
      assert UniqueOwners(r.state.epics);
      OwnersAfterEpicChange(m.epics, e, r.state.epics[e]);
    }
  }

  lemma DeleteStoryKeepsIndexLive(m: ManagerState, id: int)
    requires IdsDisjoint(m)
    ensures IndexLive(m) ==> IndexLive(DeleteStory(m, id).state)
  {
    var r := DeleteStory(m, id);
    if r.result.Ok? && IndexLive(m) {
      var e := StoryOwner(m.epics, id).value;
      var x := m.epics[e].stories[id];
      OwnerUnique(m.epics, e, id);
      assert UniqueOwners(r.state.epics);
      OwnersAfterEpicChange(m.epics, e, r.state.epics[e]);
      forall z | z in r.state.index
        ensures Scheduled(r.state, z.id).Some? && Key(Scheduled(r.state, z.id).value) == Key(z)
      {
        assert z in m.index && Key(z) != Key(x);
      }
    }
  }

  lemma DeleteEpicKeepsInvariant(m: ManagerState, id: int)
    requires Invariant(m)
    ensures Invariant(DeleteEpic(m, id).state)
    ensures Invariant(DeleteEpicScrubbingStories(m, id).state)
  {
    if id in m.epics {
      var ep := m.epics[id];
      History.RemoveDropsId(m.history, id);
      DropKeysKeepsNoOverlap(m.index, KeysOf(ep.stories));
    }
  }

  /** Deleting an epic takes the epic and all its stories off the size: the
      epic with two stories takes three. */
  lemma DeleteEpicSize(m: ManagerState, id: int)
    requires Invariant(m)
    ensures DeleteEpic(m, id).result.Ok? ==>
      Size(DeleteEpic(m, id).state) == Size(m) - 1 - |m.epics[id].stories|
    ensures Size(DeleteEpicScrubbingStories(m, id).state) == Size(DeleteEpic(m, id).state)
  {
    if id in m.epics {
      StoryCountRemove(m.epics, id, m.lastId);
    }
  }

  /** Both versions of deleteEpic take the epic's stories out of the index
      and leave the index live. */
  lemma DeleteEpicKeepsIndexLive(m: ManagerState, id: int)
    requires IdsDisjoint(m)
    ensures IndexLive(m) ==> IndexLive(DeleteEpic(m, id).state)
    ensures DeleteEpicScrubbingStories(m, id).state.index == DeleteEpic(m, id).state.index
    ensures DeleteEpicScrubbingStories(m, id).state.epics == DeleteEpic(m, id).state.epics
  {
    var r := DeleteEpic(m, id);
    if id in m.epics && IndexLive(m) {
      var ep := m.epics[id];
      OwnersAfterEpicRemoval(m.epics, id);
      forall z | z in r.state.index
        ensures Scheduled(r.state, z.id).Some? && Key(Scheduled(r.state, z.id).value) == Key(z)
      {
        assert z in m.index && Key(z) !in KeysOf(ep.stories);
        if z.id in ep.stories {
          OwnerUnique(m.epics, id, z.id);
        }
      }
    }
  }

  /** The intended deleteEpic also takes the story ids out of history, so
      history stays live. */
  lemma DeleteEpicScrubbingStoriesKeepsHistoryLive(m: ManagerState, id: int)
    requires IdsDisjoint(m)
    ensures HistoryLive(m) ==> HistoryLive(DeleteEpicScrubbingStories(m, id).state)
    ensures DeleteEpicScrubbingStories(m, id).result.Ok? ==>
      forall z :: z in DeleteEpicScrubbingStories(m, id).state.history ==>
        z.id != id && z.id !in m.epics[id].stories
  {
    if id in m.epics {
      OwnersAfterEpicRemoval(m.epics, id);
    }
  }

  /** deleteEpic as written breaks history liveness: an epic whose one story
      was viewed is deleted, and the story's entry stays in history although
      no repository holds id 2 any more. */
  lemma DeleteEpicLeavesStoryInHistory()
    ensures var h := Item(1, EPIC, "Epic", None, NEW, None, None, 0);
            var s := Item(2, STORY, "Story", None, NEW, None, None, 1);
            var m := ManagerState(map[], map[1 := Epic(h, map[2 := s])], [s], [s], 2);
            var n := DeleteEpic(m, 1).state;
            && Invariant(m) && HistoryLive(m) && IndexLive(m)
            && n.history == [s] && !IsLive(n, 2) && !HistoryLive(n)
            && DeleteEpicScrubbingStories(m, 1).state.history == []
  {
    var h := Item(1, EPIC, "Epic", None, NEW, None, None, 0);
    var s := Item(2, STORY, "Story", None, NEW, None, None, 1);
    var m := ManagerState(map[], map[1 := Epic(h, map[2 := s])], [s], [s], 2);
    OwnerUnique(m.epics, 1, 2);
    History.DropIdsNothing([s], {1});
  }

  lemma DeleteAllTasksKeepsInvariant(m: ManagerState)
    requires Invariant(m)
    ensures Invariant(DeleteAllTasks(m))
    ensures Size(DeleteAllTasks(m)) == Size(m) - |m.tasks|
  {
    DropKeysKeepsNoOverlap(m.index, KeysOf(m.tasks));
  }

  /** Every task leaves history and the index; both stay live. */
  lemma DeleteAllTasksKeepsLive(m: ManagerState)
    requires IdsDisjoint(m)
    ensures forall z :: z in DeleteAllTasks(m).history ==> z.id !in m.tasks
    ensures HistoryLive(m) ==> HistoryLive(DeleteAllTasks(m))
    ensures IndexLive(m) ==> IndexLive(DeleteAllTasks(m))
  {
    var n := DeleteAllTasks(m);
    if IndexLive(m) {
      forall z | z in n.index
        ensures Scheduled(n, z.id).Some? && Key(Scheduled(n, z.id).value) == Key(z)
      {
        assert z in m.index && Key(z) !in KeysOf(m.tasks);
      }
    }
  }

  lemma {:induction false} StoryCountNone(n: nat)
    ensures StoryCountUpTo(map[], n) == 0
  {
    if n > 0 {
      StoryCountNone(n - 1);
    }
  }

  lemma DeleteAllEpicsKeepsInvariant(m: ManagerState)
    requires Invariant(m)
    ensures Invariant(DeleteAllEpics(m))
    ensures Size(DeleteAllEpics(m)) == |m.tasks|
  {
    DropKeysKeepsNoOverlap(m.index, AllStoryKeys(m.epics));
    StoryCountNone(m.lastId);
  }

  /** Every epic and every story leaves history, every story leaves the
      index, and both stay live. */
  lemma DeleteAllEpicsKeepsLive(m: ManagerState)
    requires IdsDisjoint(m)
    ensures forall z :: z in DeleteAllEpics(m).history ==> z.id !in m.epics && StoryOwner(m.epics, z.id).None?
    ensures HistoryLive(m) ==> HistoryLive(DeleteAllEpics(m))
    ensures IndexLive(m) ==> IndexLive(DeleteAllEpics(m))
  {
    var n := DeleteAllEpics(m);
    if IndexLive(m) {
      forall z | z in n.index
        ensures Scheduled(n, z.id).Some? && Key(Scheduled(n, z.id).value) == Key(z)
      {
        assert z in m.index && Key(z) !in AllStoryKeys(m.epics);
      }
    }
  }

  /** deleteAllStories keeps the invariant whatever epic value it is given. */
  lemma DeleteAllStoriesKeepsInvariant(m: ManagerState, ep: Epic)
    requires Invariant(m)
    ensures Invariant(DeleteAllStories(m, ep))
  {
    DropKeysKeepsNoOverlap(m.index, KeysOf(ep.stories));
    var id := ep.header.id;
    var n1 := m.(history := History.DropIds(m.history, IdsOf(ep.stories)),
                 index := DropKeys(m.index, KeysOf(ep.stories)));
    assert Invariant(n1);
    if id in m.epics {
      ClearStoriesKeepsInvariant(n1, id);
      assert DeleteAllStories(m, ep) == n1.(epics := n1.epics[id := n1.epics[id].(stories := map[])]);
    } else {
      assert DeleteAllStories(m, ep) == n1;
    }
  }

  lemma ClearStoriesKeepsInvariant(m: ManagerState, e: int)
    requires Invariant(m) && e in m.epics
    ensures Invariant(m.(epics := m.epics[e := m.epics[e].(stories := map[])]))
  {
  }

  /** Clearing the stories of an epic as the repository holds it: they leave
      history and the index, both stay live, and the size drops by their
      number. */
  lemma DeleteAllStoriesSize(m: ManagerState, ep: Epic)
    requires Invariant(m)
    requires ep.header.id in m.epics && m.epics[ep.header.id] == ep
    ensures Size(DeleteAllStories(m, ep)) == Size(m) - |ep.stories|
  {
    var id := ep.header.id;
    StoryCountReplace(m.epics, id, ep.(stories := map[]), m.lastId);
  }

  /** Items stored under their own ids carry exactly the keys as ids. */
  lemma IdsAreKeys(items: map<int, Item>)
    requires forall k :: k in items ==> items[k].id == k
    ensures IdsOf(items) == items.Keys
  {
    forall k | k in items.Keys
      ensures k in IdsOf(items)
    {
      assert items[k].id == k;
    }
  }

  lemma DeleteAllStoriesKeepsLive(m: ManagerState, ep: Epic)
    requires IdsDisjoint(m)
    requires ep.header.id in m.epics && m.epics[ep.header.id] == ep
    requires forall k :: k in ep.stories ==> ep.stories[k].id == k
    ensures forall z :: z in DeleteAllStories(m, ep).history ==> z.id !in ep.stories
    ensures HistoryLive(m) ==> HistoryLive(DeleteAllStories(m, ep))
  {
    var id := ep.header.id;
    IdsAreKeys(ep.stories);
    var cleared := m.epics[id := ep.(stories := map[])];
    var n := m.(epics := cleared, history := History.DropIds(m.history, ep.stories.Keys),
                index := DropKeys(m.index, KeysOf(ep.stories)));
    assert DeleteAllStories(m, ep) == n;
    assert UniqueOwners(cleared);
    OwnersAfterEpicChange(m.epics, id, cleared[id]);
  }

  lemma DeleteAllStoriesKeepsIndexLive(m: ManagerState, ep: Epic)
    requires IdsDisjoint(m) && IndexLive(m)
    requires ep.header.id in m.epics && m.epics[ep.header.id] == ep
    ensures IndexLive(DeleteAllStories(m, ep))
  {
    var id := ep.header.id;
    var cleared := m.epics[id := ep.(stories := map[])];
    var n := DeleteAllStories(m, ep);
    assert n.epics == cleared && n.index == DropKeys(m.index, KeysOf(ep.stories));
    ClearedStoriesLeaveIndexLive(m, ep, m.(epics := cleared, index := n.index));
    assert IndexLive(m.(epics := cleared, index := n.index)) ==> IndexLive(n);
  }

  /** The index entries left after clearing an epic's stories still name
      live items under their keys. */
  lemma ClearedStoriesLeaveIndexLive(m: ManagerState, ep: Epic, n: ManagerState)
    requires IdsDisjoint(m) && IndexLive(m)
    requires ep.header.id in m.epics && m.epics[ep.header.id] == ep
    requires n == m.(epics := m.epics[ep.header.id := ep.(stories := map[])], index := DropKeys(m.index, KeysOf(ep.stories)))
    ensures IndexLive(n)
  {
    var id := ep.header.id;
    assert UniqueOwners(n.epics);
    OwnersAfterEpicChange(m.epics, id, n.epics[id]);
    forall z | z in n.index
      ensures Scheduled(n, z.id).Some? && Key(Scheduled(n, z.id).value) == Key(z)
    {
      assert z in m.index && Key(z) !in KeysOf(ep.stories);
      if z.id !in m.tasks {
        var e := StoryOwner(m.epics, z.id).value;
        if e != id {
          OwnerUnique(m.epics, e, z.id);
          assert z.id !in ep.stories;
          assert StoryOwner(n.epics, z.id) == Some(e);
        }
      }
    }
  }

  // ---------------------------------------------------------------------
  // Bulk loading

  /** Adding epics one by one keeps the invariant, issues one id per epic and
      stores each under its own id, touching nothing but the epic repository. */
  lemma {:induction false} AddEpicsAddsEach(m: ManagerState, items: seq<Item>)
    requires Invariant(m) && forall x :: x in items ==> x.kind == EPIC
    ensures var n := AddEpics(m, items);
      && Invariant(n) && n.lastId == m.lastId + |items| && |n.epics| == |m.epics| + |items|
      && n.tasks == m.tasks && n.history == m.history && n.index == m.index
    decreases |items|
  {
    if items != [] {
      NextIdFree(m);
      AddEpicKeepsInvariant(m, items[0]);
      AddEpicsAddsEach(AddEpic(m, items[0]).state, items[1..]);
    }
  }

  /** Adding tasks one by one keeps the invariant; when every add succeeds,
      one id is issued and one task stored per item. */
  lemma {:induction false} AddTasksAddsEach(m: ManagerState, items: seq<Item>)
    requires Invariant(m) && forall x :: x in items ==> x.kind == TASK
    ensures var r := AddTasks(m, items);
      && Invariant(r.state) && r.state.epics == m.epics && r.state.history == m.history
      && (r.result.Ok? ==> r.state.lastId == m.lastId + |items| && |r.state.tasks| == |m.tasks| + |items|)
    decreases |items|
  {
    if items != [] {
      NextIdFree(m);
      AddTaskKeepsInvariant(m, items[0]);
      var s := AddTask(m, items[0]);
      if s.result.Ok? {
        AddTasksAddsEach(s.state, items[1..]);
      }
    }
  }

  /** createRepository: an unknown kind fails and changes nothing; otherwise
      the chosen repository is rebuilt from the items alone, one id per item,
      and the other repository is left as it was. */
  lemma CreateRepositoryRebuilds(m: ManagerState, items: seq<Item>, kind: RepositoryKind)
    requires Invariant(m)
    requires kind == EpicsRepository ==> forall x :: x in items ==> x.kind == EPIC
    requires kind == TasksRepository ==> forall x :: x in items ==> x.kind == TASK
    ensures var r := CreateRepository(m, items, kind);
      && (kind.OtherRepository? ==> r == Step(Err(UnsupportedRepository(kind.name)), m))
      && (kind == EpicsRepository ==>
            r.result.Ok? && |r.state.epics| == |items| && r.state.tasks == m.tasks && Invariant(r.state))
      && (kind == TasksRepository ==>
            Invariant(r.state) && r.state.epics == m.epics
            && (r.result.Ok? ==> |r.state.tasks| == |items|))
  {
    match kind
    case EpicsRepository =>
      AddEpicsAddsEach(m.(epics := map[]), items);
    case TasksRepository =>
      AddTasksAddsEach(m.(tasks := map[]), items);
    case OtherRepository(_) =>
  }

  // ---------------------------------------------------------------------
  // Counting stories

  /** An epic beyond the counted range does not change the count. */
  lemma {:induction false} StoryCountBeyond(epics: map<int, Epic>, k: int, ep: Epic, n: nat)
    requires k > n
    ensures StoryCountUpTo(epics[k := ep], n) == StoryCountUpTo(epics, n)
  {
    if n > 0 {
      StoryCountBeyond(epics, k, ep, n - 1);
    }
  }

  /** Replacing one counted epic changes the count by the difference of story counts. */
  lemma {:induction false} StoryCountReplace(epics: map<int, Epic>, e: int, ep: Epic, n: nat)
    requires e in epics && 0 < e <= n
    ensures StoryCountUpTo(epics[e := ep], n) == StoryCountUpTo(epics, n) - |epics[e].stories| + |ep.stories|
  {
    if e < n {
      StoryCountReplace(epics, e, ep, n - 1);
    } else {
      StoryCountOutside(epics, epics[e := ep], n - 1);
    }
  }

  /** Removing one counted epic takes its stories off the count. */
  lemma {:induction false} StoryCountRemove(epics: map<int, Epic>, e: int, n: nat)
    requires e in epics && 0 < e <= n
    ensures StoryCountUpTo(epics - {e}, n) == StoryCountUpTo(epics, n) - |epics[e].stories|
  {
    if e < n {
      StoryCountRemove(epics, e, n - 1);
    } else {
      StoryCountOutside(epics, epics - {e}, n - 1);
    }
  }

  /** Two epic maps that agree on 1..n count the same stories there. */
  lemma {:induction false} StoryCountOutside(a: map<int, Epic>, b: map<int, Epic>, n: nat)
    requires forall k :: 0 < k <= n ==> (k in a <==> k in b) && (k in a ==> a[k] == b[k])
    ensures StoryCountUpTo(a, n) == StoryCountUpTo(b, n)
  {
    if n > 0 {
      StoryCountOutside(a, b, n - 1);
    }
  }

  /** The ids of the stories of the epics with ids 1..n. */
  function OwnedUpTo(epics: map<int, Epic>, n: nat): set<int> {
    if n == 0 then {}
    else OwnedUpTo(epics, n - 1) + (if n in epics then epics[n].stories.Keys else {})
  }

  /** A story id is owned up to n exactly when an epic with an id in 1..n
      holds it. */
  lemma {:induction false} OwnedUpToMembers(epics: map<int, Epic>, n: nat)
    ensures forall id :: id in OwnedUpTo(epics, n) <==>
      exists e :: 0 < e <= n && e in epics && id in epics[e].stories
  {
    if n > 0 {
      OwnedUpToMembers(epics, n - 1);
    }
  }

  /** When no story has two owners, counting epic by epic counts each story
      id once. */
  lemma {:induction false} StoryCountIsOwned(epics: map<int, Epic>, n: nat)
    requires UniqueOwners(epics)
    ensures StoryCountUpTo(epics, n) == |OwnedUpTo(epics, n)|
  {
    if n > 0 {
      StoryCountIsOwned(epics, n - 1);
      OwnedUpToMembers(epics, n - 1);
      if n in epics {
        var before := OwnedUpTo(epics, n - 1);
        var here := epics[n].stories.Keys;
        assert before !! here by {
          forall id | id in before ensures id !in here {
            var e :| 0 < e <= n - 1 && e in epics && id in epics[e].stories;
          }
        }
        assert OwnedUpTo(epics, n) == before + here;
        assert |here| == |epics[n].stories|;
      }
    }
  }

  /** Under the invariant every epic has an issued id, so the epics with ids
      1..lastId own every story. */
  lemma OwnedAreStoryIds(m: ManagerState)
    requires Invariant(m)
    ensures OwnedUpTo(m.epics, m.lastId) == StoryIds(m.epics)
  {
    OwnedUpToMembers(m.epics, m.lastId);
    forall id ensures id in OwnedUpTo(m.epics, m.lastId) <==> id in StoryIds(m.epics) {
      if id in StoryIds(m.epics) {
        var e := StoryOwner(m.epics, id).value;
        assert 0 < e <= m.lastId && id in m.epics[e].stories;
      }
    }
  }

  /** No id is both a task or epic id and a story id. */
  lemma StoryIdsApart(m: ManagerState)
    requires IdsDisjoint(m)
    ensures m.tasks.Keys !! m.epics.Keys
    ensures (m.tasks.Keys + m.epics.Keys) !! StoryIds(m.epics)
  {
    forall id | id in m.tasks.Keys ensures id !in m.epics.Keys {
      assert id in m.tasks;
    }
    forall id | id in StoryIds(m.epics) ensures id !in m.tasks.Keys + m.epics.Keys {
      var e := StoryOwner(m.epics, id).value;
      assert id in m.epics[e].stories;
    }
  }

  /** size() counts every task, epic and story once: under the invariant the
      epic-by-epic story count over the issued ids is the number of story
      ids, so the size is the number of items the manager holds. */
  lemma SizeCountsItems(m: ManagerState)
    requires Invariant(m)
    ensures StoryCountUpTo(m.epics, m.lastId) == |StoryIds(m.epics)|
    ensures Size(m) == |AllItems(m)|
  {
    StoryCountIsOwned(m.epics, m.lastId);
    OwnedAreStoryIds(m);
    StoryIdsApart(m);
    var t, ep, st := m.tasks.Keys, m.epics.Keys, StoryIds(m.epics);
    assert |t + ep| == |m.tasks| + |m.epics|;
    assert |t + ep + st| == |t + ep| + |st|;
    AllItemsKeys(m);
  }

  /** The items of the manager are keyed by the task, epic and story ids. */
  lemma AllItemsKeys(m: ManagerState)
    ensures |AllItems(m)| == |m.tasks.Keys + m.epics.Keys + StoryIds(m.epics)|
  {
    var all := AllItems(m);
    assert all.Keys == m.tasks.Keys + m.epics.Keys + StoryIds(m.epics);
  }

  // ---------------------------------------------------------------------
  // Listings

  /** A repository keyed by its items' ids lists in increasing id order,
      each listed item stored under its id in 1..n, and every item with an
      id in 1..n listed. */
  lemma {:induction false} ListingInIdOrder(items: map<int, Item>, n: nat)
    requires forall k :: k in items ==> items[k].id == k
    ensures forall i, j :: 0 <= i < j < |Listing(items, n)| ==> Listing(items, n)[i].id < Listing(items, n)[j].id
    ensures forall i :: 0 <= i < |Listing(items, n)| ==>
      var x := Listing(items, n)[i]; 0 < x.id <= n && x.id in items && items[x.id] == x
    ensures forall k :: k in items && 0 < k <= n ==> items[k] in Listing(items, n)
    decreases n
  {
    if n > 0 {
      ListingInIdOrder(items, n - 1);
      var p := Listing(items, n - 1);
      assert forall i :: 0 <= i < |p| ==> p[i].id <= n - 1;
      assert Listing(items, n) == p + (if n in items then [items[n]] else []);
    }
  }

  /** The listing has one entry per key in 1..n. */
  lemma {:induction false} ListingCountsKeys<T>(items: map<int, T>, n: nat)
    ensures |Listing(items, n)| == |set k | k in items && 0 < k <= n|
    decreases n
  {
    if n > 0 {
      ListingCountsKeys(items, n - 1);
      var before := set k | k in items && 0 < k <= n - 1;
      var now := set k | k in items && 0 < k <= n;
      if n in items {
        assert now == before + {n};
      } else {
        assert now == before;
      }
    }
  }

  /** With every key in 1..n, findAll lists the whole repository. */
  lemma ListingHoldsAll<T>(items: map<int, T>, n: nat)
    requires forall k :: k in items ==> 0 < k <= n
    ensures |Listing(items, n)| == |items|
  {
    ListingCountsKeys(items, n);
    assert (set k | k in items && 0 < k <= n) == items.Keys;
  }
}

=== FILE: manager_spec.dfy ===
/** The in-memory task manager as a state machine over values: the task
    repository, the epic repository (each epic owning its stories), the access
    history, the priority index, and the last id the shared counter issued.
    Every operation is a function from the old state to a step: the outcome
    and the new state. Repositories enumerate their items in id order, which
    is creation order since ids come from one increasing counter. */
module ManagerSpec {
  import opened Items
  import opened PriorityIndex
  import History

  datatype ManagerState = ManagerState(
    tasks: map<int, Item>,
    epics: map<int, Epic>,
    history: seq<Item>,
    index: seq<Item>,
    lastId: nat)

  /** What an operation returns (or the failure it raises) and the state after it. */
  datatype Step<+T> = Step(result: Result<T>, state: ManagerState)

  /** The repository class token `createRepository` dispatches on. */
  datatype RepositoryKind = EpicsRepository | TasksRepository | OtherRepository(name: string)

  /** A freshly constructed manager: empty repositories, history and index,
      with the shared counter wherever it stands. */
  function Fresh(lastId: nat): ManagerState {
    ManagerState(map[], map[], [], [], lastId)
  }

  // ---------------------------------------------------------------------
  // Lookup of stories across epics

  /** The epic owning the story `id`, if any epic does. */
  ghost function StoryOwner(epics: map<int, Epic>, id: int): (r: Option<int>)
    ensures r.Some? ==> r.value in epics && id in epics[r.value].stories
    ensures r.None? <==> forall e :: e in epics ==> id !in epics[e].stories
  {
    if exists e :: e in epics && id in epics[e].stories then
      var e :| e in epics && id in epics[e].stories;
      Some(e)
    else None
  }

  /** The ids of all stories of all epics. */
  function StoryIds(epics: map<int, Epic>): (r: set<int>)
    ensures forall id :: id in r <==> StoryOwner(epics, id).Some?
  {
    set e, id | e in epics && id in epics[e].stories :: id
  }

  /** The task or story with this id: what the priority index can refer to. */
  ghost function Scheduled(m: ManagerState, id: int): Option<Item> {
    if id in m.tasks then Some(m.tasks[id])
    else match StoryOwner(m.epics, id)
      case Some(e) => Some(m.epics[e].stories[id])
      case None => None
  }

  /** Some repository holds an item with this id. */
  ghost predicate IsLive(m: ManagerState, id: int) {
    id in m.tasks || id in m.epics || StoryOwner(m.epics, id).Some?
  }

  // ---------------------------------------------------------------------
  // The state invariant

  /** Each repository is keyed by the ids of its items, holds items of its
      kind only, and only ids the counter has issued. A story's id is larger
      than its epic's, since the epic had to exist when the story was added. */
  ghost predicate ReposWellFormed(m: ManagerState) {
    && (forall id :: id in m.tasks ==> m.tasks[id].id == id && m.tasks[id].kind == TASK && 0 < id <= m.lastId)
    && (forall id :: id in m.epics ==> m.epics[id].header.id == id && m.epics[id].header.kind == EPIC && 0 < id <= m.lastId)
    && (forall e, id :: e in m.epics && id in m.epics[e].stories ==>
          m.epics[e].stories[id].id == id && m.epics[e].stories[id].kind == STORY && e < id <= m.lastId)
  }

  /** No story belongs to two epics. */
  ghost predicate UniqueOwners(epics: map<int, Epic>) {
    forall e1, e2, id :: e1 in epics && e2 in epics && id in epics[e1].stories && id in epics[e2].stories ==> e1 == e2
  }

  /** No id belongs to two items. */
  ghost predicate IdsDisjoint(m: ManagerState) {
    && (forall id :: id in m.tasks ==> id !in m.epics)
    && (forall e, id :: e in m.epics && id in m.epics[e].stories ==> id !in m.tasks && id !in m.epics)
    && UniqueOwners(m.epics)
  }

  /** The index is in comparator order, holds no overlapping pair, and refers
      only to ids the counter has issued. */
  ghost predicate IndexWellFormed(m: ManagerState) {
    && Sorted(m.index)
    && NoOverlap(m.index)
    && forall x :: x in m.index ==> 0 < x.id <= m.lastId
  }

  /** What every operation keeps. */
  ghost predicate Invariant(m: ManagerState) {
    && ReposWellFormed(m)
    && IdsDisjoint(m)
    && IndexWellFormed(m)
    && History.NoDuplicateIds(m.history)
  }

  /** Every history entry is a live item. */
  ghost predicate HistoryLive(m: ManagerState) {
    forall x :: x in m.history ==> IsLive(m, x.id)
  }

  /** Every index entry is the key of a live task or story as it is now. */
  ghost predicate IndexLive(m: ManagerState) {
    forall x :: x in m.index ==> Scheduled(m, x.id).Some? && Key(Scheduled(m, x.id).value) == Key(x)
  }

  /** Every story names the epic that owns it. */
  ghost predicate StoriesPointToOwners(m: ManagerState) {
    forall e, id :: e in m.epics && id in m.epics[e].stories ==> m.epics[e].stories[id].epicId == e
  }

  // ---------------------------------------------------------------------
  // Counting and listing

  /** The stories of the epics with ids 1..n, counted epic by epic. */
  function StoryCountUpTo(epics: map<int, Epic>, n: nat): nat {
    if n == 0 then 0
    else StoryCountUpTo(epics, n - 1) + (if n in epics then |epics[n].stories| else 0)
  }

  /** size(): tasks plus epics plus the stories of every epic. */
  function Size(m: ManagerState): nat {
    |m.tasks| + |m.epics| + StoryCountUpTo(m.epics, m.lastId)
  }

  /** The values of a repository with ids 1..n, in id order. */
  function Listing<T>(items: map<int, T>, n: nat): (r: seq<T>)
    ensures |r| <= n
    ensures forall x :: x in r ==> exists id :: 0 < id <= n && id in items && items[id] == x
  {
    if n == 0 then []
    else Listing(items, n - 1) + (if n in items then [items[n]] else [])
  }

  /** findAllStories(): the stories of each epic in turn, epics in id order. */
  function AllStories(epics: map<int, Epic>, n: nat, bound: nat): seq<Item> {
    if n == 0 then []
    else AllStories(epics, n - 1, bound) + (if n in epics then Listing(epics[n].stories, bound) else [])
  }

  /** The task, epic header or story with this id. */
  ghost function Entity(m: ManagerState, id: int): Option<Item> {
    if id in m.epics then Some(m.epics[id].header) else Scheduled(m, id)
  }

  /** Every item of the manager, keyed by id. */
  ghost function AllItems(m: ManagerState): (r: map<int, Item>)
    ensures forall id :: id in r <==> Entity(m, id).Some?
    ensures forall id :: id in r ==> r[id] == Entity(m, id).value
  {
    map id | id in m.tasks.Keys + m.epics.Keys + StoryIds(m.epics) :: Entity(m, id).value
  }

  // ---------------------------------------------------------------------
  // The overlap check

  /** checkIntersection turned into the failure it leads to, if any. The
      conflict exception formats both end times, so a conflict in which
      either side has no end time dereferences null as well. */
  function ConflictFailure(index: seq<Item>, c: Item): (r: Option<Failure>)
    ensures r.None? <==> Conflict(index, c) == Clear
    ensures r.Some? ==> exists k :: (0 <= k < |index| &&
      (r.value == IntervalConflict(c, index[k]) || r.value == MissingEndTime(c, index[k])))
    ensures r.Some? && r.value.IntervalConflict? ==>
      Hits(c, r.value.existing) && End(c).Some? && End(r.value.existing).Some?
    ensures Conflict(index, c).Clash? && End(c).None? ==> r.Some? && r.value.MissingEndTime?
  {
    match Conflict(index, c)
    case Clear => None
    case Clash(k) =>
      if End(c).Some? && End(index[k]).Some? then Some(IntervalConflict(c, index[k]))
      else Some(MissingEndTime(c, index[k]))
    case NullEnd(k) => Some(MissingEndTime(c, index[k]))
  }

  // ---------------------------------------------------------------------
  // Tasks

  function FindTask(m: ManagerState, id: int): Step<Item> {
    if id !in m.tasks then Step(Err(NotFound(TASK, id)), m)
    else Step(Ok(m.tasks[id]), m.(history := History.Add(m.history, m.tasks[id])))
  }

  /** The repository issues the next id; the stored task joins the index. */
  function AddTask(m: ManagerState, t: Item): Step<Item>
    requires t.kind == TASK
  {
    match ConflictFailure(m.index, t)
    case Some(f) => Step(Err(f), m)
    case None =>
      var x := t.(id := m.lastId + 1);
      Step(Ok(x), m.(tasks := m.tasks[x.id := x], index := Insert(m.index, x), lastId := x.id))
  }

  /** The check runs against the whole index first; the repository then
      replaces the task under `id`, keeping that id. */
  function UpdateTask(m: ManagerState, id: int, t: Item): Step<Item>
    requires t.kind == TASK
  {
    match ConflictFailure(m.index, t)
    case Some(f) => Step(Err(f), m)
    case None =>
      if id !in m.tasks then Step(Err(NotFound(TASK, id)), m)
      else
        var x := t.(id := id);
        Step(Ok(x), m.(tasks := m.tasks[id := x]))
  }

  /** updateTask as evidently intended: the task's own entry is left out of
      the scan, and the index entry moves with the new interval. */
  function UpdateTaskExcludingSelf(m: ManagerState, id: int, t: Item): Step<Item>
    requires t.kind == TASK
  {
    match ConflictFailure(Others(m.index, id), t)
    case Some(f) => Step(Err(f), m)
    case None =>
      if id !in m.tasks then Step(Err(NotFound(TASK, id)), m)
      else
        var x := t.(id := id);
        Step(Ok(x), m.(tasks := m.tasks[id := x], index := Insert(RemoveKey(m.index, m.tasks[id]), x)))
  }

  function DeleteTask(m: ManagerState, id: int): Step<Item> {
    if id !in m.tasks then Step(Err(NotFound(TASK, id)), m)
    else
      var x := m.tasks[id];
      Step(Ok(x), m.(tasks := m.tasks - {id}, history := History.Remove(m.history, id), index := RemoveKey(m.index, x)))
  }

  /** The index keys of a collection of items. */
  function KeysOf(items: map<int, Item>): set<(Option<int>, int)> {
    set id | id in items :: Key(items[id])
  }

  /** The ids the items carry, which may differ from the keys they are
      stored under in a map that no repository built. */
  function IdsOf(items: map<int, Item>): set<int> {
    set id | id in items :: items[id].id
  }

  function DeleteAllTasks(m: ManagerState): ManagerState {
    m.(tasks := map[],
       history := History.DropIds(m.history, m.tasks.Keys),
       index := DropKeys(m.index, KeysOf(m.tasks)))
  }

  // ---------------------------------------------------------------------
  // Epics

  /** The epic as found; history records its header. */
  function FindEpic(m: ManagerState, id: int): Step<Epic> {
    if id !in m.epics then Step(Err(NotFound(EPIC, id)), m)
    else Step(Ok(m.epics[id]), m.(history := History.Add(m.history, m.epics[id].header)))
  }

  /** No overlap check and no index entry: the epic is stored with no stories. */
  function AddEpic(m: ManagerState, e: Item): Step<Item>
    requires e.kind == EPIC
  {
    var x := e.(id := m.lastId + 1);
    Step(Ok(x), m.(epics := m.epics[x.id := Epic(x, map[])], lastId := x.id))
  }

  /** The epic's reported interval is checked against the index; the header is
      replaced and the stories stay. */
  function UpdateEpic(m: ManagerState, id: int, e: Item): Step<Item>
    requires e.kind == EPIC
  {
    match ConflictFailure(m.index, e)
    case Some(f) => Step(Err(f), m)
    case None =>
      if id !in m.epics then Step(Err(NotFound(EPIC, id)), m)
      else
        var x := e.(id := id);
        Step(Ok(x), m.(epics := m.epics[id := Epic(x, m.epics[id].stories)]))
  }

  /** deleteEpic as written: the stories leave the index, but the loop removes
      the epic's own id from history once per story, so story ids stay. */
  function DeleteEpic(m: ManagerState, id: int): Step<Epic> {
    if id !in m.epics then Step(Err(NotFound(EPIC, id)), m)
    else
      var ep := m.epics[id];
      Step(Ok(ep), m.(epics := m.epics - {id},
                      history := History.Remove(m.history, id),
                      index := DropKeys(m.index, KeysOf(ep.stories))))
  }

  /** deleteEpic as evidently intended: the story ids leave history too. */
  function DeleteEpicScrubbingStories(m: ManagerState, id: int): Step<Epic> {
    if id !in m.epics then Step(Err(NotFound(EPIC, id)), m)
    else
      var ep := m.epics[id];
      Step(Ok(ep), m.(epics := m.epics - {id},
                      history := History.DropIds(m.history, ep.stories.Keys + {id}),
                      index := DropKeys(m.index, KeysOf(ep.stories))))
  }

  /** The index keys of every story of every epic. */
  function AllStoryKeys(epics: map<int, Epic>): set<(Option<int>, int)> {
    set e, id | e in epics && id in epics[e].stories :: Key(epics[e].stories[id])
  }

  function DeleteAllEpics(m: ManagerState): ManagerState {
    m.(epics := map[],
       history := History.DropIds(m.history, StoryIds(m.epics) + m.epics.Keys),
       index := DropKeys(m.index, AllStoryKeys(m.epics)))
  }

  // ---------------------------------------------------------------------
  // Stories

  /** The epics with story `x` stored in epic `e` under its id. */
  function PutStory(epics: map<int, Epic>, e: int, x: Item): map<int, Epic>
    requires e in epics
  {
    epics[e := epics[e].(stories := epics[e].stories[x.id := x])]
  }

  /** The epics with story `id` taken out of epic `e`. */
  function DropStory(epics: map<int, Epic>, e: int, id: int): map<int, Epic>
    requires e in epics
  {
    epics[e := epics[e].(stories := epics[e].stories - {id})]
  }

  ghost function FindStory(m: ManagerState, id: int): Step<Item> {
    match StoryOwner(m.epics, id)
    case None => Step(Err(NotFound(STORY, id)), m)
    case Some(e) =>
      var s := m.epics[e].stories[id];
      Step(Ok(s), m.(history := History.Add(m.history, s)))
  }

  /** The overlap check first; then the owning epic is looked up by the
      story's epic id (a missing epic ends in a null dereference). The story
      gets the next id and joins its epic and the index. */
  function AddStory(m: ManagerState, s: Item): Step<Item>
    requires s.kind == STORY
  {
    match ConflictFailure(m.index, s)
    case Some(f) => Step(Err(f), m)
    case None =>
      if s.epicId !in m.epics then Step(Err(MissingEpic(s.epicId)), m)
      else
        var x := s.(id := m.lastId + 1);
        Step(Ok(x), m.(epics := PutStory(m.epics, s.epicId, x), index := Insert(m.index, x), lastId := x.id))
  }

  /** The check against the whole index first; then the story under `id` is
      replaced in its owning epic, keeping that id. */
  ghost function UpdateStory(m: ManagerState, id: int, s: Item): Step<Item>
    requires s.kind == STORY
  {
    match ConflictFailure(m.index, s)
    case Some(f) => Step(Err(f), m)
    case None =>
      match StoryOwner(m.epics, id)
      case None => Step(Err(NotFound(STORY, id)), m)
      case Some(e) =>
        var x := s.(id := id);
        Step(Ok(x), m.(epics := PutStory(m.epics, e, x)))
  }

  /** updateStory as evidently intended: the story's own entry is left out of
      the scan, its index entry moves to the new interval, and it stays with
      the epic that owns it, so it carries that epic's id. */
  ghost function UpdateStoryExcludingSelf(m: ManagerState, id: int, s: Item): Step<Item>
    requires s.kind == STORY
  {
    match ConflictFailure(Others(m.index, id), s)
    case Some(f) => Step(Err(f), m)
    case None =>
      match StoryOwner(m.epics, id)
      case None => Step(Err(NotFound(STORY, id)), m)
      case Some(e) =>
        var x := s.(id := id, epicId := e);
        Step(Ok(x), m.(epics := PutStory(m.epics, e, x),
                       index := Insert(RemoveKey(m.index, m.epics[e].stories[id]), x)))
  }

  ghost function DeleteStory(m: ManagerState, id: int): Step<Item> {
    match StoryOwner(m.epics, id)
    case None => Step(Err(NotFound(STORY, id)), m)
    case Some(e) =>
      var x := m.epics[e].stories[id];
      Step(Ok(x), m.(epics := DropStory(m.epics, e, id),
                     history := History.Remove(m.history, id),
                     index := RemoveKey(m.index, x)))
  }

  /** deleteAllStories(epic): the ids and keys of the stories of the epic
      value passed in leave history and the index; the repository's epic with
      that id, if any, is left with no stories. */
  function DeleteAllStories(m: ManagerState, ep: Epic): ManagerState {
    var id := ep.header.id;
    m.(epics := if id in m.epics then m.epics[id := m.epics[id].(stories := map[])] else m.epics,
       history := History.DropIds(m.history, IdsOf(ep.stories)),
       index := DropKeys(m.index, KeysOf(ep.stories)))
  }

  /** findAllStories(epicId): the stories of that epic; a missing epic ends in
      a null dereference. */
  function FindAllStoriesOf(m: ManagerState, epicId: int): Result<map<int, Item>> {
    if epicId in m.epics then Ok(m.epics[epicId].stories) else Err(MissingEpic(epicId))
  }

  // ---------------------------------------------------------------------
  // Bulk loading

  /** addEpic for each item in order. */
  function AddEpics(m: ManagerState, items: seq<Item>): ManagerState
    requires forall x :: x in items ==> x.kind == EPIC
    decreases |items|
  {
    if items == [] then m
    else AddEpics(AddEpic(m, items[0]).state, items[1..])
  }

  /** addTask for each item in order, stopping at the first failure with the
      state reached so far. */
  function AddTasks(m: ManagerState, items: seq<Item>): Step<()>
    requires forall x :: x in items ==> x.kind == TASK
    decreases |items|
  {
    if items == [] then Step(Ok(()), m)
    else
      var s := AddTask(m, items[0]);
      if s.result.Err? then Step(Err(s.result.error), s.state)
      else AddTasks(s.state, items[1..])
  }

  /** createRepository: a new empty repository of the given kind, filled
      through the manager's add operation. An unknown kind is rejected before
      anything changes. */
  function CreateRepository(m: ManagerState, items: seq<Item>, kind: RepositoryKind): Step<()>
    requires kind == EpicsRepository ==> forall x :: x in items ==> x.kind == EPIC
    requires kind == TasksRepository ==> forall x :: x in items ==> x.kind == TASK
  {
    match kind
    case EpicsRepository => Step(Ok(()), AddEpics(m.(epics := map[]), items))
    case TasksRepository => AddTasks(m.(tasks := map[]), items)
    case OtherRepository(name) => Step(Err(UnsupportedRepository(name)), m)
  }
}

=== FILE: persistence.dfy ===
/** Saving to and reloading from the key-value store of the HTTP-backed
    manager. The store is a map from the five logical keys (and any others)
    to snapshots; a JSON array is a sequence of item values here, and a key
    the store does not hold reads as null. Reloading re-adds every stored
    item through a fresh manager, maps each old id to the item the manager
    returned, rewrites each story's epic id through that map, and replays
    the stored history ids through it in order. */
module Persistence {
  import opened Items
  import opened ManagerSpec
  import History
  import PriorityIndex

  /** What a key holds: "[]", an array of items, of epics (with their
      stories), or of ids. */
  datatype Snapshot = EmptyArray | ItemArray(items: seq<Item>) | EpicArray(epics: seq<Epic>) | IdArray(ids: seq<int>)

  type Store = map<string, Snapshot>

  const StorageKey := "storage"
  const TasksKey := "tasks"
  const EpicsKey := "epics"
  const StoriesKey := "stories"
  const HistoryKey := "history"

  /** Constructing the manager writes "[]" under all five keys. */
  function Reset(store: Store): Store {
    store[StorageKey := EmptyArray][TasksKey := EmptyArray][EpicsKey := EmptyArray]
         [StoriesKey := EmptyArray][HistoryKey := EmptyArray]
  }

  /** Every item of the manager, in id order. Each epic precedes its stories,
      since a story's id is larger than its epic's. */
  ghost function StorageList(m: ManagerState): seq<Item> {
    Listing(AllItems(m), m.lastId)
  }

  /** save(): the storage key always; tasks only when there are tasks, epics
      and stories only when there are epics, history only when it is not
      empty. */
  ghost function SaveTo(store: Store, m: ManagerState): Store {
    var s1 := store[StorageKey := ItemArray(StorageList(m))];
    var s2 := if m.tasks == map[] then s1 else s1[TasksKey := ItemArray(Listing(m.tasks, m.lastId))];
    var s3 := if m.epics == map[] then s2
              else s2[EpicsKey := EpicArray(Listing(m.epics, m.lastId))]
                     [StoriesKey := ItemArray(AllStories(m.epics, m.lastId, m.lastId))];
    if m.history == [] then s3 else s3[HistoryKey := IdArray(History.Ids(m.history))]
  }

  /** What loading a key gives: its snapshot, or nothing (an empty body,
      which parses as null) for a key never saved. */
  function Lookup(store: Store, key: string): (r: Option<Snapshot>)
    ensures r.Some? <==> key in store
    ensures r.Some? ==> r.value == store[key]
  {
    if key in store then Some(store[key]) else None
  }

  /** A loaded snapshot parsed as a list of items: null and "[]" are empty;
      any other shape of snapshot does not parse as a list of items. */
  function ParseItems(snap: Option<Snapshot>, key: string): Result<seq<Item>> {
    match snap
    case None => Ok([])
    case Some(EmptyArray) => Ok([])
    case Some(ItemArray(items)) => Ok(items)
    case Some(_) => Err(MalformedSnapshot(key))
  }

  /** A loaded snapshot parsed as a list of ids, the same way. */
  function ParseIds(snap: Option<Snapshot>, key: string): Result<seq<int>> {
    match snap
    case None => Ok([])
    case Some(EmptyArray) => Ok([])
    case Some(IdArray(ids)) => Ok(ids)
    case Some(_) => Err(MalformedSnapshot(key))
  }

  /** The item list under a key. */
  function ReadItems(store: Store, key: string): Result<seq<Item>> {
    ParseItems(Lookup(store, key), key)
  }

  /** The id list under a key. */
  function ReadIds(store: Store, key: string): Result<seq<int>> {
    ParseIds(Lookup(store, key), key)
  }

  /** The manager being filled and the old-id map built so far. */
  datatype Replay = Replay(state: ManagerState, remap: map<int, Item>)

  /** One stored item: the map first sends its old id to the item itself;
      an epic or task is then added and its old id sent to the result. A
      story first has its epic id rewritten through the map, which fails
      when the epic id is not in it. A failing add ends the reload. */
  function ReplayOne(r: Replay, t: Item): Result<Replay> {
    var remap := r.remap[t.id := t];
    if t.kind == EPIC then
      var s := AddEpic(r.state, t);
      Ok(Replay(s.state, remap[t.id := s.result.value]))
    else if t.kind == STORY then
      if t.epicId !in remap then Err(UnmappedId(t.epicId))
      else
        var s := AddStory(r.state, t.(epicId := remap[t.epicId].id));
        match s.result
        case Err(f) => Err(f)
        case Ok(x) => Ok(Replay(s.state, remap[t.id := x]))
    else
      var s := AddTask(r.state, t);
      match s.result
      case Err(f) => Err(f)
      case Ok(x) => Ok(Replay(s.state, remap[t.id := x]))
  }

  /** loadStorage: the stored items in list order. */
  function ReplayStorage(r: Replay, ts: seq<Item>): Result<Replay>
    decreases |ts|
  {
    if ts == [] then Ok(r)
    else
      match ReplayOne(r, ts[0])
      case Err(f) => Err(f)
      case Ok(r1) => ReplayStorage(r1, ts[1..])
  }

  /** loadHistory: each stored id, in order, through the old-id map into the
      history; an id the map does not hold has no item to record. */
  function ReplayHistory(m: ManagerState, remap: map<int, Item>, ids: seq<int>): Result<ManagerState>
    decreases |ids|
  {
    if ids == [] then Ok(m)
    else if ids[0] !in remap then Err(UnmappedId(ids[0]))
    else ReplayHistory(m.(history := History.Add(m.history, remap[ids[0]])), remap, ids[1..])
  }

  /** loadStorage from a loaded snapshot, into a manager in state `start`. */
  function ReplayStored(snap: Option<Snapshot>, start: ManagerState): Result<Replay> {
    var ts :- ParseItems(snap, StorageKey);
    ReplayStorage(Replay(start, map[]), ts)
  }

  /** loadHistory from a loaded snapshot, through the map loadStorage built. */
  function ReplayStoredHistory(snap: Option<Snapshot>, r: Replay): Result<ManagerState> {
    var ids :- ParseIds(snap, HistoryKey);
    ReplayHistory(r.state, r.remap, ids)
  }

  /** Both replays, from the two loaded snapshots, into a manager in state
      `start`. */
  function Restore(storage: Option<Snapshot>, history: Option<Snapshot>, start: ManagerState): Result<ManagerState> {
    var r :- ReplayStored(storage, start);
    ReplayStoredHistory(history, r)
  }

  /** The manager reloaded from what `read` holds, into a fresh manager whose
      shared counter stands at `lastId`. */
  function LoadFrom(read: Store, lastId: nat): Result<ManagerState> {
    Restore(Lookup(read, StorageKey), Lookup(read, HistoryKey), Fresh(lastId))
  }

  /** A reload's outcome and the store after it. */
  datatype Loaded = Loaded(result: Result<ManagerState>, store: Store)

  /** load() as written: the new manager is constructed first, and its
      constructor resets the very keys that are then read. */
  function LoadAsWritten(store: Store, lastId: nat): Loaded {
    var reset := Reset(store);
    Loaded(LoadFrom(reset, lastId), reset)
  }

  /** load() as evidently intended: the snapshots are read before the new
      manager's constructor resets the keys. */
  function LoadReadingFirst(store: Store, lastId: nat): Loaded {
    Loaded(LoadFrom(store, lastId), Reset(store))
  }

  // ---------------------------------------------------------------------
  // What a successful reload rebuilds

  /** The first position of an item with this id, or |ts| when there is none. */
  function PositionOf(ts: seq<Item>, id: int): (p: nat)
    ensures p <= |ts|
    ensures p < |ts| ==> ts[p].id == id
    ensures forall q :: 0 <= q < p ==> ts[q].id != id
    decreases |ts|
  {
    if ts == [] then 0
    else if ts[0].id == id then 0
    else
      var p := PositionOf(ts[1..], id);
      assert forall q :: 1 <= q < 1 + p ==> ts[q] == ts[1..][q - 1];
      1 + p
  }

  /** The item that reloading puts in place of the stored item at position
      `p`: the `p`-th id after `lastId`, and for a story the new id of its
      epic; every other field as stored. */
  function Renumbered(ts: seq<Item>, lastId: nat, p: nat): Item
    requires p < |ts|
  {
    var t := ts[p];
    t.(id := lastId + 1 + p,
       epicId := if t.kind == STORY then lastId + 1 + PositionOf(ts, t.epicId) else t.epicId)
  }

  /** The item is in the repository of its kind, under its id (a story in
      the epic its epic id names). */
  ghost predicate Placed(m: ManagerState, y: Item) {
    if y.kind == TASK then y.id in m.tasks && m.tasks[y.id] == y
    else if y.kind == EPIC then y.id in m.epics && m.epics[y.id].header == y
    else y.epicId in m.epics && y.id in m.epics[y.epicId].stories && m.epics[y.epicId].stories[y.id] == y
  }

  /** Same interval: what the overlap check looks at. */
  predicate SameInterval(x: Item, y: Item) {
    x.start == y.start && x.duration == y.duration
  }

  /** No two stored items share an id. */
  predicate DistinctIds(ts: seq<Item>) {
    forall a, b :: 0 <= a < b < |ts| ==> ts[a].id != ts[b].id
  }

  /** Each stored story comes after a stored epic whose id is its epic id. */
  predicate EpicsFirst(ts: seq<Item>) {
    forall b :: 0 <= b < |ts| && ts[b].kind == STORY ==>
      exists a :: 0 <= a < b && ts[a].kind == EPIC && ts[a].id == ts[b].epicId
  }

  /** No stored task or story would be rejected by the overlap check
      against an earlier one (epics are never checked). */
  predicate IntervalsCompatible(ts: seq<Item>) {
    forall a, b :: 0 <= a < b < |ts| && ts[a].kind != EPIC && ts[b].kind != EPIC ==>
      PriorityIndex.Misses(ts[b], ts[a])
  }

  /** A stored list that reloading rebuilds. */
  predicate Replayable(ts: seq<Item>) {
    DistinctIds(ts) && EpicsFirst(ts) && IntervalsCompatible(ts)
  }
}

=== FILE: persistence_properties.dfy ===
/** What saving and reloading guarantee. The reload as written reads the
    keys its own construction has just reset, so it always comes back empty.
    Reading the snapshots first, a saved manager comes back with every item
    renumbered from the counter on, each story in the new epic of its old
    epic, and the history in its old order. */
module PersistenceProperties {
  import opened Items
  import opened PriorityIndex
  import History
  import opened ManagerSpec
  import opened ManagerProperties
  import opened Persistence

  // ---------------------------------------------------------------------
  // The store

  /** A key reads the same in both stores. */
  predicate SameAt(a: Store, b: Store, k: string) {
    (k in a <==> k in b) && (k in a ==> a[k] == b[k])
  }

  predicate IsLogicalKey(k: string) {
    k == StorageKey || k == TasksKey || k == EpicsKey || k == StoriesKey || k == HistoryKey
  }

  /** After the constructor's reset every logical key reads as empty, and
      every other key is untouched. */
  lemma ResetReadsEmpty(store: Store)
    ensures ReadItems(Reset(store), StorageKey) == Ok([])
    ensures ReadItems(Reset(store), TasksKey) == Ok([])
    ensures ReadItems(Reset(store), StoriesKey) == Ok([])
    ensures ReadIds(Reset(store), HistoryKey) == Ok([])
    ensures Reset(store)[EpicsKey] == EmptyArray
    ensures forall k :: !IsLogicalKey(k) ==> SameAt(Reset(store), store, k)
  {
  }

  /** The five logical keys are distinct strings. */
  lemma KeysDistinct()
    ensures StorageKey != TasksKey && StorageKey != EpicsKey && StorageKey != StoriesKey && StorageKey != HistoryKey
    ensures TasksKey != EpicsKey && TasksKey != StoriesKey && TasksKey != HistoryKey
    ensures EpicsKey != StoriesKey && EpicsKey != HistoryKey && StoriesKey != HistoryKey
  {
    assert StorageKey[0] != TasksKey[0] && StorageKey[0] != EpicsKey[0] && StorageKey[4] != StoriesKey[4];
    assert StorageKey[0] != HistoryKey[0] && TasksKey[0] != EpicsKey[0] && TasksKey[0] != StoriesKey[0];
    assert TasksKey[0] != HistoryKey[0] && EpicsKey[0] != StoriesKey[0] && EpicsKey[0] != HistoryKey[0];
    assert StoriesKey[0] != HistoryKey[0];
  }

  lemma SaveWritesStorage(store: Store, m: ManagerState)
    ensures ReadItems(SaveTo(store, m), StorageKey) == Ok(StorageList(m))
    ensures forall k :: !IsLogicalKey(k) ==> SameAt(SaveTo(store, m), store, k)
  {
    KeysDistinct();
  }

  lemma SaveWritesTasks(store: Store, m: ManagerState)
    ensures m.tasks != map[] ==> ReadItems(SaveTo(store, m), TasksKey) == Ok(Listing(m.tasks, m.lastId))
    ensures m.tasks == map[] ==> SameAt(SaveTo(store, m), store, TasksKey)
  {
    KeysDistinct();
  }

  lemma SaveWritesEpics(store: Store, m: ManagerState)
    ensures m.epics != map[] ==> SaveTo(store, m)[EpicsKey] == EpicArray(Listing(m.epics, m.lastId))
    ensures m.epics != map[] ==> ReadItems(SaveTo(store, m), StoriesKey) == Ok(AllStories(m.epics, m.lastId, m.lastId))
    ensures m.epics == map[] ==> SameAt(SaveTo(store, m), store, EpicsKey) && SameAt(SaveTo(store, m), store, StoriesKey)
  {
    KeysDistinct();
  }

  lemma SaveWritesHistory(store: Store, m: ManagerState)
    ensures m.history != [] ==> ReadIds(SaveTo(store, m), HistoryKey) == Ok(History.Ids(m.history))
    ensures m.history == [] ==> SameAt(SaveTo(store, m), store, HistoryKey)
  {
    KeysDistinct();
  }

  /** save() writes the storage list every time, and the other four keys
      only for a collection that is not empty: otherwise the key keeps what
      the store held. Keys of nobody else are left alone. */
  lemma SaveWritesWhatIsNotEmpty(store: Store, m: ManagerState)
    ensures ReadItems(SaveTo(store, m), StorageKey) == Ok(StorageList(m))
    ensures m.tasks != map[] ==> ReadItems(SaveTo(store, m), TasksKey) == Ok(Listing(m.tasks, m.lastId))
    ensures m.tasks == map[] ==> SameAt(SaveTo(store, m), store, TasksKey)
    ensures m.epics != map[] ==> SaveTo(store, m)[EpicsKey] == EpicArray(Listing(m.epics, m.lastId))
    ensures m.epics != map[] ==> ReadItems(SaveTo(store, m), StoriesKey) == Ok(AllStories(m.epics, m.lastId, m.lastId))
    ensures m.epics == map[] ==> SameAt(SaveTo(store, m), store, EpicsKey) && SameAt(SaveTo(store, m), store, StoriesKey)
    ensures m.history != [] ==> ReadIds(SaveTo(store, m), HistoryKey) == Ok(History.Ids(m.history))
    ensures m.history == [] ==> SameAt(SaveTo(store, m), store, HistoryKey)
    ensures forall k :: !IsLogicalKey(k) ==> SameAt(SaveTo(store, m), store, k)
  {
    SaveWritesStorage(store, m);
    SaveWritesTasks(store, m);
    SaveWritesEpics(store, m);
    SaveWritesHistory(store, m);
  }

  // ---------------------------------------------------------------------
  // The reload as written

  /** Whatever the store holds, load() as written rebuilds nothing: the
      result is a fresh manager and the store is left reset. */
  lemma LoadAsWrittenLosesEverything(store: Store, lastId: nat)
    ensures LoadAsWritten(store, lastId) == Loaded(Ok(Fresh(lastId)), Reset(store))
  {
    ResetReadsEmpty(store);
  }

  /** A manager that held anything does not come back. */
  lemma SaveThenLoadAsWrittenIsEmpty(store: Store, m: ManagerState, lastId: nat)
    requires m.tasks != map[] || m.epics != map[]
    ensures LoadAsWritten(SaveTo(store, m), lastId).result.Ok?
    ensures var r := LoadAsWritten(SaveTo(store, m), lastId).result.value;
      r.tasks == map[] && r.epics == map[] && r.history == [] && (r.tasks != m.tasks || r.epics != m.epics)
  {
    LoadAsWrittenLosesEverything(SaveTo(store, m), lastId);
  }

  /** A store that never held a snapshot reloads as an empty manager. */
  lemma EmptyStoreLoadsEmpty(lastId: nat)
    ensures LoadReadingFirst(map[], lastId).result == Ok(Fresh(lastId))
  {
  }

  // ---------------------------------------------------------------------
  // Positions in a stored list

  /** With distinct ids, an item's first position is its position. */
  lemma PositionOfDistinct(ts: seq<Item>, j: nat)
    requires DistinctIds(ts) && j < |ts|
    ensures PositionOf(ts, ts[j].id) == j
  {
  }

  // ---------------------------------------------------------------------
  // Rebuilding the repositories

  /** The state reached after replaying the first `i` stored items into a
      fresh manager whose counter stood at `lastId`: each of them renumbered
      and in place under the old id in the map, the index made of their
      intervals only, and no item from before. */
  ghost predicate Rebuilt(ts: seq<Item>, lastId: nat, i: nat, r: Replay)
    requires i <= |ts|
  {
    && r.state.lastId == lastId + i && r.state.history == []
    && (forall j :: 0 <= j < i ==> ts[j].id in r.remap && r.remap[ts[j].id] == Renumbered(ts, lastId, j))
    && (forall j :: 0 <= j < i ==> Placed(r.state, Renumbered(ts, lastId, j)))
    && (forall y :: y in r.state.index ==>
          exists j :: 0 <= j < i && ts[j].kind != EPIC && SameInterval(y, ts[j]))
    && (forall k :: k in r.state.tasks ==> lastId < k)
    && (forall k :: k in r.state.epics ==> lastId < k)
  }

  /** Items with the intervals of two compatible items are compatible. */
  lemma MissesBySameInterval(c: Item, y: Item, a: Item, b: Item)
    requires SameInterval(c, a) && SameInterval(y, b) && Misses(a, b)
    ensures Misses(c, y)
  {
    assert End(y) == End(b) && End(c) == End(a);
  }

  /** A task or story with the interval of the next stored item passes the
      overlap check against an index made of earlier stored intervals. */
  lemma NoConflictWithEarlier(ts: seq<Item>, i: nat, index: seq<Item>, c: Item)
    requires IntervalsCompatible(ts) && i < |ts| && ts[i].kind != EPIC
    requires forall y :: y in index ==> exists j :: 0 <= j < i && ts[j].kind != EPIC && SameInterval(y, ts[j])
    requires SameInterval(c, ts[i])
    ensures ConflictFailure(index, c).None?
  {
    forall y | y in index ensures Misses(c, y) {
      var j :| 0 <= j < i && ts[j].kind != EPIC && SameInterval(y, ts[j]);
      MissesBySameInterval(c, y, ts[i], ts[j]);
    }
    ClearMeansMisses(index, c);
  }

  /** After an insertion, every index entry is an old one or the new one. */
  lemma IndexAfterInsert(ts: seq<Item>, lastId: nat, i: nat, r: Replay, x: Item)
    requires i < |ts| && ts[i].kind != EPIC && Rebuilt(ts, lastId, i, r) && SameInterval(x, ts[i])
    requires Sorted(r.state.index)
    ensures forall y :: y in Insert(r.state.index, x) ==>
      exists j :: 0 <= j < i + 1 && ts[j].kind != EPIC && SameInterval(y, ts[j])
  {
    var ix := r.state.index;
    forall y | y in Insert(ix, x) ensures exists j :: 0 <= j < i + 1 && ts[j].kind != EPIC && SameInterval(y, ts[j]) {
      if HasKey(ix, x) {
        assert y in ix;
      } else if y != x {
        assert y in ix;
      } else {
        assert SameInterval(y, ts[i]);
      }
    }
  }

  // How one replayed item changes the state, each stated on its own

  lemma ReplayOneEpic(r: Replay, t: Item)
    requires t.kind == EPIC
    ensures var x := t.(id := r.state.lastId + 1);
      ReplayOne(r, t) == Ok(Replay(r.state.(epics := r.state.epics[x.id := Epic(x, map[])], lastId := x.id),
                                   r.remap[t.id := x]))
  {
    var x := t.(id := r.state.lastId + 1);
    assert r.remap[t.id := t][t.id := x] == r.remap[t.id := x];
  }

  lemma ReplayOneTask(r: Replay, t: Item)
    requires t.kind == TASK && ConflictFailure(r.state.index, t).None?
    ensures var x := t.(id := r.state.lastId + 1);
      ReplayOne(r, t) == Ok(Replay(r.state.(tasks := r.state.tasks[x.id := x], index := Insert(r.state.index, x),
                                            lastId := x.id),
                                   r.remap[t.id := x]))
  {
    var x := t.(id := r.state.lastId + 1);
    assert r.remap[t.id := t][t.id := x] == r.remap[t.id := x];
  }

  lemma ReplayOneStory(r: Replay, t: Item, e: int)
    requires t.kind == STORY && t.id != t.epicId && t.epicId in r.remap && r.remap[t.epicId].id == e
    requires e in r.state.epics && ConflictFailure(r.state.index, t.(epicId := e)).None?
    ensures var x := t.(epicId := e, id := r.state.lastId + 1);
      ReplayOne(r, t) == Ok(Replay(r.state.(epics := PutStory(r.state.epics, e, x), index := Insert(r.state.index, x),
                                            lastId := x.id),
                                   r.remap[t.id := x]))
  {
    var x := t.(epicId := e, id := r.state.lastId + 1);
    assert r.remap[t.id := t][t.epicId] == r.remap[t.epicId];
    assert r.remap[t.id := t][t.id := x] == r.remap[t.id := x];
  }

  lemma PlacedAfterNewTask(m: ManagerState, n: ManagerState, x: Item, y: Item)
    requires Placed(m, y) && y.id != x.id
    requires n.tasks == m.tasks[x.id := x] && n.epics == m.epics
    ensures Placed(n, y)
  {
  }

  lemma PlacedAfterNewEpic(m: ManagerState, n: ManagerState, x: Item, y: Item)
    requires Placed(m, y) && y.id != x.id && (y.kind == STORY ==> y.epicId != x.id)
    requires n.tasks == m.tasks && n.epics == m.epics[x.id := Epic(x, map[])]
    ensures Placed(n, y)
  {
  }

  lemma PlacedAfterNewStory(m: ManagerState, n: ManagerState, e: int, x: Item, y: Item)
    requires e in m.epics && Placed(m, y) && y.id != x.id
    requires n.tasks == m.tasks && n.epics == PutStory(m.epics, e, x)
    ensures Placed(n, y)
  {
  }

  // What the state after the next item satisfies, each kind on its own

  lemma RebuiltAfterEpic(ts: seq<Item>, lastId: nat, i: nat, r: Replay, n: ManagerState, x: Item)
    requires i < |ts| && Rebuilt(ts, lastId, i, r) && x == Renumbered(ts, lastId, i) && x.kind == EPIC
    requires forall j :: 0 <= j < i ==> ts[j].id != ts[i].id
    requires forall k :: k in r.state.epics ==> k <= r.state.lastId
    requires n.tasks == r.state.tasks && n.epics == r.state.epics[x.id := Epic(x, map[])] && n.index == r.state.index
    requires n.lastId == lastId + i + 1 && n.history == []
    ensures Rebuilt(ts, lastId, i + 1, Replay(n, r.remap[ts[i].id := x]))
  {
    forall j | 0 <= j < i ensures Placed(n, Renumbered(ts, lastId, j)) {
      PlacedAfterNewEpic(r.state, n, x, Renumbered(ts, lastId, j));
    }
  }

  lemma RebuiltAfterTask(ts: seq<Item>, lastId: nat, i: nat, r: Replay, n: ManagerState, x: Item)
    requires i < |ts| && Rebuilt(ts, lastId, i, r) && x == Renumbered(ts, lastId, i) && x.kind == TASK
    requires forall j :: 0 <= j < i ==> ts[j].id != ts[i].id
    requires n.tasks == r.state.tasks[x.id := x] && n.epics == r.state.epics
    requires n.lastId == lastId + i + 1 && n.history == []
    requires forall y :: y in n.index ==> exists j :: 0 <= j < i + 1 && ts[j].kind != EPIC && SameInterval(y, ts[j])
    ensures Rebuilt(ts, lastId, i + 1, Replay(n, r.remap[ts[i].id := x]))
  {
    forall j | 0 <= j < i ensures Placed(n, Renumbered(ts, lastId, j)) {
      PlacedAfterNewTask(r.state, n, x, Renumbered(ts, lastId, j));
    }
  }

  lemma RebuiltAfterStory(ts: seq<Item>, lastId: nat, i: nat, r: Replay, n: ManagerState, x: Item)
    requires i < |ts| && Rebuilt(ts, lastId, i, r) && x == Renumbered(ts, lastId, i) && x.kind == STORY
    requires forall j :: 0 <= j < i ==> ts[j].id != ts[i].id
    requires x.epicId in r.state.epics
    requires n.tasks == r.state.tasks && n.epics == PutStory(r.state.epics, x.epicId, x)
    requires n.lastId == lastId + i + 1 && n.history == []
    requires forall y :: y in n.index ==> exists j :: 0 <= j < i + 1 && ts[j].kind != EPIC && SameInterval(y, ts[j])
    ensures Rebuilt(ts, lastId, i + 1, Replay(n, r.remap[ts[i].id := x]))
  {
    forall j | 0 <= j < i ensures Placed(n, Renumbered(ts, lastId, j)) {
      PlacedAfterNewStory(r.state, n, x.epicId, x, Renumbered(ts, lastId, j));
    }
  }

  lemma RebuildEpic(ts: seq<Item>, lastId: nat, i: nat, r: Replay)
    requires Replayable(ts) && i < |ts| && Rebuilt(ts, lastId, i, r) && ts[i].kind == EPIC
    requires Sorted(r.state.index) && forall k :: k in r.state.epics ==> k <= r.state.lastId
    ensures ReplayOne(r, ts[i]).Ok? && Rebuilt(ts, lastId, i + 1, ReplayOne(r, ts[i]).value)
  {
    var t, m := ts[i], r.state;
    var x := t.(id := m.lastId + 1);
    var n := m.(epics := m.epics[x.id := Epic(x, map[])], lastId := x.id);
    ReplayOneEpic(r, t);
    assert x == Renumbered(ts, lastId, i);
    RebuiltAfterEpic(ts, lastId, i, r, n, x);
  }

  lemma RebuildTask(ts: seq<Item>, lastId: nat, i: nat, r: Replay)
    requires Replayable(ts) && i < |ts| && Rebuilt(ts, lastId, i, r) && ts[i].kind == TASK
    requires Sorted(r.state.index) && forall k :: k in r.state.epics ==> k <= r.state.lastId
    ensures ReplayOne(r, ts[i]).Ok? && Rebuilt(ts, lastId, i + 1, ReplayOne(r, ts[i]).value)
  {
    var t, m := ts[i], r.state;
    NoConflictWithEarlier(ts, i, m.index, t);
    var x := t.(id := m.lastId + 1);
    var n := m.(tasks := m.tasks[x.id := x], index := Insert(m.index, x), lastId := x.id);
    ReplayOneTask(r, t);
    assert x == Renumbered(ts, lastId, i);
    IndexAfterInsert(ts, lastId, i, r, x);
    RebuiltAfterTask(ts, lastId, i, r, n, x);
  }

  /** The stored epic a stored story names. */
  lemma EpicOfStory(ts: seq<Item>, i: nat) returns (a: nat)
    requires EpicsFirst(ts) && i < |ts| && ts[i].kind == STORY
    ensures a < i && ts[a].kind == EPIC && ts[a].id == ts[i].epicId
  {
    a :| 0 <= a < i && ts[a].kind == EPIC && ts[a].id == ts[i].epicId;
  }

  lemma RebuildStory(ts: seq<Item>, lastId: nat, i: nat, r: Replay)
    requires Replayable(ts) && i < |ts| && Rebuilt(ts, lastId, i, r) && ts[i].kind == STORY
    requires Sorted(r.state.index) && forall k :: k in r.state.epics ==> k <= r.state.lastId
    ensures ReplayOne(r, ts[i]).Ok? && Rebuilt(ts, lastId, i + 1, ReplayOne(r, ts[i]).value)
  {
    var t, m := ts[i], r.state;
    var a := EpicOfStory(ts, i);
    PositionOfDistinct(ts, a);
    var e := lastId + 1 + a;
    assert r.remap[t.epicId] == Renumbered(ts, lastId, a);
    assert Placed(m, Renumbered(ts, lastId, a));
    var c := t.(epicId := e);
    NoConflictWithEarlier(ts, i, m.index, c);
    var x := c.(id := m.lastId + 1);
    var n := m.(epics := PutStory(m.epics, e, x), index := Insert(m.index, x), lastId := x.id);
    ReplayOneStory(r, t, e);
    assert x == Renumbered(ts, lastId, i);
    IndexAfterInsert(ts, lastId, i, r, x);
    RebuiltAfterStory(ts, lastId, i, r, n, x);
  }

  /** Each replayed add keeps the manager's invariant. */
  lemma ReplayOneKeepsInvariant(r: Replay, t: Item)
    requires Invariant(r.state)
    ensures ReplayOne(r, t).Ok? ==> Invariant(ReplayOne(r, t).value.state)
  {
    var remap := r.remap[t.id := t];
    if t.kind == EPIC {
      AddEpicKeepsInvariant(r.state, t);
    } else if t.kind == STORY {
      if t.epicId in remap {
        AddStoryKeepsInvariant(r.state, t.(epicId := remap[t.epicId].id));
      }
    } else {
      AddTaskKeepsInvariant(r.state, t);
    }
  }

  lemma RebuildStep(ts: seq<Item>, lastId: nat, i: nat, r: Replay)
    requires Replayable(ts) && i < |ts| && Invariant(r.state) && Rebuilt(ts, lastId, i, r)
    ensures ReplayOne(r, ts[i]).Ok?
    ensures Invariant(ReplayOne(r, ts[i]).value.state) && Rebuilt(ts, lastId, i + 1, ReplayOne(r, ts[i]).value)
  {
    if ts[i].kind == EPIC {
      RebuildEpic(ts, lastId, i, r);
    } else if ts[i].kind == STORY {
      RebuildStory(ts, lastId, i, r);
    } else {
      RebuildTask(ts, lastId, i, r);
    }
    ReplayOneKeepsInvariant(r, ts[i]);
  }

  lemma {:induction false} ReplayFrom(ts: seq<Item>, lastId: nat, i: nat, r: Replay)
    requires Replayable(ts) && i <= |ts| && Invariant(r.state) && Rebuilt(ts, lastId, i, r)
    ensures ReplayStorage(r, ts[i..]).Ok?
    ensures Invariant(ReplayStorage(r, ts[i..]).value.state)
    ensures Rebuilt(ts, lastId, |ts|, ReplayStorage(r, ts[i..]).value)
    decreases |ts| - i
  {
    if i < |ts| {
      RebuildStep(ts, lastId, i, r);
      var r1 := ReplayOne(r, ts[i]).value;
      assert ts[i..][0] == ts[i] && ts[i..][1..] == ts[i + 1..];
      ReplayFrom(ts, lastId, i + 1, r1);
    } else {
      assert ts[i..] == [];
    }
  }

  /** Replaying a rebuildable list into a fresh manager succeeds, and every
      stored item is then in place, renumbered. */
  lemma ReplayRebuilds(ts: seq<Item>, lastId: nat)
    requires Replayable(ts)
    ensures ReplayStorage(Replay(Fresh(lastId), map[]), ts).Ok?
    ensures Invariant(ReplayStorage(Replay(Fresh(lastId), map[]), ts).value.state)
    ensures Rebuilt(ts, lastId, |ts|, ReplayStorage(Replay(Fresh(lastId), map[]), ts).value)
  {
    assert ts[0..] == ts;
    ReplayFrom(ts, lastId, 0, Replay(Fresh(lastId), map[]));
  }

  /** The repositories hold nothing but renumbered stored items, each under
      the id it was given. */
  ghost predicate OnlyRenumbered(ts: seq<Item>, lastId: nat, tasks: map<int, Item>, epics: map<int, Epic>) {
    && (forall k :: k in tasks ==>
          lastId < k <= lastId + |ts| && tasks[k] == Renumbered(ts, lastId, k - lastId - 1))
    && (forall k :: k in epics ==>
          lastId < k <= lastId + |ts| && epics[k].header == Renumbered(ts, lastId, k - lastId - 1))
    && (forall e, k :: e in epics && k in epics[e].stories ==>
          lastId < k <= lastId + |ts| && epics[e].stories[k] == Renumbered(ts, lastId, k - lastId - 1))
  }

  lemma RebuiltTasksRenumbered(ts: seq<Item>, lastId: nat, r: Replay)
    requires Invariant(r.state) && Rebuilt(ts, lastId, |ts|, r)
    ensures forall k :: k in r.state.tasks ==>
      lastId < k <= lastId + |ts| && r.state.tasks[k] == Renumbered(ts, lastId, k - lastId - 1)
  {
    var m := r.state;
    forall k | k in m.tasks
      ensures lastId < k <= lastId + |ts| && m.tasks[k] == Renumbered(ts, lastId, k - lastId - 1)
    {
      assert Placed(m, Renumbered(ts, lastId, k - lastId - 1));
    }
  }

  lemma RebuiltEpicsRenumbered(ts: seq<Item>, lastId: nat, r: Replay)
    requires Invariant(r.state) && Rebuilt(ts, lastId, |ts|, r)
    ensures forall k :: k in r.state.epics ==>
      lastId < k <= lastId + |ts| && r.state.epics[k].header == Renumbered(ts, lastId, k - lastId - 1)
  {
    var m := r.state;
    forall k | k in m.epics
      ensures lastId < k <= lastId + |ts| && m.epics[k].header == Renumbered(ts, lastId, k - lastId - 1)
    {
      assert Placed(m, Renumbered(ts, lastId, k - lastId - 1));
    }
  }

  lemma RebuiltStoriesRenumbered(ts: seq<Item>, lastId: nat, r: Replay)
    requires Invariant(r.state) && Rebuilt(ts, lastId, |ts|, r)
    ensures forall e, k :: e in r.state.epics && k in r.state.epics[e].stories ==>
      lastId < k <= lastId + |ts| && r.state.epics[e].stories[k] == Renumbered(ts, lastId, k - lastId - 1)
  {
    var m := r.state;
    forall e, k | e in m.epics && k in m.epics[e].stories
      ensures lastId < k <= lastId + |ts| && m.epics[e].stories[k] == Renumbered(ts, lastId, k - lastId - 1)
    {
      var y := Renumbered(ts, lastId, k - lastId - 1);
      assert Placed(m, y);
      if y.kind == STORY {
        assert y.epicId in m.epics && k in m.epics[y.epicId].stories;
      }
    }
  }

  /** Once every stored item is rebuilt, the repositories hold nothing but
      the renumbered items. */
  lemma RebuiltHoldsOnlyRenumbered(ts: seq<Item>, lastId: nat, r: Replay)
    requires Invariant(r.state) && Rebuilt(ts, lastId, |ts|, r)
    ensures OnlyRenumbered(ts, lastId, r.state.tasks, r.state.epics)
  {
    RebuiltTasksRenumbered(ts, lastId, r);
    RebuiltEpicsRenumbered(ts, lastId, r);
    RebuiltStoriesRenumbered(ts, lastId, r);
  }

  // ---------------------------------------------------------------------
  // Replaying the history

  /** The items the ids lead to through the map. */
  function Through(remap: map<int, Item>, ids: seq<int>): (r: seq<Item>)
    requires forall i :: 0 <= i < |ids| ==> ids[i] in remap
    ensures |r| == |ids| && forall i :: 0 <= i < |ids| ==> r[i] == remap[ids[i]]
  {
    seq(|ids|, i requires 0 <= i < |ids| => remap[ids[i]])
  }

  /** The first id leads to the first item, the rest to the rest. */
  lemma ThroughCons(remap: map<int, Item>, ids: seq<int>)
    requires ids != [] && forall i :: 0 <= i < |ids| ==> ids[i] in remap
    ensures forall i :: 0 <= i < |ids| - 1 ==> ids[1..][i] in remap
    ensures Through(remap, ids) == [remap[ids[0]]] + Through(remap, ids[1..])
  {
    assert forall i :: 0 <= i < |ids| - 1 ==> ids[1..][i] == ids[i + 1];
    var r := [remap[ids[0]]] + Through(remap, ids[1..]);
    assert forall i :: 0 <= i < |ids| ==> r[i] == Through(remap, ids)[i];
  }

  /** loadHistory records the mapped items one after the other. */
  lemma {:induction false} ReplayHistoryAddsAll(m: ManagerState, remap: map<int, Item>, ids: seq<int>)
    requires forall i :: 0 <= i < |ids| ==> ids[i] in remap
    ensures ReplayHistory(m, remap, ids) == Ok(m.(history := History.AddAll(m.history, Through(remap, ids))))
    decreases |ids|
  {
    if ids != [] {
      var x := remap[ids[0]];
      var m1 := m.(history := History.Add(m.history, x));
      ThroughCons(remap, ids);
      var rest := Through(remap, ids[1..]);
      ReplayHistoryAddsAll(m1, remap, ids[1..]);
      History.AddAllCons(m.history, x, rest);
    }
  }

  /** An id that no stored item had stops the history replay. */
  lemma UnmappedHistoryIdFails(m: ManagerState, remap: map<int, Item>, ids: seq<int>, i: nat)
    requires i < |ids| && ids[i] !in remap
    requires forall j :: 0 <= j < i ==> ids[j] in remap
    ensures ReplayHistory(m, remap, ids).Err?
    decreases i
  {
    if i > 0 {
      UnmappedHistoryIdFails(m.(history := History.Add(m.history, remap[ids[0]])), remap, ids[1..], i - 1);
    }
  }

  // ---------------------------------------------------------------------
  // What a saved manager's storage list looks like

  /** The storage list up to id `i` extends the one up to `i - 1` by the
      epic, task or story with id `i`, looked up in that order. */
  lemma StorageListStep(m: ManagerState, i: nat)
    requires 0 < i
    ensures Listing(AllItems(m), i) == Listing(AllItems(m), i - 1) +
      (if i in m.epics then [m.epics[i].header]
       else if i in m.tasks then [m.tasks[i]]
       else if StoryOwner(m.epics, i).Some? then [m.epics[StoryOwner(m.epics, i).value].stories[i]]
       else [])
  {
  }

  /** Every item of the manager is stored under its own id, in 1..lastId. */
  lemma AllItemsKeyed(m: ManagerState)
    requires Invariant(m)
    ensures forall k :: k in AllItems(m) ==> AllItems(m)[k].id == k && 0 < k <= m.lastId
    ensures forall k :: k in AllItems(m) && AllItems(m)[k].kind == EPIC ==>
      k in m.epics && m.epics[k].header == AllItems(m)[k]
    ensures forall k :: k in AllItems(m) && AllItems(m)[k].kind == STORY ==>
      StoryOwner(m.epics, k).Some? && m.epics[StoryOwner(m.epics, k).value].stories[k] == AllItems(m)[k]
  {
    forall k | k in AllItems(m)
      ensures AllItems(m)[k].id == k && 0 < k <= m.lastId
      ensures AllItems(m)[k].kind == EPIC ==> k in m.epics && m.epics[k].header == AllItems(m)[k]
      ensures AllItems(m)[k].kind == STORY ==>
        StoryOwner(m.epics, k).Some? && m.epics[StoryOwner(m.epics, k).value].stories[k] == AllItems(m)[k]
    {
      if k !in m.epics && k !in m.tasks {
        var e := StoryOwner(m.epics, k).value;
        assert AllItems(m)[k] == m.epics[e].stories[k];
      }
    }
  }

  /** The storage list is in strictly increasing id order and holds
      exactly the items of the manager. */
  lemma StorageListOrdered(m: ManagerState)
    requires Invariant(m)
    ensures var ts := StorageList(m);
      && (forall i, j :: 0 <= i < j < |ts| ==> ts[i].id < ts[j].id)
      && (forall i :: 0 <= i < |ts| ==> ts[i].id in AllItems(m) && AllItems(m)[ts[i].id] == ts[i])
      && (forall k :: k in AllItems(m) ==> AllItems(m)[k] in ts)
      && |ts| == |AllItems(m)|
  {
    AllItemsKeyed(m);
    ListingInIdOrder(AllItems(m), m.lastId);
    ListingHoldsAll(AllItems(m), m.lastId);
  }

  lemma StorageEpicsFirst(m: ManagerState)
    requires Invariant(m) && StoriesPointToOwners(m)
    ensures EpicsFirst(StorageList(m))
  {
    var items, ts := AllItems(m), StorageList(m);
    StorageListOrdered(m);
    AllItemsKeyed(m);
    forall b | 0 <= b < |ts| && ts[b].kind == STORY
      ensures var e := ts[b].epicId; e in items && items[e].kind == EPIC && items[e].id == e && e < ts[b].id
    {
      var k := ts[b].id;
      var e := StoryOwner(m.epics, k).value;
      assert ts[b].epicId == e && e < k;
      assert e in items && items[e] == m.epics[e].header;
    }
    EpicsFirstInOrderedList(ts, items);
  }

  /** In a list with strictly increasing ids that holds every item of a map,
      a story whose epic is in the map with a smaller id comes after it. */
  lemma EpicsFirstInOrderedList(ts: seq<Item>, items: map<int, Item>)
    requires forall i, j :: 0 <= i < j < |ts| ==> ts[i].id < ts[j].id
    requires forall k :: k in items ==> items[k] in ts
    requires forall b :: 0 <= b < |ts| && ts[b].kind == STORY ==>
      var e := ts[b].epicId; e in items && items[e].kind == EPIC && items[e].id == e && e < ts[b].id
    ensures EpicsFirst(ts)
  {
    forall b | 0 <= b < |ts| && ts[b].kind == STORY
      ensures exists a :: 0 <= a < b && ts[a].kind == EPIC && ts[a].id == ts[b].epicId
    {
      var e := ts[b].epicId;
      var a :| 0 <= a < |ts| && ts[a] == items[e];
    }
  }

  /** In a list with strictly increasing ids, an item found in it is at the
      first position of its id. */
  lemma PositionsInOrderedList(ts: seq<Item>, items: map<int, Item>)
    requires forall i, j :: 0 <= i < j < |ts| ==> ts[i].id < ts[j].id
    requires forall k :: k in items ==> items[k].id == k && items[k] in ts
    ensures forall id :: id in items ==> PositionOf(ts, id) < |ts| && ts[PositionOf(ts, id)] == items[id]
  {
    assert DistinctIds(ts);
    forall id | id in items
      ensures PositionOf(ts, id) < |ts| && ts[PositionOf(ts, id)] == items[id]
    {
      var a :| 0 <= a < |ts| && ts[a] == items[id];
      PositionOfDistinct(ts, a);
    }
  }

  lemma StoragePositions(m: ManagerState)
    requires Invariant(m)
    ensures forall id :: id in AllItems(m) ==>
      PositionOf(StorageList(m), id) < |StorageList(m)| && StorageList(m)[PositionOf(StorageList(m), id)] == AllItems(m)[id]
  {
    StorageListOrdered(m);
    AllItemsKeyed(m);
    PositionsInOrderedList(StorageList(m), AllItems(m));
  }

  /** The storage list of a manager lists each item once, each story after
      its epic, and every item of the manager. */
  lemma StorageListFacts(m: ManagerState)
    requires Invariant(m) && StoriesPointToOwners(m)
    ensures DistinctIds(StorageList(m)) && EpicsFirst(StorageList(m))
    ensures |StorageList(m)| == |AllItems(m)|
    ensures forall id :: id in AllItems(m) ==>
      PositionOf(StorageList(m), id) < |StorageList(m)| && StorageList(m)[PositionOf(StorageList(m), id)] == AllItems(m)[id]
  {
    StorageListOrdered(m);
    StorageEpicsFirst(m);
    StoragePositions(m);
  }

  // ---------------------------------------------------------------------
  // The round trip

  /** Every item of `m` is found in the storage list, and its renumbered
      copy is in place in `n`. */
  ghost predicate AllPlaced(m: ManagerState, ts: seq<Item>, lastId: nat, n: ManagerState) {
    forall id :: id in AllItems(m) ==>
      PositionOf(ts, id) < |ts| && ts[PositionOf(ts, id)] == AllItems(m)[id]
      && Placed(n, Renumbered(ts, lastId, PositionOf(ts, id)))
  }

  /** The new history is the old one, entry by entry replaced by the
      renumbered item of the same stored id. */
  ghost predicate HistoryRenumbered(h: seq<Item>, ts: seq<Item>, lastId: nat, h': seq<Item>) {
    && |h'| == |h|
    && (forall i :: 0 <= i < |h| ==>
          PositionOf(ts, h[i].id) < |ts| && h'[i] == Renumbered(ts, lastId, PositionOf(ts, h[i].id)))
  }

  /** What reloading `m` into a manager whose counter stood at `lastId`
      gives back: every item of `m` in place under a new id, renumbered in
      storage order, each story in the new epic of its old epic; nothing
      else in the repositories; and the history entries in their old order,
      each replaced by its renumbered item. */
  ghost predicate Restores(m: ManagerState, res: Result<ManagerState>, lastId: nat) {
    var ts := StorageList(m);
    && res.Ok? && Invariant(res.value)
    && res.value.lastId == lastId + |ts| && |ts| == |AllItems(m)|
    && AllPlaced(m, ts, lastId, res.value)
    && OnlyRenumbered(ts, lastId, res.value.tasks, res.value.epics)
    && HistoryRenumbered(m.history, ts, lastId, res.value.history)
  }

  /** Each history id of a saved manager was the id of a stored item, and the
      map sends it to that item renumbered. */
  lemma HistoryMapped(m: ManagerState, lastId: nat, r: Replay)
    requires Invariant(m) && StoriesPointToOwners(m) && HistoryLive(m)
    requires Rebuilt(StorageList(m), lastId, |StorageList(m)|, r)
    ensures var ts := StorageList(m);
      forall i :: 0 <= i < |m.history| ==>
        && PositionOf(ts, m.history[i].id) < |ts| && ts[PositionOf(ts, m.history[i].id)].id == m.history[i].id
        && m.history[i].id in r.remap
        && r.remap[m.history[i].id] == Renumbered(ts, lastId, PositionOf(ts, m.history[i].id))
  {
    var ts := StorageList(m);
    StorageListFacts(m);
    AllItemsKeyed(m);
    forall i | 0 <= i < |m.history|
      ensures PositionOf(ts, m.history[i].id) < |ts| && ts[PositionOf(ts, m.history[i].id)].id == m.history[i].id
    {
      assert m.history[i] in m.history;
      assert IsLive(m, m.history[i].id);
      assert m.history[i].id in AllItems(m);
    }
  }

  /** Sending the history ids through the map gives the renumbered history,
      with no id twice. */
  lemma HistoryThrough(m: ManagerState, lastId: nat, r: Replay)
    requires Invariant(m) && StoriesPointToOwners(m) && HistoryLive(m)
    requires Rebuilt(StorageList(m), lastId, |StorageList(m)|, r)
    ensures forall i :: 0 <= i < |History.Ids(m.history)| ==> History.Ids(m.history)[i] in r.remap
    ensures var h := Through(r.remap, History.Ids(m.history));
      History.NoDuplicateIds(h) && HistoryRenumbered(m.history, StorageList(m), lastId, h)
  {
    var ts, ids := StorageList(m), History.Ids(m.history);
    HistoryMapped(m, lastId, r);
    var h := Through(r.remap, ids);
    forall i, j | 0 <= i < j < |h| ensures h[i].id != h[j].id {
      assert m.history[i].id != m.history[j].id;
    }
  }

  /** Changing only the history keeps the invariant when the new history
      has no id twice. */
  lemma InvariantWithHistory(m: ManagerState, h: seq<Item>)
    requires Invariant(m) && History.NoDuplicateIds(h)
    ensures Invariant(m.(history := h))
  {
  }

  lemma AllPlacedAfterReplay(m: ManagerState, lastId: nat, r: Replay, n: ManagerState)
    requires Invariant(m) && StoriesPointToOwners(m)
    requires Rebuilt(StorageList(m), lastId, |StorageList(m)|, r)
    requires n.tasks == r.state.tasks && n.epics == r.state.epics
    ensures AllPlaced(m, StorageList(m), lastId, n)
  {
    var ts := StorageList(m);
    StorageListFacts(m);
    forall id | id in AllItems(m)
      ensures Placed(n, Renumbered(ts, lastId, PositionOf(ts, id)))
    {
      assert Placed(r.state, Renumbered(ts, lastId, PositionOf(ts, id)));
    }
  }

  /** A reload whose list replay succeeds is that replay followed by the
      history replay. */
  lemma LoadFromSteps(s: Store, lastId: nat, ts: seq<Item>, ids: seq<int>)
    requires ReadItems(s, StorageKey) == Ok(ts) && ReadIds(s, HistoryKey) == Ok(ids)
    requires ReplayStorage(Replay(Fresh(lastId), map[]), ts).Ok?
    ensures var r := ReplayStorage(Replay(Fresh(lastId), map[]), ts).value;
      LoadFrom(s, lastId) == ReplayHistory(r.state, r.remap, ids)
  {
  }

  /** Reloading from a store whose storage and history keys hold what save()
      writes for `m`. */
  lemma ReloadRestores(m: ManagerState, s: Store, lastId: nat)
    requires Invariant(m) && StoriesPointToOwners(m) && HistoryLive(m)
    requires IntervalsCompatible(StorageList(m))
    requires ReadItems(s, StorageKey) == Ok(StorageList(m))
    requires ReadIds(s, HistoryKey) == Ok(History.Ids(m.history))
    ensures Restores(m, LoadFrom(s, lastId), lastId)
  {
    var ts, ids := StorageList(m), History.Ids(m.history);
    StorageListFacts(m);
    ReplayRebuilds(ts, lastId);
    var r := ReplayStorage(Replay(Fresh(lastId), map[]), ts).value;
    RebuiltHoldsOnlyRenumbered(ts, lastId, r);
    HistoryThrough(m, lastId, r);
    var h := Through(r.remap, ids);
    ReplayHistoryAddsAll(r.state, r.remap, ids);
    History.AddAllDistinct(h);
    var n := r.state.(history := h);
    LoadFromSteps(s, lastId, ts, ids);
    assert LoadFrom(s, lastId) == Ok(n);
    InvariantWithHistory(r.state, h);
    AllPlacedAfterReplay(m, lastId, r, n);
  }

  /** save() followed by the reload that reads before it resets gives the
      manager back, as long as the history key holds the current history:
      save() skips an empty history, so that key must already read as empty. */
  lemma SaveThenReloadRestores(store: Store, m: ManagerState, lastId: nat)
    requires Invariant(m) && StoriesPointToOwners(m) && HistoryLive(m)
    requires IntervalsCompatible(StorageList(m))
    requires m.history == [] ==> ReadIds(store, HistoryKey) == Ok([])
    ensures Restores(m, LoadReadingFirst(SaveTo(store, m), lastId).result, lastId)
    ensures LoadReadingFirst(SaveTo(store, m), lastId).store == Reset(SaveTo(store, m))
  {
    SaveWritesWhatIsNotEmpty(store, m);
    var s := SaveTo(store, m);
    if m.history == [] {
      assert ReadIds(s, HistoryKey) == ReadIds(store, HistoryKey);
      assert History.Ids(m.history) == [];
    }
    ReloadRestores(m, s, lastId);
  }
}

=== FILE: priority_index.dfy ===
/** The priority index of the in-memory manager (a TreeSet in the source) and
    the interval-overlap check that guards inserts and updates.
    The index is a sequence kept strictly sorted by the TreeSet's comparator:
    start time ascending with a missing start last, then id ascending. Two
    items the comparator calls equal (same start, same id) are the same
    element of the set. */
module PriorityIndex {
  import opened Items

  /** What the TreeSet's comparator looks at. */
  function Key(x: Item): (Option<int>, int) {
    (x.start, x.id)
  }

  /** The comparator: `a` sorts strictly before `b`. */
  predicate Before(a: Item, b: Item) {
    match a.start
    case Some(s) =>
      (match b.start
       case Some(t) => s < t || (s == t && a.id < b.id)
       case None => true)
    case None => b.start.None? && a.id < b.id
  }

  /** The comparator is a strict total order on keys. */
  lemma BeforeIsStrictTotalOrder(a: Item, b: Item, c: Item)
    ensures !Before(a, a)
    ensures Before(a, b) ==> !Before(b, a) && Key(a) != Key(b)
    ensures Key(a) != Key(b) ==> Before(a, b) || Before(b, a)
    ensures Before(a, b) && Before(b, c) ==> Before(a, c)
  {
  }

  predicate Sorted(s: seq<Item>) {
    forall i, j :: 0 <= i < j < |s| ==> Before(s[i], s[j])
  }

  /** The order the comparator imposes, spelled out for neighbours in a sorted
      index: scheduled items first by start time, unscheduled items last, and
      the id breaking ties among equal starts and among unscheduled items. */
  lemma SortedMeansStartThenId(s: seq<Item>, i: int, j: int)
    requires Sorted(s) && 0 <= i < j < |s|
    ensures s[i].start.None? ==> s[j].start.None? && s[i].id < s[j].id
    ensures s[i].start.Some? && s[j].start.Some? ==> s[i].start.value <= s[j].start.value
    ensures s[i].start == s[j].start ==> s[i].id < s[j].id
  {
  }

  predicate HasKey(s: seq<Item>, x: Item) {
    exists i :: 0 <= i < |s| && Key(s[i]) == Key(x)
  }

  /** In a sorted index the head sorts before everything after it. */
  lemma HeadBeforeRest(s: seq<Item>)
    requires Sorted(s) && s != []
    ensures forall y :: y in s[1..] ==> Before(s[0], y)
  {
    forall y | y in s[1..] ensures Before(s[0], y) {
      var i :| 0 <= i < |s[1..]| && s[1..][i] == y;
      assert s[i + 1] == y;
    }
  }

  lemma HasKeyTail(s: seq<Item>, x: Item)
    requires s != [] && Key(s[0]) != Key(x)
    ensures HasKey(s, x) <==> HasKey(s[1..], x)
  {
    if HasKey(s, x) {
      var i :| 0 <= i < |s| && Key(s[i]) == Key(x);
      assert s[1..][i - 1] == s[i];
    }
    if HasKey(s[1..], x) {
      var i :| 0 <= i < |s[1..]| && Key(s[1..][i]) == Key(x);
      assert s[i + 1] == s[1..][i];
    }
  }

  /** TreeSet.add: the item goes to its place in the order, unless an element
      with the same key is already there. */
  function Insert(s: seq<Item>, x: Item): (r: seq<Item>)
    ensures Sorted(s) ==> Sorted(r)
    ensures Sorted(s) && HasKey(s, x) ==> r == s
    ensures !HasKey(s, x) ==> |r| == |s| + 1 && forall y :: y in r <==> y in s || y == x
    decreases |s|
  {
    if s == [] then [x]
    else if Key(s[0]) == Key(x) then s
    else
      HasKeyTail(s, x);
      if Before(x, s[0]) then
        assert Sorted(s) ==> Sorted([x] + s) && !HasKey(s, x) by {
          if Sorted(s) { HeadBeforeRest(s); }
        }
        [x] + s
      else
        assert Sorted(s) ==> forall y :: y in s[1..] ==> Before(s[0], y) by {
          if Sorted(s) { HeadBeforeRest(s); }
        }
        [s[0]] + Insert(s[1..], x)
  }

  /** Every element whose key is in `keys` removed, the rest kept in order. */
  function DropKeys(s: seq<Item>, keys: set<(Option<int>, int)>): (r: seq<Item>)
    ensures forall y :: y in r <==> y in s && Key(y) !in keys
    ensures Sorted(s) ==> Sorted(r)
    ensures |r| <= |s|
    decreases |s|
  {
    if s == [] then []
    else
      var t := DropKeys(s[1..], keys);
      if Key(s[0]) in keys then t
      else
        assert Sorted(s) ==> forall y :: y in t ==> Before(s[0], y) by {
          if Sorted(s) {
            forall y | y in t ensures Before(s[0], y) {
              var i :| 0 <= i < |s[1..]| && s[1..][i] == y;
              assert s[i + 1] == y;
            }
          }
        }
        [s[0]] + t
  }

  /** TreeSet.remove: drop the element the comparator calls equal to `x`. */
  function RemoveKey(s: seq<Item>, x: Item): (r: seq<Item>)
    ensures forall y :: y in r <==> y in s && Key(y) != Key(x)
    ensures Sorted(s) ==> Sorted(r)
  {
    DropKeys(s, {Key(x)})
  }

  /** Dropping keys that do not occur changes nothing. */
  lemma {:induction false} DropKeysNothing(s: seq<Item>, keys: set<(Option<int>, int)>)
    requires forall y :: y in s ==> Key(y) !in keys
    ensures DropKeys(s, keys) == s
    decreases |s|
  {
    if s != [] {
      assert forall y :: y in s[1..] ==> y in s;
      DropKeysNothing(s[1..], keys);
      assert [s[0]] + s[1..] == s;
    }
  }

  /** Dropping key sets one after the other drops their union. */
  lemma {:induction false} DropKeysTwice(s: seq<Item>, a: set<(Option<int>, int)>, b: set<(Option<int>, int)>)
    ensures DropKeys(DropKeys(s, a), b) == DropKeys(s, a + b)
    decreases |s|
  {
    if s != [] {
      DropKeysTwice(s[1..], a, b);
      if Key(s[0]) !in a {
        assert DropKeys(s, a) == [s[0]] + DropKeys(s[1..], a);
        assert ([s[0]] + DropKeys(s[1..], a))[1..] == DropKeys(s[1..], a);
      }
    }
  }

  /** LocalDateTime comparison as `intersected` does it: `start1` strictly
      inside (start2, end2), or else `start2` strictly inside (start1, end1).
      The source only dereferences an end time on the branch that needs it;
      `None` is the null dereference that follows when that end is missing. */
  function Intersected(start1: int, end1: Option<int>, start2: int, end2: Option<int>): Option<bool> {
    if start1 > start2 && end2.None? then None
    else if start1 > start2 && start1 < end2.value then Some(true)
    else if start2 > start1 && end1.None? then None
    else Some(start2 > start1 && start2 < end1.value)
  }

  /** With both ends known and no negative duration, `intersected` is the usual
      overlap of the half-open intervals [start1, end1) and [start2, end2) minus
      the case of equal starts: equal starts never conflict. */
  lemma IntersectedIsStrictOverlap(start1: int, end1: int, start2: int, end2: int)
    requires start1 <= end1 && start2 <= end2
    ensures Intersected(start1, Some(end1), start2, Some(end2))
            == Some(start1 != start2 && start1 < end2 && start2 < end1)
  {
  }

  /** Touching intervals and equal starts never conflict, whatever the ends. */
  lemma TouchingNeverIntersects(start1: int, end1: Option<int>, start2: int, end2: Option<int>)
    ensures start1 == start2 ==> Intersected(start1, end1, start2, end2) == Some(false)
    ensures end1 == Some(start2) && start1 <= start2 ==> Intersected(start1, end1, start2, end2) == Some(false)
    ensures end2 == Some(start1) && start2 <= start1 ==> Intersected(start1, end1, start2, end2) == Some(false)
  {
  }

  /** Whenever `intersected` reaches a verdict, swapping the intervals gives the
      same verdict. */
  lemma IntersectedSymmetric(start1: int, end1: Option<int>, start2: int, end2: Option<int>)
    requires Intersected(start1, end1, start2, end2).Some?
    ensures Intersected(start2, end2, start1, end1) == Intersected(start1, end1, start2, end2)
  {
  }

  /** Two scheduled items whose intervals `intersected` reports as overlapping. */
  predicate Hits(c: Item, e: Item) {
    c.start.Some? && e.start.Some? && Intersected(c.start.value, End(c), e.start.value, End(e)) == Some(true)
  }

  /** The scan passes over `e` without a conflict and without a dereference failure. */
  predicate Misses(c: Item, e: Item) {
    c.start.None? || e.start.None? || Intersected(c.start.value, End(c), e.start.value, End(e)) == Some(false)
  }

  /** The scan stops at `e` on a null end time. */
  predicate Breaks(c: Item, e: Item) {
    c.start.Some? && e.start.Some? && Intersected(c.start.value, End(c), e.start.value, End(e)).None?
  }

  /** No item strictly overlaps itself, so an index entry never conflicts with
      an equal value. */
  lemma NeverHitsItself(x: Item)
    ensures !Hits(x, x) && !Breaks(x, x)
  {
  }

  /** Outcome of checkIntersection: no conflict, the position of the first
      conflicting entry, or the position where a null end was dereferenced. */
  datatype Scan = Clear | Clash(at: nat) | NullEnd(at: nat) {
    function Shift(): Scan {
      match this
      case Clear => Clear
      case Clash(k) => Clash(k + 1)
      case NullEnd(k) => NullEnd(k + 1)
    }
  }

  /** What it means for `r` to be the outcome of scanning `s` in order for the
      candidate `c`: every entry before the stopping point is passed over. */
  predicate IsFirstConflict(s: seq<Item>, c: Item, r: Scan) {
    match r
    case Clear => forall j :: 0 <= j < |s| ==> Misses(c, s[j])
    case Clash(k) => k < |s| && Hits(c, s[k]) && forall j :: 0 <= j < k ==> Misses(c, s[j])
    case NullEnd(k) => k < |s| && Breaks(c, s[k]) && forall j :: 0 <= j < k ==> Misses(c, s[j])
  }

  /** checkIntersection: with an empty index or an unscheduled candidate there
      is nothing to check; otherwise the first entry in index order that has
      a start time and intersects the candidate. */
  function Conflict(s: seq<Item>, c: Item): (r: Scan)
    ensures IsFirstConflict(s, c, r)
    ensures s == [] || c.start.None? ==> r == Clear
    decreases |s|
  {
    if s == [] || c.start.None? then Clear
    else
      var tail := Conflict(s[1..], c);
      assert forall j :: 1 <= j < |s| ==> s[j] == s[1..][j - 1];
      if s[0].start.None? then tail.Shift()
      else
        match Intersected(c.start.value, End(c), s[0].start.value, End(s[0]))
        case None => NullEnd(0)
        case Some(hit) => if hit then Clash(0) else tail.Shift()
  }

  /** The scan looks at the candidate's interval only, not at its id or its
      other fields. */
  lemma {:induction false} ConflictIgnoresId(s: seq<Item>, c: Item, d: Item)
    requires c.start == d.start && c.duration == d.duration
    ensures Conflict(s, c) == Conflict(s, d)
    decreases |s|
  {
    if s != [] && c.start.Some? {
      ConflictIgnoresId(s[1..], c, d);
    }
  }

  /** The characterisation pins the scan outcome down: there is one. */
  lemma FirstConflictUnique(s: seq<Item>, c: Item, r: Scan)
    requires IsFirstConflict(s, c, r)
    ensures r == Conflict(s, c)
  {
  }

  /** A clear scan is one that passed over every entry. */
  lemma ClearMeansMisses(s: seq<Item>, c: Item)
    ensures Conflict(s, c) == Clear <==> forall y :: y in s ==> Misses(c, y)
  {
    if forall y :: y in s ==> Misses(c, y) {
      FirstConflictUnique(s, c, Clear);
    }
  }

  /** The entries with an id other than `id`, in order. */
  function Others(s: seq<Item>, id: int): (r: seq<Item>)
    ensures forall y :: y in r <==> y in s && y.id != id
    decreases |s|
  {
    if s == [] then []
    else if s[0].id == id then Others(s[1..], id)
    else [s[0]] + Others(s[1..], id)
  }

  /** Moving an item to a new interval: its one entry is removed and the new
      value inserted. When the new value passed the scan over the other
      entries, the index stays sorted and free of overlaps. */
  lemma RekeyKeepsNoOverlap(s: seq<Item>, before: Item, y: Item)
    requires Sorted(s) && NoOverlap(s)
    requires forall z :: z in s && z.id == y.id ==> Key(z) == Key(before)
    requires before.id == y.id
    requires Conflict(Others(s, y.id), y) == Clear
    ensures var r := Insert(RemoveKey(s, before), y);
      && Sorted(r) && NoOverlap(r)
      && forall z :: z in r <==> z == y || (z in s && z.id != y.id)
  {
    var rest := RemoveKey(s, before);
    assert forall z :: z in rest <==> z in s && z.id != y.id;
    ClearMeansMisses(Others(s, y.id), y);
    ClearMeansMisses(rest, y);
    InsertKeepsNoOverlap(rest, y);
    assert !HasKey(rest, y);
  }

  /** No two entries of the index overlap. */
  predicate NoOverlap(s: seq<Item>) {
    forall a, b :: a in s && b in s ==> !Hits(a, b)
  }

  /** An entry that passes the check can join the index without creating an
      overlap: the scan ran over every entry and `intersected` is symmetric. */
  lemma {:induction false} InsertKeepsNoOverlap(s: seq<Item>, x: Item)
    requires Sorted(s) && NoOverlap(s)
    requires Conflict(s, x) == Clear
    ensures NoOverlap(Insert(s, x))
  {
    var r := Insert(s, x);
    forall a, b | a in r && b in r ensures !Hits(a, b) {
      if a == x && b != x {
        var j :| 0 <= j < |s| && s[j] == b;
        assert Misses(x, s[j]);
      } else if b == x && a != x {
        var j :| 0 <= j < |s| && s[j] == a;
        assert Misses(x, s[j]);
        if x.start.Some? && a.start.Some? {
          IntersectedSymmetric(x.start.value, End(x), a.start.value, End(a));
        }
      } else if a == x && b == x {
        NeverHitsItself(x);
      }
    }
  }

  /** Dropping entries never creates an overlap. */
  lemma DropKeysKeepsNoOverlap(s: seq<Item>, keys: set<(Option<int>, int)>)
    requires NoOverlap(s)
    ensures NoOverlap(DropKeys(s, keys))
  {
  }
}

=== FILE: reloadable.dfy ===
/** The manager states that save and reload give back, and the operations
    that keep a manager among them. In such a state the priority index holds
    every task and story exactly as stored, no two index entries would trip
    the overlap check, every story names the epic that owns it, and history
    holds only live items. Starting from a fresh manager, these states are
    never left by the finds, adds and bulk deletes, deleteTask, deleteStory,
    updateEpic, or the intended updateTask, updateStory and deleteEpic.
    updateTask as written does leave them, and a later add then saves a list
    that reloading rejects. */
module ReloadableStates {
  import opened Items
  import opened PriorityIndex
  import History
  import opened ManagerSpec
  import opened ManagerProperties
  import opened Persistence
  import opened PersistenceProperties

  /** No two entries of the index trip the overlap check, in either order. */
  predicate PairwiseClear(s: seq<Item>) {
    forall a, b :: a in s && b in s ==> Misses(a, b)
  }

  /** Every task and every story is in the index exactly as stored. */
  ghost predicate AllIndexed(m: ManagerState) {
    && (forall id :: id in m.tasks ==> m.tasks[id] in m.index)
    && (forall e, id :: e in m.epics && id in m.epics[e].stories ==> m.epics[e].stories[id] in m.index)
  }

  /** A state whose saved list reloading rebuilds. */
  ghost predicate Reloadable(m: ManagerState) {
    && Invariant(m) && HistoryLive(m) && IndexLive(m) && StoriesPointToOwners(m)
    && PairwiseClear(m.index) && AllIndexed(m)
  }

  // ---------------------------------------------------------------------
  // Such states reload

  /** Passing each other is symmetric. */
  lemma MissesSymmetric(a: Item, b: Item)
    requires Misses(a, b)
    ensures Misses(b, a)
  {
    if a.start.Some? && b.start.Some? {
      IntersectedSymmetric(a.start.value, End(a), b.start.value, End(b));
    }
  }

  /** Every item passes itself. */
  lemma MissesItself(x: Item)
    ensures Misses(x, x)
  {
    NeverHitsItself(x);
  }

  /** A stored item that is not an epic is a task or a story, so it is in
      the index. */
  lemma NonEpicIndexed(m: ManagerState, k: int)
    requires Invariant(m) && AllIndexed(m)
    requires k in AllItems(m) && AllItems(m)[k].kind != EPIC
    ensures AllItems(m)[k] in m.index
  {
    assert k !in m.epics;
    if k !in m.tasks {
      var e := StoryOwner(m.epics, k).value;
      assert AllItems(m)[k] == m.epics[e].stories[k];
    }
  }

  /** The saved list of such a state passes the overlap check pairwise. */
  lemma ReloadableIsCompatible(m: ManagerState)
    requires Invariant(m) && PairwiseClear(m.index) && AllIndexed(m)
    ensures IntervalsCompatible(StorageList(m))
  {
    var ts := StorageList(m);
    StorageListOrdered(m);
    forall a, b | 0 <= a < b < |ts| && ts[a].kind != EPIC && ts[b].kind != EPIC
      ensures Misses(ts[b], ts[a])
    {
      NonEpicIndexed(m, ts[a].id);
      NonEpicIndexed(m, ts[b].id);
    }
  }

  /** save() and the reload that reads before it resets give back such a
      state, as long as an empty history finds the history key empty. */
  lemma ReloadableRestores(store: Store, m: ManagerState, lastId: nat)
    requires Reloadable(m)
    requires m.history == [] ==> ReadIds(store, HistoryKey) == Ok([])
    ensures Restores(m, LoadReadingFirst(SaveTo(store, m), lastId).result, lastId)
  {
    ReloadableIsCompatible(m);
    SaveThenReloadRestores(store, m, lastId);
  }

  // ---------------------------------------------------------------------
  // The index after an insertion or a removal

  /** An item that passed the scan joins the index without tripping the check
      against any entry, and every old entry stays. */
  lemma InsertKeepsPairwiseClear(s: seq<Item>, x: Item)
    requires Sorted(s) && PairwiseClear(s) && Conflict(s, x) == Clear
    ensures PairwiseClear(Insert(s, x))
    ensures forall y :: y in s ==> y in Insert(s, x)
  {
    ClearMeansMisses(s, x);
    MissesItself(x);
    forall y | y in s ensures Misses(y, x) {
      MissesSymmetric(x, y);
    }
  }

  /** A new id has no entry in the index yet, so the new item is inserted. */
  lemma FreshIdInserted(m: ManagerState, y: Item)
    requires Invariant(m) && y.id == m.lastId + 1
    ensures y in Insert(m.index, y)
  {
    NextIdFree(m);
  }

  // ---------------------------------------------------------------------
  // What keeps a state reloadable

  lemma FreshIsReloadable(lastId: nat)
    ensures Reloadable(Fresh(lastId))
  {
  }

  lemma AddTaskKeepsReloadable(m: ManagerState, x: Item)
    requires Reloadable(m) && x.kind == TASK
    ensures Reloadable(AddTask(m, x).state)
  {
    AddTaskKeepsInvariant(m, x);
    AddTaskKeepsLive(m, x);
    var r := AddTask(m, x);
    if r.result.Ok? {
      var y := x.(id := m.lastId + 1);
      ConflictIgnoresId(m.index, x, y);
      InsertKeepsPairwiseClear(m.index, y);
      FreshIdInserted(m, y);
      assert r.state == m.(tasks := m.tasks[y.id := y], index := Insert(m.index, y), lastId := y.id);
    }
  }

  lemma AddEpicKeepsReloadable(m: ManagerState, x: Item)
    requires Reloadable(m) && x.kind == EPIC
    ensures Reloadable(AddEpic(m, x).state)
  {
    AddEpicKeepsInvariant(m, x);
    AddEpicKeepsLive(m, x);
  }

  lemma AddStoryKeepsReloadable(m: ManagerState, x: Item)
    requires Reloadable(m) && x.kind == STORY
    ensures Reloadable(AddStory(m, x).state)
  {
    AddStoryKeepsInvariant(m, x);
    AddStoryKeepsLive(m, x);
    var r := AddStory(m, x);
    if r.result.Ok? {
      var y := x.(id := m.lastId + 1);
      ConflictIgnoresId(m.index, x, y);
      InsertKeepsPairwiseClear(m.index, y);
      FreshIdInserted(m, y);
      var n := r.state;
      assert n == m.(epics := PutStory(m.epics, x.epicId, y), index := Insert(m.index, y), lastId := y.id);
      forall e, id | e in n.epics && id in n.epics[e].stories
        ensures n.epics[e].stories[id] in n.index && n.epics[e].stories[id].epicId == e
      {
        if e != x.epicId || id != y.id {
          assert n.epics[e].stories[id] == m.epics[e].stories[id];
        }
      }
    }
  }

  /** The intended update moves the task's index entry with it. */
  lemma UpdateTaskExcludingSelfKeepsReloadable(m: ManagerState, id: int, x: Item)
    requires Reloadable(m) && x.kind == TASK
    ensures Reloadable(UpdateTaskExcludingSelf(m, id, x).state)
  {
    UpdateTaskExcludingSelfKeepsInvariant(m, id, x);
    UpdateTaskExcludingSelfKeepsLive(m, id, x);
    var r := UpdateTaskExcludingSelf(m, id, x);
    if r.result.Ok? {
      var y := x.(id := id);
      var n := r.state;
      assert n == m.(tasks := m.tasks[id := y], index := Insert(RemoveKey(m.index, m.tasks[id]), y));
      ConflictIgnoresId(Others(m.index, id), x, y);
      RekeyKeepsNoOverlap(m.index, m.tasks[id], y);
      ClearMeansMisses(Others(m.index, id), y);
      MissesItself(y);
      forall a, b | a in n.index && b in n.index ensures Misses(a, b) {
        if a == y && b != y {
          assert b in Others(m.index, id);
        } else if b == y && a != y {
          assert a in Others(m.index, id);
          MissesSymmetric(y, a);
        }
      }
      forall k | k in n.tasks ensures n.tasks[k] in n.index {
        if k != id {
          assert m.tasks[k] in m.index && m.tasks[k].id == k;
        }
      }
      forall e, sid | e in n.epics && sid in n.epics[e].stories ensures n.epics[e].stories[sid] in n.index {
        assert m.epics[e].stories[sid] in m.index && m.epics[e].stories[sid].id == sid && sid !in m.tasks;
      }
      assert forall z :: z in n.history ==> IsLive(n, z.id) by {
        forall z | z in n.history ensures IsLive(n, z.id) {
          assert IsLive(m, z.id);
        }
      }
    }
  }

  /** The intended story update moves the story's index entry with it and
      keeps the story under the epic that owns it. */
  lemma UpdateStoryExcludingSelfKeepsReloadable(m: ManagerState, id: int, x: Item)
    requires Reloadable(m) && x.kind == STORY
    ensures Reloadable(UpdateStoryExcludingSelf(m, id, x).state)
  {
    UpdateStoryExcludingSelfKeepsInvariant(m, id, x);
    UpdateStoryExcludingSelfKeepsHistoryLive(m, id, x);
    UpdateStoryExcludingSelfKeepsLive(m, id, x);
    var r := UpdateStoryExcludingSelf(m, id, x);
    if r.result.Ok? {
      var e := StoryOwner(m.epics, id).value;
      var y := x.(id := id, epicId := e);
      var before := m.epics[e].stories[id];
      var n := r.state;
      assert n == m.(epics := PutStory(m.epics, e, y), index := Insert(RemoveKey(m.index, before), y));
      StoryEntryKey(m, id);
      RekeyFacts(m.index, before, x, y);
      ConflictIgnoresId(Others(m.index, id), x, y);
      ClearMeansMisses(Others(m.index, id), y);
      MissesItself(y);
      forall a, b | a in n.index && b in n.index ensures Misses(a, b) {
        if a == y && b != y {
          assert b in Others(m.index, id);
        } else if b == y && a != y {
          assert a in Others(m.index, id);
          MissesSymmetric(y, a);
        }
      }
      forall k | k in n.tasks ensures n.tasks[k] in n.index {
        assert m.tasks[k] in m.index && m.tasks[k].id == k && k != id;
      }
      forall f, sid | f in n.epics && sid in n.epics[f].stories
        ensures n.epics[f].stories[sid] in n.index && n.epics[f].stories[sid].epicId == f
      {
        if f != e || sid != id {
          assert n.epics[f].stories[sid] == m.epics[f].stories[sid];
          assert m.epics[f].stories[sid] in m.index && m.epics[f].stories[sid].id == sid;
        }
      }
    }
  }

  lemma UpdateEpicKeepsReloadable(m: ManagerState, id: int, x: Item)
    requires Reloadable(m) && x.kind == EPIC
    ensures Reloadable(UpdateEpic(m, id, x).state)
  {
    UpdateEpicKeepsInvariant(m, id, x);
    UpdateEpicKeepsLive(m, id, x);
  }

  lemma FindTaskKeepsReloadable(m: ManagerState, id: int)
    requires Reloadable(m)
    ensures Reloadable(FindTask(m, id).state)
  {
    FindTaskKeepsInvariant(m, id);
    var n := FindTask(m, id).state;
    assert n.tasks == m.tasks && n.epics == m.epics && n.index == m.index;
  }

  lemma FindEpicKeepsReloadable(m: ManagerState, id: int)
    requires Reloadable(m)
    ensures Reloadable(FindEpic(m, id).state)
  {
    FindEpicKeepsInvariant(m, id);
    var n := FindEpic(m, id).state;
    assert n.tasks == m.tasks && n.epics == m.epics && n.index == m.index;
  }

  lemma FindStoryKeepsReloadable(m: ManagerState, id: int)
    requires Reloadable(m)
    ensures Reloadable(FindStory(m, id).state)
  {
    FindStoryKeepsInvariant(m, id);
    var n := FindStory(m, id).state;
    assert n.tasks == m.tasks && n.epics == m.epics && n.index == m.index;
  }

  lemma DeleteTaskKeepsReloadable(m: ManagerState, id: int)
    requires Reloadable(m)
    ensures Reloadable(DeleteTask(m, id).state)
  {
    DeleteTaskKeepsInvariant(m, id);
    DeleteTaskKeepsLive(m, id);
    var r := DeleteTask(m, id);
    if r.result.Ok? {
      var n := r.state;
      forall k | k in n.tasks ensures n.tasks[k] in n.index {
        assert m.tasks[k] in m.index && m.tasks[k].id == k;
      }
      forall e, sid | e in n.epics && sid in n.epics[e].stories ensures n.epics[e].stories[sid] in n.index {
        assert m.epics[e].stories[sid] in m.index && m.epics[e].stories[sid].id == sid && sid !in m.tasks;
      }
    }
  }

  lemma DeleteStoryKeepsReloadable(m: ManagerState, id: int)
    requires Reloadable(m)
    ensures Reloadable(DeleteStory(m, id).state)
  {
    DeleteStoryKeepsInvariant(m, id);
    DeleteStoryKeepsHistoryLive(m, id);
    DeleteStoryKeepsIndexLive(m, id);
    var r := DeleteStory(m, id);
    if r.result.Ok? {
      var e0 := StoryOwner(m.epics, id).value;
      var n := r.state;
      assert n.epics == DropStory(m.epics, e0, id) && n.index == RemoveKey(m.index, m.epics[e0].stories[id]);
      forall k | k in n.tasks ensures n.tasks[k] in n.index {
        assert m.tasks[k] in m.index && m.tasks[k].id == k && k != id;
      }
      forall e, sid | e in n.epics && sid in n.epics[e].stories
        ensures n.epics[e].stories[sid] in n.index && n.epics[e].stories[sid].epicId == e
      {
        assert sid in m.epics[e].stories && n.epics[e].stories[sid] == m.epics[e].stories[sid];
        assert sid != id by {
          if e != e0 { OwnerUnique(m.epics, e, sid); }
        }
        assert m.epics[e].stories[sid] in m.index && m.epics[e].stories[sid].id == sid;
      }
    }
  }

  /** An item whose index key is among the keys of a repository carries one
      of that repository's ids. */
  lemma KeyOfOneOf(items: map<int, Item>, y: Item)
    requires forall k :: k in items ==> items[k].id == k
    requires Key(y) in KeysOf(items)
    ensures y.id in items
  {
    var k :| k in items && Key(items[k]) == Key(y);
  }

  lemma DeleteEpicScrubbingStoriesKeepsReloadable(m: ManagerState, id: int)
    requires Reloadable(m)
    ensures Reloadable(DeleteEpicScrubbingStories(m, id).state)
  {
    DeleteEpicKeepsInvariant(m, id);
    DeleteEpicScrubbingStoriesKeepsHistoryLive(m, id);
    DeleteEpicKeepsIndexLive(m, id);
    var r := DeleteEpicScrubbingStories(m, id);
    if r.result.Ok? {
      var n := r.state;
      var gone := m.epics[id].stories;
      assert n.epics == m.epics - {id} && n.index == DropKeys(m.index, KeysOf(gone));
      forall k | k in n.tasks ensures n.tasks[k] in n.index {
        assert m.tasks[k] in m.index && m.tasks[k].id == k;
        if Key(m.tasks[k]) in KeysOf(gone) { KeyOfOneOf(gone, m.tasks[k]); }
      }
      forall e, sid | e in n.epics && sid in n.epics[e].stories ensures n.epics[e].stories[sid] in n.index {
        var s := m.epics[e].stories[sid];
        assert s in m.index && s.id == sid;
        if Key(s) in KeysOf(gone) {
          KeyOfOneOf(gone, s);
          OwnerUnique(m.epics, e, sid);
          OwnerUnique(m.epics, id, sid);
        }
      }
    }
  }

  lemma DeleteAllTasksKeepsReloadable(m: ManagerState)
    requires Reloadable(m)
    ensures Reloadable(DeleteAllTasks(m))
  {
    DeleteAllTasksKeepsInvariant(m);
    DeleteAllTasksKeepsLive(m);
    var n := DeleteAllTasks(m);
    forall e, sid | e in n.epics && sid in n.epics[e].stories ensures n.epics[e].stories[sid] in n.index {
      var s := m.epics[e].stories[sid];
      assert s in m.index && s.id == sid && sid !in m.tasks;
      if Key(s) in KeysOf(m.tasks) { KeyOfOneOf(m.tasks, s); }
    }
  }

  lemma DeleteAllEpicsKeepsReloadable(m: ManagerState)
    requires Reloadable(m)
    ensures Reloadable(DeleteAllEpics(m))
  {
    DeleteAllEpicsKeepsInvariant(m);
    DeleteAllEpicsKeepsLive(m);
    var n := DeleteAllEpics(m);
    forall k | k in n.tasks ensures n.tasks[k] in n.index {
      var t := m.tasks[k];
      assert t in m.index && t.id == k;
    }
  }

  /** deleteAllStories for the stored epic of that id. */
  lemma DeleteAllStoriesKeepsReloadable(m: ManagerState, ep: Epic)
    requires Reloadable(m)
    requires ep.header.id in m.epics && m.epics[ep.header.id] == ep
    ensures Reloadable(DeleteAllStories(m, ep))
  {
    var id := ep.header.id;
    DeleteAllStoriesKeepsInvariant(m, ep);
    DeleteAllStoriesKeepsLive(m, ep);
    DeleteAllStoriesKeepsIndexLive(m, ep);
    var n := DeleteAllStories(m, ep);
    assert n.epics == m.epics[id := ep.(stories := map[])] && n.index == DropKeys(m.index, KeysOf(ep.stories));
    forall k | k in n.tasks ensures n.tasks[k] in n.index {
      assert m.tasks[k] in m.index && m.tasks[k].id == k;
      if Key(m.tasks[k]) in KeysOf(ep.stories) { KeyOfOneOf(ep.stories, m.tasks[k]); }
    }
    forall e, sid | e in n.epics && sid in n.epics[e].stories
      ensures n.epics[e].stories[sid] in n.index && n.epics[e].stories[sid].epicId == e
    {
      var s := m.epics[e].stories[sid];
      assert e != id && n.epics[e].stories[sid] == s;
      assert s in m.index && s.id == sid;
      if Key(s) in KeysOf(ep.stories) {
        KeyOfOneOf(ep.stories, s);
        OwnerUnique(m.epics, e, sid);
        OwnerUnique(m.epics, id, sid);
      }
    }
  }

  // ---------------------------------------------------------------------
  // updateTask as written leaves the reloadable states

  /** Task 1 over [0, 10) moved to [40, 50) by updateTask as written, then a
      task over [45, 55) added: both calls succeed, since the index still
      holds task 1 at its old interval. */
  lemma UpdateThenAddState(t: Item, u: Item, v: Item)
    requires t.kind == TASK && t.start == Some(0) && t.duration == Some(10)
    requires u.kind == TASK && u.start == Some(40) && u.duration == Some(10)
    requires v.kind == TASK && v.start == Some(45) && v.duration == Some(10)
    ensures var m1 := AddTask(Fresh(0), t);
      var m2 := UpdateTask(m1.state, 1, u);
      var m3 := AddTask(m2.state, v);
      && m1.result == Ok(t.(id := 1)) && m2.result == Ok(u.(id := 1)) && m3.result == Ok(v.(id := 2))
      && m2.state == ManagerState(map[1 := u.(id := 1)], map[], [], [t.(id := 1)], 1)
      && m3.state == ManagerState(map[1 := u.(id := 1), 2 := v.(id := 2)], map[], [], [t.(id := 1), v.(id := 2)], 2)
  {
    var t1, u1, v2 := t.(id := 1), u.(id := 1), v.(id := 2);
    assert Conflict([t1], u) == Clear;
    assert Conflict([t1], v) == Clear;
    assert Insert([t1], v2) == [t1] + Insert([], v2);
  }

  /** The saved list of two tasks with ids 1 and 2 and nothing else. */
  lemma TwoTaskStorage(a: Item, b: Item, ix: seq<Item>)
    requires a.id == 1 && b.id == 2
    ensures StorageList(ManagerState(map[1 := a, 2 := b], map[], [], ix, 2)) == [a, b]
  {
    var m := ManagerState(map[1 := a, 2 := b], map[], [], ix, 2);
    StorageListStep(m, 2);
    StorageListStep(m, 1);
  }

  /** Replaying a task over [40, 50) and then one over [45, 55) stops at the
      second with an interval conflict. */
  lemma OverlappingReplayFails(a: Item, b: Item, lastId: nat)
    requires a.kind == TASK && a.start == Some(40) && a.duration == Some(10)
    requires b.kind == TASK && b.start == Some(45) && b.duration == Some(10)
    ensures ReplayStorage(Replay(Fresh(lastId), map[]), [a, b]).Err?
    ensures ReplayStorage(Replay(Fresh(lastId), map[]), [a, b]).error.IntervalConflict?
  {
    var r0 := Replay(Fresh(lastId), map[]);
    ReplayOneTask(r0, a);
    var a1 := a.(id := lastId + 1);
    var r1 := Replay(r0.state.(tasks := map[a1.id := a1], index := [a1], lastId := a1.id), map[a.id := a1]);
    assert ReplayOne(r0, a) == Ok(r1);
    assert Conflict([a1], b) == Clash(0);
    assert [a, b][1..] == [b];
  }

  /** A manager holding just those two tasks saves a list that reloading
      rejects. */
  lemma OverlappingTasksDoNotReload(a: Item, b: Item, ix: seq<Item>, store: Store, lastId: nat)
    requires a.id == 1 && a.kind == TASK && a.start == Some(40) && a.duration == Some(10)
    requires b.id == 2 && b.kind == TASK && b.start == Some(45) && b.duration == Some(10)
    ensures var m := ManagerState(map[1 := a, 2 := b], map[], [], ix, 2);
      && !IntervalsCompatible(StorageList(m))
      && LoadReadingFirst(SaveTo(store, m), lastId).result.Err?
  {
    var m := ManagerState(map[1 := a, 2 := b], map[], [], ix, 2);
    TwoTaskStorage(a, b, ix);
    assert !Misses(b, a);
    OverlappingReplayFails(a, b, lastId);
    SaveWritesStorage(store, m);
  }

  /** As written, updateTask takes a reloadable manager out of the
      reloadable states, and a task added afterwards over the new interval
      leaves two overlapping tasks. The state still meets the invariant,
      yet what save() writes for it does not reload. */
  lemma UpdateThenAddBreaksReload(t: Item, u: Item, v: Item, store: Store, lastId: nat)
    requires t.kind == TASK && t.start == Some(0) && t.duration == Some(10)
    requires u.kind == TASK && u.start == Some(40) && u.duration == Some(10)
    requires v.kind == TASK && v.start == Some(45) && v.duration == Some(10)
    ensures var m1 := AddTask(Fresh(0), t);
      var m2 := UpdateTask(m1.state, 1, u);
      var m3 := AddTask(m2.state, v);
      && Reloadable(m1.state) && !Reloadable(m2.state)
      && Invariant(m3.state) && HistoryLive(m3.state) && StoriesPointToOwners(m3.state)
      && !IntervalsCompatible(StorageList(m3.state))
      && LoadReadingFirst(SaveTo(store, m3.state), lastId).result.Err?
  {
    var m1 := AddTask(Fresh(0), t);
    var m2 := UpdateTask(m1.state, 1, u);
    var m3 := AddTask(m2.state, v);
    UpdateThenAddState(t, u, v);
    FreshIsReloadable(0);
    AddTaskKeepsReloadable(Fresh(0), t);
    UpdateTaskKeepsInvariant(m1.state, 1, u);
    AddTaskKeepsInvariant(m2.state, v);
    var t1, u1, v2 := t.(id := 1), u.(id := 1), v.(id := 2);
    assert m2.state.index == [t1] && m2.state.tasks[1] == u1 && u1 != t1;
    assert !AllIndexed(m2.state);
    OverlappingTasksDoNotReload(u1, v2, m3.state.index, store, lastId);
  }
}

=== FILE: story.dfy ===
/** The story entity as an object: built through its builder or one of the
    factories, changed in place by its setters, and compared by id alone.
    A Java `String` or object reference that may be null is an `Option`
    here; a story's state is kept as the builder received it. */
module Stories {
  import opened Items

  /** Story.Builder after its constructor: the name is required, the id
      defaults to 0, the other fields start unset. */
  class Builder {
    const id: int
    const name: string
    const epicId: int
    var description: Option<string>
    var state: Option<State>
    var duration: Option<int>
    var start: Option<int>

    constructor (id: int, name: string, epicId: int)
      ensures this.id == id && this.name == name && this.epicId == epicId
      ensures description.None? && state.None? && duration.None? && start.None?
    {
      this.id := id;
      this.name := name;
      this.epicId := epicId;
      description, state, duration, start := None, None, None, None;
    }

    /** Each setter stores its value and hands back the same builder. */
    method Description(d: Option<string>) returns (b: Builder)
      modifies this
      ensures b == this && description == d
      ensures state == old(state) && duration == old(duration) && start == old(start)
    {
      description := d;
      b := this;
    }

    method StateTask(s: Option<State>) returns (b: Builder)
      modifies this
      ensures b == this && state == s
      ensures description == old(description) && duration == old(duration) && start == old(start)
    {
      state := s;
      b := this;
    }

    method Duration(d: Option<int>) returns (b: Builder)
      modifies this
      ensures b == this && duration == d
      ensures description == old(description) && state == old(state) && start == old(start)
    {
      duration := d;
      b := this;
    }

    method StartTime(t: Option<int>) returns (b: Builder)
      modifies this
      ensures b == this && start == t
      ensures description == old(description) && state == old(state) && duration == old(duration)
    {
      start := t;
      b := this;
    }

    /** build(): a new story holding the builder's fields, of kind STORY. */
    method Build() returns (s: Story)
      ensures fresh(s) && s.kind == STORY
      ensures s.id == id && s.name == Some(name) && s.epicId == epicId
      ensures s.description == description && s.state == state
      ensures s.duration == duration && s.start == start
    {
      s := new Story(this);
    }
  }

  /** The two Builder constructors: a null name is rejected. Without an id
      the builder's id is 0. */
  method NewBuilder(id: int, name: Option<string>, epicId: int) returns (r: Result<Builder>)
    ensures r.Err? <==> name.None?
    ensures r.Err? ==> r.error == NullName
    ensures r.Ok? ==> fresh(r.value) && r.value.id == id && r.value.name == name.value && r.value.epicId == epicId
    ensures r.Ok? ==> var b := r.value;
      b.description.None? && b.state.None? && b.duration.None? && b.start.None?
  {
    if name.None? {
      return Err(NullName);
    }
    var b := new Builder(id, name.value, epicId);
    r := Ok(b);
  }

  /** Story.builder(name, epicId). */
  method NewStoryBuilder(name: Option<string>, epicId: int) returns (r: Result<Builder>)
    ensures r.Err? <==> name.None?
    ensures r.Err? ==> r.error == NullName
    ensures r.Ok? ==> fresh(r.value) && r.value.id == 0 && r.value.name == name.value && r.value.epicId == epicId
  {
    r := NewBuilder(0, name, epicId);
  }

  class Story {
    var id: int
    var name: Option<string>
    var description: Option<string>
    var state: Option<State>
    var duration: Option<int>
    var start: Option<int>
    var epicId: int
    const kind: Kind

    /** The private constructor: every field from the builder, kind STORY. */
    constructor (b: Builder)
      ensures kind == STORY && id == b.id && name == Some(b.name) && epicId == b.epicId
      ensures description == b.description && state == b.state
      ensures duration == b.duration && start == b.start
    {
      id := b.id;
      name := Some(b.name);
      description := b.description;
      state := b.state;
      duration := b.duration;
      start := b.start;
      epicId := b.epicId;
      kind := STORY;
    }

    /** setStory: with a story given, its name, description, epic id,
        duration and start time are copied; id and state stay. With null,
        nothing changes. The same story is returned either way. */
    method SetStory(s: Story?) returns (r: Story)
      modifies this
      ensures r == this && id == old(id) && state == old(state)
      ensures s == null ==>
                name == old(name) && description == old(description)
                && epicId == old(epicId) && duration == old(duration) && start == old(start)
      ensures s != null ==>
                name == old(s.name) && description == old(s.description)
                && epicId == old(s.epicId) && duration == old(s.duration) && start == old(s.start)
    {
      if s != null {
        var n, d, e, du, st := s.name, s.description, s.epicId, s.duration, s.start;
        name := n;
        description := d;
        epicId := e;
        duration := du;
        start := st;
      }
      r := this;
    }

    method SetEpicId(e: int)
      modifies this
      ensures epicId == e
      ensures id == old(id) && name == old(name) && description == old(description)
      ensures state == old(state) && duration == old(duration) && start == old(start)
    {
      epicId := e;
    }

    method SetName(n: Option<string>)
      modifies this
      ensures name == n
      ensures id == old(id) && epicId == old(epicId) && description == old(description)
      ensures state == old(state) && duration == old(duration) && start == old(start)
    {
      name := n;
    }

    method SetDescription(d: Option<string>)
      modifies this
      ensures description == d
      ensures id == old(id) && epicId == old(epicId) && name == old(name)
      ensures state == old(state) && duration == old(duration) && start == old(start)
    {
      description := d;
    }

    method SetStateTask(s: Option<State>)
      modifies this
      ensures state == s
      ensures id == old(id) && epicId == old(epicId) && name == old(name)
      ensures description == old(description) && duration == old(duration) && start == old(start)
    {
      state := s;
    }

    /** equals: the same object, or another story with the same id. */
    predicate Equals(o: Story?)
      reads this, o
    {
      if this == o then true
      else if o == null then false
      else id == o.id
    }

    /** hashCode: Objects.hash of the id alone. */
    function HashCode(): bv32
      reads this
    {
      ObjectsHash(id)
    }
  }

  /** Long.hashCode: the low half of `v ^ (v >>> 32)`, that is the two
      32-bit halves of the 64-bit two's-complement value xor-ed together. */
  function LongHash(v: int): bv32 {
    var u := v % 0x1_0000_0000_0000_0000;
    (u % 0x1_0000_0000) as bv32 ^ (u / 0x1_0000_0000) as bv32
  }

  /** Objects.hash over one long: 31 * 1 plus its hash, in 32-bit arithmetic. */
  function ObjectsHash(v: int): bv32 {
    31 + LongHash(v)
  }

  /** Two stories are equal exactly when their ids are. */
  lemma EqualsIsSameId(a: Story, o: Story?)
    ensures a.Equals(o) <==> o != null && o.id == a.id
  {
  }

  /** Equality by id is an equivalence, and equal stories hash alike. */
  lemma EqualsIsEquivalence(a: Story, b: Story, c: Story)
    ensures a.Equals(a)
    ensures a.Equals(b) ==> b.Equals(a)
    ensures a.Equals(b) && b.Equals(c) ==> a.Equals(c)
    ensures a.Equals(b) ==> a.HashCode() == b.HashCode()
  {
  }

  /** The hash depends on the id and on nothing else. */
  lemma HashDependsOnIdOnly(a: Story, b: Story)
    ensures a.id == b.id ==> a.HashCode() == b.HashCode()
    ensures a.HashCode() == ObjectsHash(a.id)
  {
  }

  /** Values Objects.hash gives: id 0 hashes to 31, id 1 to 32, and id -1,
      whose halves cancel, to 31 again. */
  lemma HashExamples()
    ensures ObjectsHash(0) == 31 && ObjectsHash(1) == 32 && ObjectsHash(-1) == 31
    ensures ObjectsHash(0x1_0000_0001) == 31
  {
    assert (-1) % 0x1_0000_0000_0000_0000 == 0xFFFF_FFFF_FFFF_FFFF;
    assert 0xFFFF_FFFF_FFFF_FFFF % 0x1_0000_0000 == 0xFFFF_FFFF;
    assert 0xFFFF_FFFF_FFFF_FFFF / 0x1_0000_0000 == 0xFFFF_FFFF;
    assert 0x1_0000_0001 % 0x1_0000_0000 == 1 && 0x1_0000_0001 / 0x1_0000_0000 == 1;
  }

  // ---------------------------------------------------------------------
  // The factories

  /** createStory(name, epicId): id 0. */
  method CreateStory(name: Option<string>, epicId: int) returns (r: Result<Story>)
    ensures r.Err? <==> name.None?
    ensures r.Err? ==> r.error == NullName
    ensures r.Ok? ==> var s := r.value;
      fresh(s) && s.kind == STORY && s.id == 0 && s.name == name && s.epicId == epicId
      && s.description.None? && s.state.None? && s.duration.None? && s.start.None?
  {
    var b :- NewBuilder(0, name, epicId);
    var s := b.Build();
    r := Ok(s);
  }

  /** createStory(name, description, epicId): id 0, with a description. */
  method CreateDescribedStory(name: Option<string>, description: Option<string>, epicId: int) returns (r: Result<Story>)
    ensures r.Err? <==> name.None?
    ensures r.Err? ==> r.error == NullName
    ensures r.Ok? ==> var s := r.value;
      fresh(s) && s.kind == STORY && s.id == 0 && s.name == name && s.epicId == epicId
      && s.description == description && s.state.None? && s.duration.None? && s.start.None?
  {
    r := CreateStoryWithDescription(0, name, description, epicId);
  }

  /** createStory(id, story): a new story with the given id and every other
      field of `story`; its kind is STORY whatever `story` holds. */
  method CopyStory(id: int, story: Story) returns (r: Result<Story>)
    ensures r.Err? <==> story.name.None?
    ensures r.Err? ==> r.error == NullName
    ensures r.Ok? ==> var s := r.value;
      fresh(s) && s.kind == STORY && s.id == id && s.name == story.name && s.epicId == story.epicId
      && s.description == story.description && s.state == story.state
      && s.duration == story.duration && s.start == story.start
  {
    var b :- NewBuilder(id, story.name, story.epicId);
    var b1 := b.Description(story.description);
    var b2 := b1.StateTask(story.state);
    var b3 := b2.Duration(story.duration);
    var b4 := b3.StartTime(story.start);
    var s := b4.Build();
    r := Ok(s);
  }

  /** createStory(id, name, epicId). */
  method CreateStoryWithId(id: int, name: Option<string>, epicId: int) returns (r: Result<Story>)
    ensures r.Err? <==> name.None?
    ensures r.Err? ==> r.error == NullName
    ensures r.Ok? ==> var s := r.value;
      fresh(s) && s.kind == STORY && s.id == id && s.name == name && s.epicId == epicId
      && s.description.None? && s.state.None? && s.duration.None? && s.start.None?
  {
    var b :- NewBuilder(id, name, epicId);
    var s := b.Build();
    r := Ok(s);
  }

  /** createStory(id, name, description, epicId). */
  method CreateStoryWithDescription(id: int, name: Option<string>, description: Option<string>, epicId: int)
    returns (r: Result<Story>)
    ensures r.Err? <==> name.None?
    ensures r.Err? ==> r.error == NullName
    ensures r.Ok? ==> var s := r.value;
      fresh(s) && s.kind == STORY && s.id == id && s.name == name && s.epicId == epicId
      && s.description == description && s.state.None? && s.duration.None? && s.start.None?
  {
    var b :- NewBuilder(id, name, epicId);
    var b1 := b.Description(description);
    var s := b1.Build();
    r := Ok(s);
  }

  /** createStory(id, name, description, epicId, stateTask). */
  method CreateStoryWithState(id: int, name: Option<string>, description: Option<string>, epicId: int,
                              state: Option<State>) returns (r: Result<Story>)
    ensures r.Err? <==> name.None?
    ensures r.Err? ==> r.error == NullName
    ensures r.Ok? ==> var s := r.value;
      fresh(s) && s.kind == STORY && s.id == id && s.name == name && s.epicId == epicId
      && s.description == description && s.state == state && s.duration.None? && s.start.None?
  {
    var b :- NewBuilder(id, name, epicId);
    var b1 := b.Description(description);
    var b2 := b1.StateTask(state);
    var s := b2.Build();
    r := Ok(s);
  }

  /** createStory with every field. */
  method CreateStoryWithSchedule(id: int, name: Option<string>, description: Option<string>, epicId: int,
                                 state: Option<State>, duration: Option<int>, start: Option<int>)
    returns (r: Result<Story>)
    ensures r.Err? <==> name.None?
    ensures r.Err? ==> r.error == NullName
    ensures r.Ok? ==> var s := r.value;
      fresh(s) && s.kind == STORY && s.id == id && s.name == name && s.epicId == epicId
      && s.description == description && s.state == state && s.duration == duration && s.start == start
  {
    var b :- NewBuilder(id, name, epicId);
    var b1 := b.Description(description);
    var b2 := b1.StateTask(state);
    var b3 := b2.Duration(duration);
    var b4 := b3.StartTime(start);
    var s := b4.Build();
    r := Ok(s);
  }
}

=== FILE: web.dfy ===
/** Splitting a URI's query string into key/value pairs, as the HTTP
    handlers do: a null or blank query gives no pairs; otherwise the trimmed
    query is split on '&' (the way a pattern split stream does), and each
    segment is split at its first '=' into a key and a value that may be
    missing. Both halves are URL-decoded; decoding itself is a parameter. */
module Web {
  import opened Items

  type Decoder = string -> string

  /** Character.isWhitespace: the ASCII separators and controls it names,
      and the Unicode space, line and paragraph separators other than the
      non-breaking ones. */
  predicate IsWhitespace(c: char) {
    c == ' ' || c == '\t' || c == '\n' || c == '\U{B}' || c == '\U{C}' || c == '\r'
    || ('\U{1C}' <= c <= '\U{1F}')
    || c == '\U{1680}' || ('\U{2000}' <= c <= '\U{2006}') || ('\U{2008}' <= c <= '\U{200A}')
    || c == '\U{2028}' || c == '\U{2029}' || c == '\U{205F}' || c == '\U{3000}'
  }

  /** String.isBlank: empty, or whitespace only. */
  predicate IsBlank(s: string) {
    forall i :: 0 <= i < |s| ==> IsWhitespace(s[i])
  }

  /** String.trim drops every leading and trailing character at or below
      the space character. */
  predicate Trimmable(c: char) {
    c <= ' '
  }

  function TrimStart(s: string): (r: string)
    ensures |r| <= |s|
    decreases |s|
  {
    if s != [] && Trimmable(s[0]) then TrimStart(s[1..]) else s
  }

  function TrimEnd(s: string): (r: string)
    ensures |r| <= |s|
    decreases |s|
  {
    if s != [] && Trimmable(s[|s| - 1]) then TrimEnd(s[..|s| - 1]) else s
  }

  function Trim(s: string): string {
    TrimEnd(TrimStart(s))
  }

  /** Trimming the start keeps a suffix, drops only characters at or below
      the space character, and stops at the first one above it. */
  lemma {:induction false} TrimStartDrops(s: string)
    ensures var r := TrimStart(s);
      (r == s[|s| - |r|..]
       && (forall k :: 0 <= k < |s| - |r| ==> Trimmable(s[k]))
       && (r == [] || !Trimmable(r[0])))
    decreases |s|
  {
    if s != [] && Trimmable(s[0]) {
      TrimStartDrops(s[1..]);
      var r := TrimStart(s[1..]);
      assert s[1..][|s| - 1 - |r|..] == s[|s| - |r|..];
      forall k | 1 <= k < |s| - |r| ensures Trimmable(s[k]) {
        assert s[k] == s[1..][k - 1];
      }
    }
  }

  /** Trimming the end keeps a prefix, drops only characters at or below
      the space character, and stops at the last one above it. */
  lemma {:induction false} TrimEndDrops(s: string)
    ensures var r := TrimEnd(s);
      (r == s[..|r|]
       && (forall k :: |r| <= k < |s| ==> Trimmable(s[k]))
       && (r == [] || !Trimmable(r[|r| - 1])))
    decreases |s|
  {
    if s != [] && Trimmable(s[|s| - 1]) {
      var p := s[..|s| - 1];
      TrimEndDrops(p);
      var r := TrimEnd(p);
      assert p[..|r|] == s[..|r|];
      forall k | |r| <= k < |s| - 1 ensures Trimmable(s[k]) {
        assert s[k] == p[k];
      }
    }
  }

  /** A prefix `u` of a suffix `t` of `s` is the slice of `s` between the
      two cuts; what follows `u` in `t` follows it in `s`. */
  lemma SliceOfSuffix(s: string, t: string, u: string)
    requires |t| <= |s| && t == s[|s| - |t|..]
    requires |u| <= |t| && u == t[..|u|]
    requires forall k :: |u| <= k < |t| ==> Trimmable(t[k])
    ensures var i := |s| - |t|;
      u == s[i..i + |u|] && forall k :: i + |u| <= k < |s| ==> Trimmable(s[k])
  {
    var i := |s| - |t|;
    forall k | i + |u| <= k < |s| ensures Trimmable(s[k]) {
      assert s[k] == t[k - i];
    }
  }

  /** Trimming keeps a contiguous middle part and drops only characters at
      or below the space character: those before position `i` and those
      from position `j` on. */
  lemma TrimKeepsMiddle(s: string)
    ensures var i := |s| - |TrimStart(s)|; var j := i + |Trim(s)|;
      0 <= i <= j <= |s| && Trim(s) == s[i..j]
      && (forall k :: 0 <= k < i ==> Trimmable(s[k]))
      && (forall k :: j <= k < |s| ==> Trimmable(s[k]))
  {
    var t := TrimStart(s);
    TrimStartDrops(s);
    TrimEndDrops(t);
    SliceOfSuffix(s, t, TrimEnd(t));
  }

  /** Trimming leaves no character at or below the space character at
      either end. */
  lemma TrimLeavesNoEnds(s: string)
    ensures Trim(s) == [] || (!Trimmable(Trim(s)[0]) && !Trimmable(Trim(s)[|Trim(s)| - 1]))
  {
    var t := TrimStart(s);
    TrimStartDrops(s);
    TrimEndDrops(t);
    if TrimEnd(t) != [] {
      assert TrimEnd(t)[0] == t[0];
    }
  }

  // ---------------------------------------------------------------------
  // Splitting

  /** Every piece between separators, leading and trailing empty pieces
      included. */
  function SplitOn(s: string, sep: char): (r: seq<string>)
    ensures |r| >= 1
    decreases |s|
  {
    if s == [] then [[]]
    else
      var rest := SplitOn(s[1..], sep);
      if s[0] == sep then [[]] + rest
      else [[s[0]] + rest[0]] + rest[1..]
  }

  /** The pieces put back together with the separator between them. */
  function Join(ps: seq<string>, sep: char): string
    decreases |ps|
  {
    if ps == [] then []
    else if |ps| == 1 then ps[0]
    else ps[0] + [sep] + Join(ps[1..], sep)
  }

  /** Splitting and joining again gives back the string, and no piece holds
      the separator. */
  lemma {:induction false} SplitOnJoin(s: string, sep: char)
    ensures Join(SplitOn(s, sep), sep) == s
    ensures forall p :: p in SplitOn(s, sep) ==> sep !in p
    decreases |s|
  {
    if s != [] {
      var rest := SplitOn(s[1..], sep);
      SplitOnJoin(s[1..], sep);
      if s[0] == sep {
        assert SplitOn(s, sep) == [[]] + rest;
        assert ([[]] + rest)[1..] == rest;
        assert Join([[]] + rest, sep) == [] + [sep] + Join(rest, sep);
      } else {
        var r := [[s[0]] + rest[0]] + rest[1..];
        assert SplitOn(s, sep) == r;
        if |rest| == 1 {
          assert Join(r, sep) == [s[0]] + rest[0];
        } else {
          assert r[1..] == rest[1..];
          assert Join(rest, sep) == rest[0] + [sep] + Join(rest[1..], sep);
          assert Join(r, sep) == [s[0]] + rest[0] + [sep] + Join(rest[1..], sep);
        }
        assert s == [s[0]] + s[1..];
        forall p | p in r ensures sep !in p {
          if p == [s[0]] + rest[0] {
            assert rest[0] in rest;
          } else {
            assert p in rest;
          }
        }
      }
    }
  }

  /** The pieces without the empty ones at the end. */
  function DropTrailingEmpty(ps: seq<string>): (r: seq<string>)
    ensures |r| <= |ps| && r == ps[..|r|]
    ensures r == [] || r[|r| - 1] != []
    ensures forall i :: |r| <= i < |ps| ==> ps[i] == []
    decreases |ps|
  {
    if ps != [] && ps[|ps| - 1] == [] then DropTrailingEmpty(ps[..|ps| - 1]) else ps
  }

  /** Pattern.compile("&").splitAsStream: an empty input gives itself;
      otherwise the pieces around each '&', trailing empty ones dropped. */
  function Segments(s: string): seq<string> {
    if s == [] then [[]] else DropTrailingEmpty(SplitOn(s, '&'))
  }

  /** A query that does not end in '&' is split into exactly the pieces
      that join back into it. */
  lemma SegmentsJoin(s: string)
    requires s != [] && s[|s| - 1] != '&'
    ensures Segments(s) == SplitOn(s, '&')
    ensures Join(Segments(s), '&') == s
  {
    SplitOnJoin(s, '&');
    LastPieceEnds(s, '&');
  }

  /** The last piece ends with the string's last character when that is no
      separator. */
  lemma {:induction false} LastPieceEnds(s: string, sep: char)
    requires s != [] && s[|s| - 1] != sep
    ensures SplitOn(s, sep)[|SplitOn(s, sep)| - 1] != []
    decreases |s|
  {
    if |s| > 1 {
      LastPieceEnds(s[1..], sep);
      assert s[1..][|s[1..]| - 1] == s[|s| - 1];
    }
  }

  /** A piece without the separator stays whole at the front. */
  lemma {:induction false} SplitOnPiece(p: string, sep: char, rest: string)
    requires sep !in p
    ensures SplitOn(p + rest, sep) == [p + SplitOn(rest, sep)[0]] + SplitOn(rest, sep)[1..]
    decreases |p|
  {
    var r := SplitOn(rest, sep);
    if p == [] {
      assert p + rest == rest && p + r[0] == r[0];
      assert [r[0]] + r[1..] == r;
    } else {
      SplitOnPiece(p[1..], sep, rest);
      assert (p + rest)[0] == p[0] && (p + rest)[1..] == p[1..] + rest;
      assert [p[0]] + (p[1..] + r[0]) == p + r[0];
    }
  }

  /** Text without the separator, then the separator, splits into that
      text followed by the pieces of the rest. */
  lemma SplitOnFirstPiece(p: string, sep: char, rest: string)
    requires sep !in p
    ensures SplitOn(p + [sep] + rest, sep) == [p] + SplitOn(rest, sep)
    ensures SplitOn(p, sep) == [p]
  {
    SplitOnPiece(p, sep, [sep] + rest);
    assert p + [sep] + rest == p + ([sep] + rest);
    assert ([sep] + rest)[1..] == rest;
    assert SplitOn([sep] + rest, sep) == [[]] + SplitOn(rest, sep);
    assert p + [] == p;
    SplitOnPiece(p, sep, []);
  }

  /** s.split("=", 2) padded to two elements: the text before the first '='
      and, when there is one, the text after it. */
  function SplitFirst(seg: string): (r: (string, Option<string>))
    ensures '=' !in r.0
    ensures r.1.None? <==> '=' !in seg
    ensures r.1.None? ==> r.0 == seg
    ensures r.1.Some? ==> seg == r.0 + "=" + r.1.value
    decreases |seg|
  {
    if seg == [] then ([], None)
    else if seg[0] == '=' then ([], Some(seg[1..]))
    else
      var rest := SplitFirst(seg[1..]);
      assert seg == [seg[0]] + seg[1..];
      ([seg[0]] + rest.0, rest.1)
  }

  /** The split is at the first '=': a key without '=' followed by '='
      is split off whatever the value holds, '=' included. */
  lemma {:induction false} SplitFirstAtFirst(k: string, v: string)
    requires '=' !in k
    ensures SplitFirst(k + "=" + v) == (k, Some(v))
    decreases |k|
  {
    var seg := k + "=" + v;
    if k == [] {
      assert seg[0] == '=' && seg[1..] == v;
    } else {
      SplitFirstAtFirst(k[1..], v);
      assert seg[0] == k[0] && seg[1..] == k[1..] + "=" + v;
      assert [k[0]] + k[1..] == k;
    }
  }

  // ---------------------------------------------------------------------
  // The query parameters

  /** decode: a missing value stays missing. */
  function DecodeOption(decode: Decoder, v: Option<string>): (r: Option<string>)
    ensures r.None? <==> v.None?
    ensures v.Some? ==> r.value == decode(v.value)
  {
    match v
    case None => None
    case Some(x) => Some(decode(x))
  }

  /** The segments a query is split into; none for a null or blank query. */
  function QuerySegments(query: Option<string>): seq<string> {
    if query.None? || IsBlank(query.value) then [] else Segments(Trim(query.value))
  }

  /** One segment as a decoded pair whose value may be missing. */
  function Pair(decode: Decoder, seg: string): (string, Option<string>) {
    var kv := SplitFirst(seg);
    (decode(kv.0), DecodeOption(decode, kv.1))
  }

  /** getQueryParameters as evidently intended: a segment without '=' gives
      a pair with a missing value. Each pair comes from the segment at the
      same position: its key is the decoded text before the first '=', its
      value the decoded rest, and the value is missing exactly when the
      segment has no '='. */
  function QueryParameters(decode: Decoder, query: Option<string>): (r: seq<(string, Option<string>)>)
    ensures |r| == |QuerySegments(query)|
    ensures forall i :: 0 <= i < |r| ==> (r[i].1.None? <==> '=' !in QuerySegments(query)[i])
    ensures forall i :: 0 <= i < |r| && r[i].1.None? ==> r[i].0 == decode(QuerySegments(query)[i])
    ensures forall i :: 0 <= i < |r| && r[i].1.Some? ==>
      exists k, v :: '=' !in k && QuerySegments(query)[i] == k + "=" + v && r[i].0 == decode(k) && r[i].1.value == decode(v)
  {
    var segs := QuerySegments(query);
    var r := seq(|segs|, i requires 0 <= i < |segs| => Pair(decode, segs[i]));
    assert forall i :: 0 <= i < |r| && r[i].1.Some? ==>
      exists k, v :: '=' !in k && segs[i] == k + "=" + v && r[i].0 == decode(k) && r[i].1.value == decode(v) by {
      forall i | 0 <= i < |r| && r[i].1.Some?
        ensures exists k, v :: '=' !in k && segs[i] == k + "=" + v && r[i].0 == decode(k) && r[i].1.value == decode(v)
      {
        var kv := SplitFirst(segs[i]);
        assert '=' !in kv.0 && segs[i] == kv.0 + "=" + kv.1.value;
      }
    }
    r
  }

  /** getQueryParameters as written: Map.entry refuses a null value, so the
      first segment without '=' ends the whole call. */
  function QueryParametersAsWritten(decode: Decoder, query: Option<string>): Result<seq<(string, string)>> {
    EntriesOf(decode, QuerySegments(query))
  }

  function EntriesOf(decode: Decoder, segs: seq<string>): (r: Result<seq<(string, string)>>)
    decreases |segs|
  {
    if segs == [] then Ok([])
    else
      var p := Pair(decode, segs[0]);
      if p.1.None? then Err(NullQueryValue(segs[0]))
      else
        var rest :- EntriesOf(decode, segs[1..]);
        Ok([(p.0, p.1.value)] + rest)
  }

  // ---------------------------------------------------------------------
  // Properties

  /** A null or blank query has no parameters, in both versions. */
  lemma NullOrBlankIsEmpty(decode: Decoder, query: Option<string>)
    requires query.None? || IsBlank(query.value)
    ensures QueryParameters(decode, query) == []
    ensures QueryParametersAsWritten(decode, query) == Ok([])
  {
  }

  /** Decoding that changes nothing. */
  function Verbatim(s: string): string {
    s
  }

  /** With decoding that changes nothing, each pair written out again is
      the segment it came from. */
  lemma PairsEncodeSegments(segs: seq<string>, ps: seq<(string, Option<string>)>)
    requires |ps| == |segs| && forall i :: 0 <= i < |segs| ==> ps[i] == Pair(Verbatim, segs[i])
    ensures Encoded(ps) == segs
  {
    forall i | 0 <= i < |segs| ensures Encoded(ps)[i] == segs[i] {
      var kv := SplitFirst(segs[i]);
      assert DecodeOption(Verbatim, kv.1) == kv.1;
      assert ps[i] == (kv.0, kv.1);
    }
  }

  /** With decoding that changes nothing, the pairs of a trimmed query that
      does not end in '&' write the query out again, in order. */
  lemma PairsRoundTrip(query: string)
    requires !IsBlank(query) && Trim(query) != [] && Trim(query)[|Trim(query)| - 1] != '&'
    ensures Join(Encoded(QueryParameters(Verbatim, Some(query))), '&') == Trim(query)
  {
    var t := Trim(query);
    SegmentsJoin(t);
    assert QuerySegments(Some(query)) == Segments(t);
    PairsEncodeSegments(Segments(t), QueryParameters(Verbatim, Some(query)));
  }

  /** Each pair written as key, or key '=' value. */
  function Encoded(ps: seq<(string, Option<string>)>): (r: seq<string>)
    ensures |r| == |ps|
    ensures forall i :: 0 <= i < |ps| ==> r[i] == ps[i].0 + (if ps[i].1.Some? then "=" + ps[i].1.value else "")
  {
    seq(|ps|, i requires 0 <= i < |ps| => ps[i].0 + (if ps[i].1.Some? then "=" + ps[i].1.value else ""))
  }

  /** The version as written fails exactly when some segment has no '=',
      and otherwise gives the same pairs as the intended version. */
  lemma {:induction false} EntriesFailOnMissingValue(decode: Decoder, segs: seq<string>)
    ensures EntriesOf(decode, segs).Err? <==> exists i :: 0 <= i < |segs| && '=' !in segs[i]
    ensures EntriesOf(decode, segs).Ok? ==>
      |EntriesOf(decode, segs).value| == |segs|
      && forall i :: 0 <= i < |segs| ==>
        Pair(decode, segs[i]).1.Some?
        && EntriesOf(decode, segs).value[i] == (Pair(decode, segs[i]).0, Pair(decode, segs[i]).1.value)
    decreases |segs|
  {
    if segs != [] {
      EntriesFailOnMissingValue(decode, segs[1..]);
      if '=' in segs[0] {
        assert forall i :: 1 <= i < |segs| ==> segs[i] == segs[1..][i - 1];
        if EntriesOf(decode, segs[1..]).Err? {
          var j :| 0 <= j < |segs[1..]| && '=' !in segs[1..][j];
          assert '=' !in segs[j + 1];
        }
      }
    }
  }

  lemma AsWrittenFailsOnMissingValue(decode: Decoder, query: Option<string>)
    ensures var segs := QuerySegments(query);
      QueryParametersAsWritten(decode, query).Err? <==> exists i :: 0 <= i < |segs| && '=' !in segs[i]
    ensures QueryParametersAsWritten(decode, query).Ok? ==>
      |QueryParametersAsWritten(decode, query).value| == |QueryParameters(decode, query)|
      && forall i :: 0 <= i < |QueryParameters(decode, query)| ==>
        QueryParametersAsWritten(decode, query).value[i]
          == (QueryParameters(decode, query)[i].0, QueryParameters(decode, query)[i].1.value)
  {
    EntriesFailOnMissingValue(decode, QuerySegments(query));
  }

  lemma ExampleTrim()
    ensures !IsBlank("k=v=w&x") && Trim("k=v=w&x") == "k=v=w&x"
  {
    var q := "k=v=w&x";
    assert !IsWhitespace(q[0]);
    assert TrimStart(q) == q;
    assert TrimEnd(q) == q;
  }

  /** Two pieces without '&', the second not empty, joined by one '&',
      split back into those two pieces. */
  lemma SegmentsOfTwo(a: string, b: string)
    requires '&' !in a && '&' !in b && b != []
    ensures Segments(a + ['&'] + b) == [a, b]
  {
    SplitOnFirstPiece(a, '&', b);
    SplitOnFirstPiece(b, '&', []);
    var ps := SplitOn(a + ['&'] + b, '&');
    assert ps == [a] + [b];
    assert ps[|ps| - 1] == b;
  }

  lemma ExampleSplit()
    ensures Segments("k=v=w&x") == ["k=v=w", "x"]
  {
    assert "k=v=w&x" == "k=v=w" + ['&'] + "x";
    SegmentsOfTwo("k=v=w", "x");
  }

  lemma ExampleSegments()
    ensures QuerySegments(Some("k=v=w&x")) == ["k=v=w", "x"]
  {
    ExampleTrim();
    ExampleSplit();
  }

  lemma ExamplePair()
    ensures SplitFirst("k=v=w") == ("k", Some("v=w"))
  {
    assert "k=v=w" == "k" + "=" + "v=w";
    SplitFirstAtFirst("k", "v=w");
  }

  /** "k=v=w&x": the value of k keeps its second '=' and x has no value. */
  lemma QueryExample(query: string)
    requires query == "k=v=w&x"
    ensures var ps := QueryParameters(Verbatim, Some(query));
      |ps| == 2 && ps[0] == ("k", Some("v=w")) && ps[1] == ("x", None)
  {
    ExampleSegments();
    ExamplePair();
    var segs := QuerySegments(Some(query));
    assert segs == ["k=v=w", "x"];
    assert Pair(Verbatim, segs[0]) == ("k", Some("v=w"));
    assert Pair(Verbatim, segs[1]) == ("x", None);
  }

  /** The version as written fails on the same query, at x. */
  lemma QueryExampleAsWritten(query: string)
    requires query == "k=v=w&x"
    ensures QueryParametersAsWritten(Verbatim, Some(query)) == Err(NullQueryValue("x"))
  {
    ExampleSegments();
    ExamplePair();
    var segs := QuerySegments(Some(query));
    assert segs == ["k=v=w", "x"];
    assert Pair(Verbatim, segs[0]) == ("k", Some("v=w"));
    assert Pair(Verbatim, segs[1]) == ("x", None);
    assert segs[1..] == ["x"];
    assert EntriesOf(Verbatim, segs[1..]) == Err(NullQueryValue("x"));
  }
}
